=== FILE: README.md ===
# Postnatal stories backend — a Dafny model of its decision logic

The backend lets parents share recovery stories after a difficult postnatal period.
A story is submitted, screened for crisis content, generated into a narrative by a
language model (with a template fallback), moderated, and published. Readers then
find similar stories, save them, and list their own submissions. This project models
the pure logic inside that backend and proves what it promises:

- **Story matching** (`StoryMatcher`): the labelled `" | "`-joined text a story is embedded
  from, the fixed theme vocabulary, the match explanation, and the ranking of scored
  candidates (threshold, stable descending sort, top-k, embedding stripped).
- **Keyword classifiers**: content-risk grading and concern flagging (`ContentRisk`),
  the crisis filter (`ContentFilter`), rule-based symptom extraction and insights
  (`Symptoms`), all over ASCII-lower-cased plain substring tests (`Keywords`).
- **Templates and model fallback** (`Templates`, `Generation`): the fallback recovery
  story and supportive message with their truncation markers, the prompt builders, and
  the "first model whose stripped output is long enough, else the fallback" loops.
- **Collections as state machines**: saved stories (`SavedStories`,
  `SavedStoriesRouter`), the moderation move from pending to approved (`Moderation`),
  user accounts (`Users`) and the per-user listing that merges three collections
  (`StoriesRouter`).
- **Scheduling and settings** (`Backup`, `Config`): the daily backup time, backup
  naming, listing and retention, the origin list and secret-key validators and the
  profile choice.

Model calls, the sentence encoder, cosine similarity, the clock and database failures
are parameters: an abstract `query: (string, string) -> Option<string>`, an abstract
`encode` and `cosine` returning `Option` (`None` when the call raises), a time `now` in
integer seconds, and a `fault: bool` that stands for the database raising. Documents
are maps from field names to a small value type (`Documents.Doc`). HTTP answers are
`Http.Response`: a body, or a status code with a detail text.

The shared building blocks are `Strings` (ASCII lower-casing, `strip`, substring
search, `split`/`join`, slicing), `Seqs` (order-preserving selection), `Sorting` (a
stable descending sort with its uniqueness proof) and `Wrappers` (`Option`, `Result`).

## Model

| member | source | states |
|---|---|---|
| StoryMatcher.ComposeParts | backend/services/story_matcher.py:33-60 | one rendered part per present field, in the fixed order Challenge, Experience, Solution, Advice, Symptoms, Story; a string key_symptoms is joined character by character; absent or empty fields contribute nothing; at most six parts |
| StoryMatcher.ComposeText | backend/services/story_matcher.py:33-60 | the composed text is empty exactly when no field is present |
| StoryMatcher.ComposeEmpty | backend/services/story_matcher.py:60 | joining the parts with " \| " gives "" iff every field is absent |
| StoryMatcher.StoryPart | backend/services/story_matcher.py:54-58 | the Story part holds the narrative verbatim up to 500 characters, otherwise its first 500 characters followed by "..." |
| StoryMatcher.ExtractThemes | backend/services/story_matcher.py:138-162 | a theme is reported iff one of its keywords is a substring of the lower-cased text; results follow vocabulary order, without duplicates, at most twelve |
| StoryMatcher.CommonThemes | backend/services/story_matcher.py:127-131 | lists every theme found both in the query and in the story's composed text, each once |
| StoryMatcher.ExplainMatch | backend/services/story_matcher.py:125-136 | "Similar experiences with: " and the shared themes when some theme is shared (any enumeration order of the set); otherwise exactly the generic sentence |
| StoryMatcher.Candidates | backend/services/story_matcher.py:82-85 | exactly the documents with an embedding and status "approved" |
| StoryMatcher.Scan | backend/services/story_matcher.py:87-100 | every scored entry is at or above the threshold; a candidate whose scoring fails is skipped without stopping the scan; every candidate scoring at or above the threshold is kept |
| StoryMatcher.RankTagged | backend/services/story_matcher.py:103-106 | the ranked entries are stably sorted by descending similarity, keep their scan positions, and number min(top_k, scored) |
| StoryMatcher.Rank | backend/services/story_matcher.py:103-106 | the ranked entries come from the scored ones, in non-increasing similarity, cut to top_k |
| StoryMatcher.Present | backend/services/story_matcher.py:107-111 | the returned copy has no "embedding" key, every other field unchanged, and `_id` stringified |
| StoryMatcher.GenerateEmbedding | backend/services/story_matcher.py:62-69 | an encoder failure yields the empty vector instead of raising |
| StoryMatcher.Results | backend/services/story_matcher.py:113-117 | one result per ranked entry, in ranked order, carrying its similarity and match explanation |
| StoryMatcher.Respond | backend/services/story_matcher.py:87-119 | results are at or above the threshold, in non-increasing similarity, at most top_k and at most the number of candidates that scored, embedding-free, each the copy of an approved embedded document with that score |
| StoryMatcher.FindSimilar | backend/services/story_matcher.py:71-123 | an encoder or collection failure gives []; otherwise the ranked, thresholded, top-k results |
| StoryMatcher.RankComplete | backend/services/story_matcher.py:103-106 | an entry that passed the threshold is returned, or top_k entries at least as similar were returned instead |
| StoryMatcher.RespondComplete | backend/services/story_matcher.py:87-119 | an approved embedded candidate scoring at or above the threshold is in the answer unless top_k stories at least as similar fill it |
| StoryMatcher.FindSimilarComplete | backend/services/story_matcher.py:71-123 | top-k completeness of the whole search once the query is encoded |
| ContentRisk.AssessContentRisk | backend/database/database.py:424-452 | "high" iff a high-risk keyword occurs in the lower-cased combined text; otherwise "medium" for three or more medium keywords, "low" for one or two, "minimal" for none |
| ContentRisk.MediumKeywordsDistinct | backend/database/database.py:435-438 | the medium-risk keyword list has no repeats, so the count counts distinct keywords |
| ContentRisk.AssessMonotone | backend/database/database.py:424-452 | appending text to the generated story never lowers the grade |
| ContentRisk.SubstringInsideWord | backend/database/database.py:440-443 | plain substring tests grade "I studied" as "high" because it contains "die" |
| ContentRisk.CheckKeywords | backend/database/database.py:455-469 | exactly the concern keywords occurring in the lower-cased text, in list order, without duplicates |
| ContentRisk.FlaggedImpliesRisk | backend/database/database.py:424-469 | text with a flagged concern keyword is never graded "minimal" |
| ContentFilter.GetRiskAssessment | backend/database/database.py:613-643 | "critical" iff immediate attention is required; else "high" for three or more urgent keywords, "moderate" for one or two, "low" for none; intervention iff critical or high; the action follows the level |
| ContentFilter.ImmediateImpliesCritical | backend/database/database.py:607-625 | text that needs immediate attention is assessed "critical" and requires intervention |
| ContentFilter.AssessmentMonotone | backend/database/database.py:613-643 | appending text never lowers the assessed level |
| Users.CreateUser | backend/database/database.py:299-333 | a failing lookup fails the call before the existence check; a registered lower-cased email is refused; a failing insert fails; every refusal leaves the users unchanged; otherwise one record is appended with the lower-cased email, role "user", active, unverified, and display name defaulting to "Anonymous" |
| Users.CreatePreservesWellFormed | backend/database/database.py:299-333 | registration keeps every stored email lower-case and unique |
| Users.CaseInsensitiveEmails | backend/database/database.py:303-305 | a second registration with an email differing only in case is refused |
| Symptoms.Identified | backend/services/symptom_service.py:68-81 | the nested category loop is the flat keyword scan; a keyword is reported iff it belongs to a category and occurs |
| Symptoms.Affected | backend/services/symptom_service.py:83-91 | a category is affected iff one of its keywords occurs, in category order |
| Symptoms.ConcernsFound | backend/services/symptom_service.py:105-117 | a concern is reported iff one of its triggers occurs, in mapping order |
| Symptoms.SeverityOf | backend/services/symptom_service.py:94-102 | "severe" for three or more severity words, "moderate" for one or two, "mild" for none |
| Symptoms.ExtractRuleBased | backend/services/symptom_service.py:65-125 | symptoms are the matching keywords in category-then-keyword order cut to ten, with the untruncated total; affected categories, a singleton severity list, at most five concerns, method "rule_based" |
| Symptoms.SymptomsInAffectedCategories | backend/services/symptom_service.py:83-91 | every reported symptom belongs to a category reported as affected |
| Symptoms.Resources | backend/services/symptom_service.py:162-172 | the anxiety, sleep and bonding resources, in that order, each present iff some key concern contains that word |
| Symptoms.GetSymptomInsights | backend/services/symptom_service.py:127-173 | "high" for eight or more symptoms, four or more categories or "severe"; else "medium" for four or more, two or more or "moderate"; else "low"; three recommendations per level; an empty severity list raises |
| Symptoms.InsightsOfSingleSeverity | backend/services/symptom_service.py:132-137 | a record with one severity entry never fails, and "severe" alone makes the risk high |
| Symptoms.RuleBasedInsights | backend/services/symptom_service.py:65-173 | insights over a rule-based extraction never fail, and severe wording alone makes the risk high |
| Templates.Section | backend/routers/stories.py:35 | a section holds the text verbatim when it fits, otherwise its first n characters and "..." |
| Templates.SectionIgnoresTail | backend/routers/stories.py:35-38 | texts longer than the cut that share their first n characters give the same section |
| Templates.FallbackRecoveryStory | backend/routers/stories.py:32-40 | the fallback story starts with "Recovery Story: Overcoming " and the challenge, ends with the fixed encouragement, and only the challenge is unbounded (main.py:117-126 is the same function) |
| Templates.FallbackLayout | backend/routers/stories.py:34-39 | the sections come in order, and the advice section is empty iff the advice is |
| Templates.FallbackIgnoresExperienceTail | backend/routers/stories.py:35 | only the first 150 characters of the experience reach the fallback story |
| Templates.FallbackSupportiveMessage | backend/services/story_service.py:81-89 | fixed opening and closing sentences around an 80-character experience excerpt and a 60-character feelings excerpt, bounded in length |
| Templates.MessageLayout | backend/services/story_service.py:81-89 | the message is the opening sentence, the experience section, the feelings section and the closing sentences, in that order; inputs within 80 and 60 characters appear whole, longer ones as their first 80 and 60 characters followed by "..." |
| Templates.MessageIgnoresTails | backend/services/story_service.py:81-89 | only the first 80 characters of the experience and 60 of the feelings reach the message |
| Templates.RecoveryPrompt | backend/services/story_service.py:10-28 | the Challenge, Experience, Solution and Advice lines carry their inputs in that order, and the prompt ends with "Story:" |
| Templates.SupportivePrompt | backend/services/story_service.py:30-46 | the experience line precedes the feelings line after the fixed preamble |
| Generation.FirstAccepted | backend/services/story_service.py:54-65 | the index of the first output whose stripped length exceeds the bound, or none iff no output qualifies |
| Generation.FirstToQualifyUnique | backend/services/story_service.py:54-65 | at most one output is the first to qualify |
| Generation.Choose | main.py:78-97 | the story and model are the first qualifying model's stripped output, or the fallback under "fallback" |
| Generation.GenerateWithFallback | services/story_service.py:50-97 | an outer failure gives success False with the fallback and no message; otherwise success with the selected story and model |
| Generation.GenerateRecoveryStory | main.py:68-115 | the first model whose stripped output exceeds 100 characters wins, else the fallback story; an outer failure gives success False with the fallback |
| Generation.GenerateFirst | backend/services/story_service.py:48-79 | returns at the first model whose stripped output exceeds the bound, else the fallback with success True |
| Generation.SelectedUnique | backend/services/story_service.py:54-79 | the selection fixes the story and the model name |
| Generation.EarlyReturnAgrees | services/story_service.py:60-80 | breaking out of the loop and re-checking the length answers like returning at once |
| Generation.FailingModelSkipped | backend/services/story_service.py:54-65 | a model that raises is skipped and the next qualifying model is used |
| Generation.GenerateSupportiveMessage | backend/services/story_service.py:48-79 | the first model whose stripped output exceeds 50 characters, else the fallback message, always with success True |
| Generation.GenerateSupportiveMessageLegacy | services/story_service.py:50-97 | the same selection inside an outer try; an outer failure gives success False with the fallback message |
| Generation.SupportiveCopiesAgree | services/story_service.py:50-97 | without an outer failure the two copies of the supportive-message generator answer identically |
| Generation.TransformStory | main.py:152-178 | a blank challenge, experience or solution gives 400; a generator reply without a message gives 500; a reply echoing a null author name gives 500, since the response model wants a string (main.py:38, 47); otherwise the reply |
| Generation.NullAuthorFails | main.py:37-48 | a request whose author name is null fails even when a model answers, because the generator echoes the name |
| Generation.ExtractSymptomsEndpoint | main.py:180-210 | a blank experience gives 400 "Experience cannot be empty"; a pipeline that raises gives 500 "Failed to extract symptoms: " followed by the exception text; otherwise the pipeline's answer |
| Generation.EmptySeverityFails | main.py:187-210 | for an extracted record whose fields are absent or lists of strings: past the blank check, the endpoint answers 500 "Failed to extract symptoms: list index out of range" exactly when the severity list is empty (backend/services/symptom_service.py:132), and otherwise answers with the record and its insights |
| StoriesRouter.SubmitStory | backend/routers/stories.py:44-71 | blank required fields give 400 before anything else; a crisis reply with the resources comes back iff the assessment of experience and advice requires intervention |
| StoriesRouter.CrisisInExperienceStops | backend/routers/stories.py:57-71 | an experience that alone requires intervention stops the submission whatever the advice |
| StoriesRouter.CrisisInAdviceStops | backend/routers/stories.py:57-71 | a crisis keyword anywhere in the advice stops the submission |
| StoriesRouter.FindSimilarStories | backend/routers/stories.py:157-186 | blank input gives 400 "Story text is required", a stripped length under 10 gives 400 "Please provide more details…"; otherwise the matcher's results with top_k 9 and threshold 0.1, the count and the message |
| StoriesRouter.RequestUsesConfiguredDefaults | backend/routers/stories.py:171-175 | the search uses the configured matching defaults, 9 results at threshold 0.1 |
| StoriesRouter.BlankIsTooShort | backend/routers/stories.py:164-168 | blank input is never long enough to search |
| StoriesRouter.Scrub | backend/routers/stories.py:130-135 | the keys removed are exactly the given ones, every other field unchanged |
| StoriesRouter.ScrubIdempotent | backend/routers/stories.py:130-135 | removing the fields twice removes nothing more |
| StoriesRouter.Kept | backend/routers/stories.py:124-127 | the kept stories are a sub-multiset of what was fetched: all of them, in order, without a shuffle or when no more than `limit` came back, else `limit` of the shuffled list |
| StoriesRouter.GetApprovedStories | backend/routers/stories.py:119-141 | no listed story carries a sensitive field; the listing is a sub-multiset of the fetched stories, each scrubbed, so no fetched story is listed more often than it was fetched; the count equals the number listed, and a shuffle keeps `limit` of them |
| StoriesRouter.GetStory | backend/routers/stories.py:143-155 | a missing or empty document gives 404 "Story not found"; otherwise the document without the two scoring fields |
| StoriesRouter.NewestFirst | backend/routers/stories.py:240-242 | a permutation with dated documents first, newest first, undated ones last |
| StoriesRouter.CursorLimit | backend/routers/stories.py:242 | a limit of zero returns everything; otherwise the first min(n, \|limit\|) documents |
| StoriesRouter.Fetch | backend/routers/stories.py:240-248 | only the user's documents, as many as the limit allows, newest first; all of them when the limit is zero or covers them |
| StoriesRouter.Entry | backend/routers/stories.py:245-247 | `id` is the stringified `_id`, `status` names the collection, `_id` is dropped, every other field kept |
| StoriesRouter.GetUserStories | backend/routers/stories.py:226-287 | the merged, tagged entries in non-increasing creation time, each from one of the user's documents; for a limit of zero or more exactly min(limit, total) of them, and no merged entry left out is newer than one shown; counts per collection and their sum; 500 "Error fetching stories" iff a driver call raises, a fetched document lacks `_id`, or dated and undated entries must be compared |
| StoriesRouter.RoomyListingShowsAll | backend/routers/stories.py:240-282 | when the user owns at most limit documents in all, every one of them is listed under its collection's status |
| StoriesRouter.Merge | backend/routers/stories.py:273 | the tagged pending, approved and rejected entries, each from its own collection |
| StoriesRouter.NewestCut | backend/routers/stories.py:274-278 | the first limit entries (all but the last -limit for a negative limit) of the stable newest-first sort of the merged list: exactly min(limit, size) of them, non-increasing, and none left out newer than one kept |
| StoriesRouter.MergeComplete | backend/routers/stories.py:244-272 | every fetched document of each collection appears in the merged list, tagged with that collection's status |
| StoriesRouter.ShownFromUser | backend/routers/stories.py:240-278 | every listed entry is the tagged form of one of the user's documents from the collection its status names |
| StoriesRouter.ZeroLimitListsNothing | backend/routers/stories.py:242-282 | with limit 0 the list is empty while the counts cover all of the user's stories |
| SavedStories.SaveStory | backend/database/models/saved_stories.py:13-52 | a failing lookup fails the call first; an existing pair gives "already saved"; a failing insert fails; every refusal changes nothing; otherwise exactly this record is added, and the pairs become the old pairs plus this one |
| SavedStories.SavePreservesNoDuplicates | backend/database/models/saved_stories.py:16-36 | saving keeps every pair recorded at most once |
| SavedStories.SaveIdempotent | backend/database/models/saved_stories.py:16-36 | a second save of the same pair changes nothing |
| SavedStories.UnsaveStory | backend/database/models/saved_stories.py:55-82 | succeeds iff a record of the pair existed, removing exactly one; otherwise "not found" with no change; the pair is forgotten in a duplicate-free collection |
| SavedStories.SaveThenUnsave | backend/database/models/saved_stories.py:13-82 | unsaving a story that was just saved restores the collection exactly |
| SavedStories.IsStorySaved | backend/database/models/saved_stories.py:153-163 | true iff the pair is recorded, and false on a database error |
| SavedStories.Joined | backend/database/models/saved_stories.py:94-104 | every row joins a save of the window with the approved story its id names; with unique ids at most one row per save |
| SavedStories.JoinedComplete | backend/database/models/saved_stories.py:94-104 | every save of the window whose story is approved yields its row |
| SavedStories.JoinedNewestFirst | backend/database/models/saved_stories.py:91-104 | a window in newest-first order joins into rows in non-increasing saved_at order |
| SavedStories.Window | backend/database/models/saved_stories.py:92-93 | `$skip` then `$limit`: the slice of the sorted saves from position skip, at most limit long |
| SavedStories.SavedEntry | backend/database/models/saved_stories.py:105-130 | the projected story fields, `id` the story's id, `saved_at` the save's time, no `_id` |
| SavedStories.GetSavedStories | backend/database/models/saved_stories.py:85-150 | on success the rows list some newest-first window (positions skip to skip+limit) of the user's saves: rows in non-increasing saved_at, one for every save of the window whose story is approved, and no other; displayed_count is the list length and, with unique story ids, at most limit; total_count counts all the user's saves; a negative skip, a non-positive limit, a fault or an id `ObjectId()` rejects inside the window fails the call with the listing error, and nothing else does |
| SavedStories.WindowListing | backend/database/models/saved_stories.py:89-104 | the page the pipeline computes is a newest-first window of the user's saves and its join lists exactly that window |
| SavedStories.GetStats | backend/database/models/saved_stories.py:166-188 | total and seven-day counts of the user's saves, recent never above total, zeros on error |
| SavedStories.CleanupAsWritten | backend/database/models/saved_stories.py:191-223 | the cleanup as written keeps a save iff its stored id text, compared as is, equals the printed id of an approved story that some save names; kept and removed add up to the saves |
| SavedStories.UpperCaseIdDeleted | backend/database/models/saved_stories.py:198-213 | a save naming an approved story with upper-case hex is deleted as written and kept by the corrected cleanup |
| SavedStories.CleanupCorrected | backend/database/models/saved_stories.py:191-223 | keeps exactly the saves that are not orphans (valid id naming an approved story), in order, and reports the number removed |
| SavedStories.CleanupCorrectedIdempotent | backend/database/models/saved_stories.py:191-223 | running the corrected cleanup again removes nothing |
| SavedStories.CleanupAgreesOnPrintedIds | backend/database/models/saved_stories.py:191-223 | on ids spelled the way they print, the cleanup as written and the corrected one agree |
| SavedStoriesRouter.SaveEndpoint | backend/routers/saved_stories.py:27-64 | a blank id gives 400; a failing lookup, or a failing insert of a new pair, gives 500 "Failed to save story" with no change; otherwise success with is_saved true and the pair saved, "already in your saved collection" when it was saved already |
| SavedStoriesRouter.LookupFaultFailsSave | backend/routers/saved_stories.py:27-64 | a lookup that raises answers 500 even for a story already saved |
| SavedStoriesRouter.UnsaveEndpoint | backend/routers/saved_stories.py:66-103 | a blank id gives 400; a failure gives 500; otherwise success with is_saved false, and the pair is gone |
| SavedStoriesRouter.ToggleEndpoint | backend/routers/saved_stories.py:105-149 | a blank id gives 400; a saved story is unsaved and reported not saved; otherwise it is saved and reported saved |
| SavedStoriesRouter.ToggleFlips | backend/routers/saved_stories.py:119-145 | without faults a toggle flips whether the story is saved and reports the new state |
| SavedStoriesRouter.ToggleTwiceRestores | backend/routers/saved_stories.py:119-145 | two toggles restore the set of saved pairs |
| SavedStoriesRouter.ToggleAfterFailedCheck | backend/routers/saved_stories.py:119-145 | when the saved check fails on a saved story, the toggle reports it added while nothing changes |
| SavedStoriesRouter.CheckEndpoint | backend/routers/saved_stories.py:181-202 | always answers, true iff the pair is recorded and the check did not fail |
| SavedStoriesRouter.ListEndpoint | backend/routers/saved_stories.py:151-179 | a failed listing gives 500; otherwise displayed_count is the list length and total_count the user's saves |
| SavedStoriesRouter.CleanupEndpoint | backend/routers/saved_stories.py:223-243 | refused with 403 unless the role is "admin"; otherwise removes exactly the orphans and reports how many |
| Moderation.RequireModerator | backend/routers/moderation.py:18-22 | admits iff the role is "moderator" or "admin"; otherwise 403 "Insufficient permissions" |
| Moderation.PendingEndpoint | backend/routers/moderation.py:24-35 | the count equals the number of stories returned, after the role gate |
| Moderation.StoryDetails | backend/routers/moderation.py:37-49 | the pending document with `_id` printed; 404 if absent; an id ObjectId rejects gives 500 |
| Moderation.ApprovedForm | backend/routers/moderation.py:62-67 | every field kept, plus status "approved", approved_by the moderator's email and approved_at |
| Moderation.Approve | backend/routers/moderation.py:51-75 | 403 for a caller who is not a moderator; 500 with no change for an id ObjectId rejects, a raising `find_one` or `insert_one`, or a duplicate id; 404 with no change when the id is not pending; a raising `delete_one` answers 500 after the insert, leaving the approved form published and the pending copy in place; otherwise the reply "✅ Story approved and published" and the document moves from pending to approved in its approved form under the same `_id` |
| Moderation.Reject | backend/routers/moderation.py:77-94 | the reply "Story rejected and removed from queue"; the pending document is deleted and stored nowhere; 404 iff nothing was deleted; a raising `delete_one` answers 500 with no change |
| Moderation.ApprovePreservesConsistent | backend/routers/moderation.py:51-75 | approval keeps both collections keyed by their ids; a story ends up in both exactly when `delete_one` raises after a successful insert, and then only that story |
| Moderation.RejectPreservesConsistent | backend/routers/moderation.py:77-94 | rejection keeps the collections consistent |
| Moderation.ApproveConservesStories | backend/routers/moderation.py:62-70 | approval moves a story: the total over both collections is unchanged, except one more when `delete_one` raises after the insert |
| Moderation.RejectDiscardsOne | backend/routers/moderation.py:84-87 | a successful rejection discards exactly one story |
| Moderation.IdCaseIrrelevant | backend/routers/moderation.py:84 | an id written with upper-case hex reaches the same story as its printed form |
| Backup.BackupPath | backend/backup_manager.py:22-23 | the backup directory ends with "backup_" followed by the timestamp |
| Backup.CreateBackup | backend/backup_manager.py:19-57 | the backup is reported iff mongodump exits with 0, with its path and timestamp |
| Backup.ListBackups | backend/backup_manager.py:94-116 | exactly the entries named "backup_…" that are directories, newest first; a failure mid-scan returns the entries collected so far, unsorted |
| Backup.CreatedIsListed | backend/backup_manager.py:22-23 | a backup this manager creates is listed |
| Backup.CleanupOldBackups | backend/backup_manager.py:118-136 | removes exactly the backups created strictly before now minus keep_days, in listing order, and counts them |
| Backup.LongerRetentionRemovesLess | backend/backup_manager.py:121-129 | a longer retention removes only backups a shorter one would also remove |
| Backup.NextBackup | backend/backup_manager.py:169-177 | today at hour:00:00 when that is ahead, otherwise tomorrow: 0 < next − now ≤ one day and the time of day is the hour; an hour outside 0..23 raises |
| Backup.NextBackupEarliest | backend/backup_manager.py:169-174 | the next backup is the earliest hour:00:00 strictly after now |
| Backup.Scheduler | backend/backup_manager.py:163-191 | each pass backs up only if still running after the wait, at the next backup time, and cleans up iff the backup succeeded; the loop ends at the first pass that finds it stopped |
| Backup.SchedulerSplits | backend/backup_manager.py:168-191 | passes are independent: while every earlier pass finds the scheduler running, the runs of a longer history are the earlier runs followed by the later ones |
| Backup.StopIgnoresLater | backend/backup_manager.py:168-191 | a pass that finds the scheduler stopped ends the loop, so later passes change nothing |
| Config.ParseOrigins | backend/config.py:48-51 | one entry per comma-separated piece (commas plus one), each the stripped piece, without commas or surrounding blanks |
| Config.ParseOriginsRoundTrip | backend/config.py:48-51 | a list whose pieces carry no surrounding blanks joins back into the text it was parsed from |
| Config.SingleOrigin | backend/config.py:23 | a text without commas or surrounding blanks, such as the default origin, parses into the one-entry list holding it |
| Config.ValidateSecretKey | backend/config.py:53-58 | a key shorter than 32 characters is refused with the message; a longer one passes unchanged |
| Config.ChooseProfile | backend/config.py:72-78 | production iff ENVIRONMENT, lower-cased, is "production"; unset means development |
| Config.FieldErrors | backend/config.py:13-17 | no errors iff both required fields are set and the key is long enough; a short key is reported as "Value error, JWT_SECRET_KEY must be at least 32 characters" (backend/config.py:53-58) |
| Config.GetSettings | backend/config.py:7-78 | fails iff a required field is missing or the key is short; otherwise every field comes from the environment or the profile's or class's default |
| Config.ProfileDefaults | backend/config.py:64-78 | without overrides, production runs without debug at WARNING and any other environment with debug at DEBUG |
| Config.ProfileIgnoresCase | backend/config.py:73 | the environment name is matched without regard to letter case |
| Sorting.SortDesc | backend/services/story_matcher.py:103 | `sort(reverse=True)` yields a permutation in non-increasing key order, equal keys in their input order |
| Sorting.StableDescUnique | backend/services/story_matcher.py:103 | only one list is a stably sorted permutation, so the stable sort's result is determined |

## Left out

- The embedding model, `SentenceTransformer.encode` and cosine similarity: `encode` and `cosine` are abstract partial functions; floating-point numerics are not modelled.
- MongoDB and async I/O: collections are sequences or maps, queries are functions over them, and a failing driver call is a parameter of the operation that makes it (a `fault` flag, or the failing call of `Moderation.Approve`). Indexes, connections and health checks are not part of this model.
- `Moderation.PendingEndpoint`: a pending query that raises answers FastAPI's generic 500 in the source; the member takes what the query returned.
- `Moderation.StoryDetails`: a raising `find_one` answers the generic 500 in the source; the member models only an id `ObjectId()` rejects.
- `StoriesRouter.GetApprovedStories`: a raising approved-story query answers the generic 500 in the source; the member takes what the query returned.
- `StoriesRouter.GetStory`: a raising lookup answers the generic 500 in the source; the member takes what the lookup returned.
- The check-then-insert race of `save_story` and every other concurrency: each operation is atomic.
- FastAPI routing, Pydantic request parsing and type coercion, rate limits, CORS and the middleware. The ".env" file of the settings is folded into the environment values.
- Authentication, email, text-to-speech and the model clients: a model is the abstract `query`.
- The LLM path of `extract_symptoms`: the extraction endpoint takes the pipeline as a parameter.
- `sanitize_user_input`: it depends on regular expressions and HTML escaping.
- `random.shuffle` in `get_approved_stories`: the shuffled order is a parameter, any permutation of what was fetched.
- `find_similar_stories`, `generate_recovery_story` and `get_story_recommendations`, imported by backend/routers/stories.py: backend/services/story_service.py does not define them. Find-similar is modelled on the story matcher; the generation-and-storage step of the submission, the recommendations endpoint and the themes endpoint are not modelled.
- backend/routers/stories.py:6 imports `ContentFilter` from backend/database/utils.py, which no longer defines it (utils.py:49), so that router, and backend/main.py:13 which imports it, fail at import as written. The model takes `ContentFilter` from backend/database/database.py:593-643 and models the router's handlers as if the imports resolved.
- Generation.EmptySeverityFails: main.py:14 imports `extract_symptoms` and `get_symptom_insights` from services/symptom_service.py, which is not part of this model; the extraction endpoint is composed with backend/services/symptom_service.py in its place. The record is typed, each field absent or a list of strings, so a `null` severity list (a TypeError from `None[0]`) or an empty-string one (IndexError "string index out of range"), both also a 500 with another detail, are not modelled.
- StoryMatcher.ComposeParts: the four labelled text fields and the narrative count only when they hold strings, and `key_symptoms` only as a list of strings or a string. For the four labelled fields Python renders any other truthy value through `str()` (backend/services/story_matcher.py:45-46), which is not modelled. For a truthy `generated_story` without a length (a number, flag, date or id) `len()` raises TypeError (line 55), and for a truthy `key_symptoms` that is not an iterable of strings `", ".join` raises TypeError (line 50); the text is composed inside `_explain_match` for every returned story (line 116), so in the source such a stored story among the results empties the whole search through the outer handler (lines 121-123), while the model drops the part and returns the results. A list-valued narrative, which Python renders as a list literal, is not modelled either; the submission path stores all these fields as strings.
- Generation.TransformStory: the 500 detail for a null author name keeps only the first line of the validation error's text; the rest is the validation library's wording.
- The crisis log entry written on a crisis submission and every logging call.
- `restore_backup`, the directory size in `list_backups`, and `mongodump` itself: an exit status stands for the dump.
- `StoriesRouter.FindSimilarStories`: the 500 answer is not modelled, because the matcher catches its own failures and returns [].
- `StoriesRouter.NewestFirst`: a `created_at` that is not a datetime counts as absent, and documents with equal times keep collection order.
- `Backup.NextBackup`: time is local wall-clock seconds; time zones, daylight saving and sub-second waits are left out.
- `Backup.ListBackups`: the "created" text is the ISO form of the change time, and the model sorts by the time itself, which orders the same way.
- `Backup.CleanupOldBackups`: a `keep_days` whose cutoff `datetime.now() - timedelta(days=keep_days)` falls outside the datetime range (from about 739,000 days) raises OverflowError, reported as "Cleanup failed" in the source; the model has no such bound.
- `Backup.Scheduler`: the sleep is not modelled; each pass is observed after it.
- `SavedStoriesRouter.CleanupEndpoint`: it uses the corrected cleanup, not the one as written (see Findings).
- The "Found N saved stories" message of the listing, the stats endpoint's wrapper, and `save_id`.
- `Strings.Lower`: only ASCII letters are lower-cased; Python's full Unicode case mapping is not modelled.

## Findings

| source | as written | input that shows it | evidently intended | confidence | as-written member | corrected member |
|---|---|---|---|---|---|---|
| backend/database/models/saved_stories.py:198-213 | the kept ids are `str(ObjectId)`, which prints lower-case hex, while `$nin` compares the saved `story_id` text | a save whose `story_id` is "507F1F77BCF86CD799439011" and whose approved story is "507f1f77bcf86cd799439011" | keep every save whose id names an existing approved story, whatever the case of its hex digits; the listing finds that story | not executed | SavedStories.CleanupAsWritten (shown by SavedStories.UpperCaseIdDeleted) | SavedStories.CleanupCorrected |

=== FILE: backup.dfy ===
/**
 * Database backups: where a backup is written, which directory entries
 * count as backups, which of them the retention rule removes, and when the
 * daily scheduler runs. Time is local wall-clock time in whole seconds.
 */
module Backup {
  import opened Wrappers
  import opened Strings
  import opened Seqs
  import opened Sorting

  const Day: int := 86400
  const Hour: int := 3600
  const BackupPrefix: string := "backup_"

  // ---------------------------------------------------------------------
  // Creating a backup

  /** `os.path.join(dir, name)` for a relative `name`. */
  function JoinPath(dir: string, name: string): (r: string)
    ensures |r| >= |name| && r[|r| - |name|..] == name
    ensures dir == "" ==> r == name
    ensures dir != "" ==> |r| > |name|
  {
    if dir == "" then name
    else if dir[|dir| - 1] == '/' then dir + name
    else dir + "/" + name
  }

  /** The directory a backup taken at `timestamp` is written to. */
  function BackupPath(dir: string, timestamp: string): (r: string)
    ensures |r| >= |BackupPrefix + timestamp|
    ensures r[|r| - |BackupPrefix + timestamp|..] == BackupPrefix + timestamp
  {
    JoinPath(dir, BackupPrefix + timestamp)
  }

  datatype Created = Created(path: string, timestamp: string) | BackupFailed

  /**
   * `create_backup`. `exitCode` is the `mongodump` exit status, `None` when
   * starting it raised. Only a zero status reports the backup.
   */
  function CreateBackup(dir: string, timestamp: string, exitCode: Option<int>): (r: Created)
    ensures r.Created? <==> exitCode == Some(0)
    ensures r.Created? ==> r.timestamp == timestamp && r.path == BackupPath(dir, timestamp)
  {
    if exitCode == Some(0) then Created(BackupPath(dir, timestamp), timestamp) else BackupFailed
  }

  // ---------------------------------------------------------------------
  // Listing backups

  /** An entry of the backup directory: its name, whether it is a directory, its change time. */
  datatype DirEntry = DirEntry(name: string, isDir: bool, ctime: int)

  datatype Listed = Listed(name: string, path: string, created: int)

  predicate IsBackup(e: DirEntry) {
    |e.name| >= |BackupPrefix| && e.name[..|BackupPrefix|] == BackupPrefix && e.isDir
  }

  function Describe(dir: string, e: DirEntry): Listed {
    Listed(e.name, JoinPath(dir, e.name), e.ctime)
  }

  function DescribeAll(dir: string, es: seq<DirEntry>): (r: seq<Listed>)
    ensures |r| == |es|
    ensures forall i :: 0 <= i < |es| ==> r[i] == Describe(dir, es[i])
  {
    seq(|es|, i requires 0 <= i < |es| => Describe(dir, es[i]))
  }

  function CreatedKey(b: Listed): real {
    b.created as real
  }

  /** The descriptions of the entries that are backups, newest first. */
  function SortedBackups(dir: string, entries: seq<DirEntry>): (r: seq<Listed>)
    ensures multiset(r) == multiset(DescribeAll(dir, Select(entries, IsBackup)))
    ensures forall i, j :: 0 <= i < j < |r| ==> r[i].created >= r[j].created
  {
    SortDesc(DescribeAll(dir, Select(entries, IsBackup)), CreatedKey)
  }

  /** Every listed backup describes a backup entry. */
  lemma DescribedBackups(dir: string, found: seq<DirEntry>, entries: seq<DirEntry>)
    requires forall e :: e in found ==> e in entries && IsBackup(e)
    ensures forall b :: b in DescribeAll(dir, found) ==> exists e :: e in entries && IsBackup(e) && b == Describe(dir, e)
  {
    var r := DescribeAll(dir, found);
    forall b | b in r ensures exists e :: e in entries && IsBackup(e) && b == Describe(dir, e) {
      var k :| 0 <= k < |r| && r[k] == b;
      assert found[k] in found;
    }
  }

  /** Every backup entry is described. */
  lemma BackupsDescribed(dir: string, entries: seq<DirEntry>)
    ensures forall e :: e in entries && IsBackup(e) ==> Describe(dir, e) in DescribeAll(dir, Select(entries, IsBackup))
  {
    var found := Select(entries, IsBackup);
    forall e | e in entries && IsBackup(e) ensures Describe(dir, e) in DescribeAll(dir, found) {
      var k :| 0 <= k < |found| && found[k] == e;
    }
  }

  /**
   * `list_backups` over the directory's entries. `faultAt` is the position
   * of the entry whose inspection raises, if any: the entries collected
   * before it are returned as they are, unsorted.
   */
  function ListBackups(dir: string, entries: seq<DirEntry>, faultAt: Option<nat>): (r: seq<Listed>)
    ensures forall b :: b in r ==> exists e :: e in entries && IsBackup(e) && b == Describe(dir, e)
    ensures faultAt.None? || faultAt.value >= |entries| ==>
              && |r| == |Select(entries, IsBackup)|
              && (forall e :: e in entries && IsBackup(e) ==> Describe(dir, e) in r)
              && (forall i, j :: 0 <= i < j < |r| ==> r[i].created >= r[j].created)
  {
    if faultAt.Some? && faultAt.value < |entries| then
      var found := Select(entries[..faultAt.value], IsBackup);
      DescribedBackups(dir, found, entries);
      DescribeAll(dir, found)
    else
      var found := Select(entries, IsBackup);
      var sorted := SortedBackups(dir, entries);
      SameMembers(sorted, DescribeAll(dir, found));
      DescribedBackups(dir, found, entries);
      BackupsDescribed(dir, entries);
      sorted
  }

  /** A backup this manager creates is listed: its name carries the backup prefix. */
  lemma CreatedIsListed(dir: string, timestamp: string, ctime: int, others: seq<DirEntry>)
    ensures var e := DirEntry(BackupPrefix + timestamp, true, ctime);
            Describe(dir, e) in ListBackups(dir, others + [e], None)
  {
    var e := DirEntry(BackupPrefix + timestamp, true, ctime);
    assert e.name[..|BackupPrefix|] == BackupPrefix;
    assert (others + [e])[|others|] == e;
  }

  // ---------------------------------------------------------------------
  // Retention

  datatype Cleanup = Cleanup(removed: seq<Listed>, removedCount: nat)

  /** Backups strictly older than `keepDays` days before `now`. */
  predicate Expired(b: Listed, now: int, keepDays: int) {
    b.created < now - keepDays * Day
  }

  /** `cleanup_old_backups`: every listed backup created before the cutoff is removed and counted. */
  function CleanupOldBackups(listing: seq<Listed>, now: int, keepDays: int): (r: Cleanup)
    ensures r.removedCount == |r.removed|
    ensures forall b :: b in r.removed <==> b in listing && Expired(b, now, keepDays)
    ensures IsSubsequence(r.removed, listing)
  {
    var removed := Select(listing, b => Expired(b, now, keepDays));
    Cleanup(removed, |removed|)
  }

  /** Keeping backups for longer removes only backups a shorter retention would also remove. */
  lemma LongerRetentionRemovesLess(listing: seq<Listed>, now: int, keepDays: int, longer: int)
    requires keepDays <= longer
    ensures var short := CleanupOldBackups(listing, now, keepDays);
            var long := CleanupOldBackups(listing, now, longer);
            && (forall b :: b in long.removed ==> b in short.removed)
            && long.removedCount <= short.removedCount
  {
    SelectMonotone(listing, b => Expired(b, now, longer), b => Expired(b, now, keepDays));
  }

  /** A backup made at the cutoff itself is kept: the comparison is strict. */
  lemma CutoffKept(listing: seq<Listed>, now: int, keepDays: int, b: Listed)
    requires b in listing && b.created == now - keepDays * Day
    ensures b !in CleanupOldBackups(listing, now, keepDays).removed
  {
  }

  // ---------------------------------------------------------------------
  // Scheduling

  /** Midnight of the day `now` falls in. */
  function DayStart(now: int): int {
    now - now % Day
  }

  /**
   * The next run of `start_daily_backup`: today at `hour`:00:00 when that
   * is still ahead, otherwise the same time tomorrow. An hour outside 0..23
   * makes `datetime.replace` raise.
   */
  function NextBackup(now: int, hour: int): (r: Option<int>)
    ensures r.None? <==> !(0 <= hour < 24)
    ensures r.Some? ==> 0 < r.value - now <= Day
    ensures r.Some? ==> r.value % Day == hour * Hour
  {
    if !(0 <= hour < 24) then None
    else
      var today := DayStart(now) + hour * Hour;
      var next := if now >= today then today + Day else today;
      assert DayStart(now) % Day == 0;
      Some(next)
  }

  /** The next run is the earliest `hour`:00:00 strictly after `now`. */
  lemma NextBackupEarliest(now: int, hour: int, t: int)
    requires 0 <= hour < 24
    requires t > now && t % Day == hour * Hour
    ensures NextBackup(now, hour).value <= t
  {
    var next := NextBackup(now, hour).value;
    var start := DayStart(now);
    assert start % Day == 0;
    assert t - start > now - start >= 0;
    var days := (t - start) / Day;
    assert t == start + days * Day + hour * Hour by {
      assert (t - start) % Day == hour * Hour;
    }
    if days == 0 {
      assert now < start + hour * Hour;
    }
  }

  /** One pass of the scheduler loop, observed after the wait. */
  datatype Tick = Tick(now: int, stillRunning: bool, backupSucceeded: bool)

  /** What a pass did: when it woke up, and whether it backed up and cleaned up. */
  datatype Run = Run(at: int, backedUp: bool, cleanedUp: bool)

  /**
   * `start_daily_backup`. Each tick is one pass: it sleeps until the next
   * backup time, backs up if the scheduler is still running, and cleans up
   * only after a successful backup. The loop ends at the first pass that
   * finds the scheduler stopped; an invalid hour stops it before any pass.
   */
  function Scheduler(hour: int, ticks: seq<Tick>): (r: seq<Run>)
    ensures !(0 <= hour < 24) ==> r == []
    ensures |r| <= |ticks|
    ensures forall i :: 0 <= i < |r| ==>
              && ticks[i].stillRunning
              && r[i].backedUp
              && (r[i].cleanedUp <==> ticks[i].backupSucceeded)
              && NextBackup(ticks[i].now, hour) == Some(r[i].at)
    ensures 0 <= hour < 24 && (forall i :: 0 <= i < |ticks| ==> ticks[i].stillRunning) ==> |r| == |ticks|
    ensures |r| < |ticks| && 0 <= hour < 24 ==> !ticks[|r|].stillRunning
    decreases |ticks|
  {
    if |ticks| == 0 || !(0 <= hour < 24) then []
    else
      var t := ticks[0];
      var next := NextBackup(t.now, hour).value;
      if !t.stillRunning then []
      else
        var rest := Scheduler(hour, ticks[1..]);
        assert forall i :: 1 <= i < |ticks| ==> ticks[1..][i - 1] == ticks[i];
        [Run(next, true, t.backupSucceeded)] + rest
  }

  /**
   * Passes do not depend on one another: while every pass of `first` finds
   * the scheduler running, the runs of `first + later` are those of `first`
   * followed by those of `later`.
   */
  lemma {:induction false} SchedulerSplits(hour: int, first: seq<Tick>, later: seq<Tick>)
    requires forall i :: 0 <= i < |first| ==> first[i].stillRunning
    ensures Scheduler(hour, first + later) == Scheduler(hour, first) + Scheduler(hour, later)
    decreases |first|
  {
    if |first| > 0 && 0 <= hour < 24 {
      assert (first + later)[0] == first[0];
      assert (first + later)[1..] == first[1..] + later;
      SchedulerSplits(hour, first[1..], later);
    } else if |first| == 0 {
      assert first + later == later;
    }
  }

  /** A pass that finds the scheduler stopped ends the loop: later ticks change nothing. */
  lemma {:induction false} StopIgnoresLater(hour: int, ticks: seq<Tick>, k: nat)
    requires k < |ticks| && !ticks[k].stillRunning
    ensures Scheduler(hour, ticks) == Scheduler(hour, ticks[..k])
    decreases k
  {
    if k > 0 && ticks[0].stillRunning && 0 <= hour < 24 {
      assert ticks[1..][k - 1] == ticks[k];
      StopIgnoresLater(hour, ticks[1..], k - 1);
      assert ticks[..k][0] == ticks[0];
      assert ticks[..k][1..] == ticks[1..][..k - 1];
    }
  }
}

=== FILE: config.dfy ===
/**
 * Environment configuration: the settings object built from environment
 * variables, its two field validators, and the choice between the
 * development and the production profile.
 */
module Config {
  import opened Wrappers
  import opened Strings

  /** The values found in the environment; `None` means the variable is unset. */
  datatype Environ = Environ(
    environment: Option<string>,
    debug: Option<bool>,
    logLevel: Option<string>,
    mongodbUri: Option<string>,
    jwtSecretKey: Option<string>,
    allowedOrigins: Option<string>,
    similarityThreshold: Option<real>,
    maxSimilarStories: Option<int>)

  datatype Profile = Development | Production

  datatype Settings = Settings(
    profile: Profile,
    environment: string,
    debug: bool,
    logLevel: string,
    mongodbUri: string,
    jwtSecretKey: string,
    allowedOrigins: seq<string>,
    similarityThreshold: real,
    maxSimilarStories: int)

  const DefaultEnvironment: string := "development"
  const DefaultOrigins: string := "http://localhost:3000"
  const MinSecretLength: nat := 32
  const SecretTooShort: string := "JWT_SECRET_KEY must be at least 32 characters"
  const FieldRequired: string := "Field required"
  /** The prefix the settings validation puts before a validator's `ValueError` text. */
  const ValueErrorPrefix: string := "Value error, "

  /** Story-matching defaults: the similarity floor and the result cap. */
  const SimilarityThreshold: real := 0.1
  const MaxSimilarStories: int := 9

  /** The debug flag and log level each profile declares. */
  function ProfileDebug(p: Profile): bool {
    p == Development
  }

  function ProfileLogLevel(p: Profile): string {
    match p
    case Development => "DEBUG"
    case Production => "WARNING"
  }

  /** `parse_origins`: split the comma-separated list and strip every entry. */
  function ParseOrigins(v: string): (r: seq<string>)
    ensures |r| == CountChar(v, ',') + 1
    ensures forall i :: 0 <= i < |r| ==> r[i] == Strip(Split(v, ',')[i])
    ensures forall i :: 0 <= i < |r| ==> ',' !in r[i]
    ensures forall i :: 0 <= i < |r| ==> r[i] == [] || (!IsSpace(r[i][0]) && !IsSpace(r[i][|r[i]| - 1]))
  {
    var pieces := Split(v, ',');
    var r := seq(|pieces|, i requires 0 <= i < |pieces| => Strip(pieces[i]));
    assert forall i :: 0 <= i < |r| ==> ',' !in r[i] by {
      forall i | 0 <= i < |r|
        ensures ',' !in r[i]
      {
        assert pieces[i] in pieces;
        StripInside(pieces[i]);
      }
    }
    r
  }

  /** Stripping keeps only characters of the original. */
  lemma StripInside(s: string)
    ensures forall c :: c in Strip(s) ==> c in s
  {
    var i :| PaddedAt(s, Strip(s), i);
    forall c | c in Strip(s)
      ensures c in s
    {
      var k :| 0 <= k < |Strip(s)| && Strip(s)[k] == c;
      assert s[i + k] == c;
    }
  }

  /** A list whose entries carry no surrounding blanks parses back into the text it was written as. */
  lemma ParseOriginsRoundTrip(v: string)
    requires forall p :: p in Split(v, ',') ==> p == [] || (!IsSpace(p[0]) && !IsSpace(p[|p| - 1]))
    ensures Join(ParseOrigins(v), [',']) == v
  {
    var pieces := Split(v, ',');
    forall i | 0 <= i < |pieces|
      ensures ParseOrigins(v)[i] == pieces[i]
    {
      assert pieces[i] in pieces;
      StripTrimmed(pieces[i]);
    }
    assert ParseOrigins(v) == pieces;
    SplitJoin(v, ',');
  }

  /** `validate_secret_key`: a key shorter than 32 characters is refused; a longer one passes unchanged. */
  function ValidateSecretKey(v: string): (r: Result<string, string>)
    ensures r.Failure? <==> |v| < MinSecretLength
    ensures r.Failure? ==> r.error == SecretTooShort
    ensures r.Success? ==> r.value == v
  {
    if |v| < MinSecretLength then Failure(SecretTooShort) else Success(v)
  }

  /** `get_settings`: the `ENVIRONMENT` variable, lower-cased, picks the profile. */
  function ChooseProfile(env: Environ): (p: Profile)
    ensures p == Production <==> Lower(env.environment.GetOr(DefaultEnvironment)) == "production"
  {
    if Lower(env.environment.GetOr(DefaultEnvironment)) == "production" then Production else Development
  }

  /** The validation errors of the two required fields, in declaration order. */
  function FieldErrors(env: Environ): (errs: seq<string>)
    ensures errs == [] <==> env.mongodbUri.Some? && env.jwtSecretKey.Some? && |env.jwtSecretKey.value| >= MinSecretLength
    ensures ValueErrorPrefix + SecretTooShort in errs <==> env.jwtSecretKey.Some? && |env.jwtSecretKey.value| < MinSecretLength
  {
    var uri := if env.mongodbUri.None? then [FieldRequired] else [];
    var key := match env.jwtSecretKey
      case None => [FieldRequired]
      case Some(k) => match ValidateSecretKey(k)
        case Failure(e) => [ValueErrorPrefix + e]
        case Success(_) => [];
    uri + key
  }

  /**
   * Building the settings object for the chosen profile: unset optional
   * variables take the profile's or the class's default, and the two
   * required fields are validated.
   */
  function GetSettings(env: Environ): (r: Result<Settings, seq<string>>)
    ensures r.Failure? <==> FieldErrors(env) != []
    ensures r.Success? ==>
              && r.value.profile == ChooseProfile(env)
              && r.value.environment == env.environment.GetOr(DefaultEnvironment)
              && r.value.debug == env.debug.GetOr(ProfileDebug(r.value.profile))
              && r.value.logLevel == env.logLevel.GetOr(ProfileLogLevel(r.value.profile))
              && |r.value.jwtSecretKey| >= MinSecretLength
              && Some(r.value.jwtSecretKey) == env.jwtSecretKey
              && Some(r.value.mongodbUri) == env.mongodbUri
              && r.value.allowedOrigins == ParseOrigins(env.allowedOrigins.GetOr(DefaultOrigins))
              && r.value.similarityThreshold == env.similarityThreshold.GetOr(SimilarityThreshold)
              && r.value.maxSimilarStories == env.maxSimilarStories.GetOr(MaxSimilarStories)
  {
    var errs := FieldErrors(env);
    if errs != [] then Failure(errs)
    else
      var p := ChooseProfile(env);
      Success(Settings(
        p,
        env.environment.GetOr(DefaultEnvironment),
        env.debug.GetOr(ProfileDebug(p)),
        env.logLevel.GetOr(ProfileLogLevel(p)),
        env.mongodbUri.value,
        env.jwtSecretKey.value,
        ParseOrigins(env.allowedOrigins.GetOr(DefaultOrigins)),
        env.similarityThreshold.GetOr(SimilarityThreshold),
        env.maxSimilarStories.GetOr(MaxSimilarStories)))
  }

  /**
   * With no overrides for the debug flag and the log level, production runs
   * without debug at WARNING and every other environment name (including the
   * unset one) with debug at DEBUG.
   */
  lemma ProfileDefaults(env: Environ)
    requires env.debug.None? && env.logLevel.None?
    requires GetSettings(env).Success?
    ensures var s := GetSettings(env).value;
            && (Lower(env.environment.GetOr(DefaultEnvironment)) == "production" ==> !s.debug && s.logLevel == "WARNING")
            && (Lower(env.environment.GetOr(DefaultEnvironment)) != "production" ==> s.debug && s.logLevel == "DEBUG")
  {
  }

  /** The environment name is matched without regard to letter case. */
  lemma ProfileIgnoresCase(env: Environ, other: Environ)
    requires other == env.(environment := other.environment)
    requires env.environment.Some? && other.environment.Some?
    requires Lower(env.environment.value) == Lower(other.environment.value)
    ensures ChooseProfile(env) == ChooseProfile(other)
  {
  }

  /** A single trimmed address without commas parses into a one-entry list holding it. */
  lemma SingleOrigin(v: string)
    requires ',' !in v
    requires v == [] || (!IsSpace(v[0]) && !IsSpace(v[|v| - 1]))
    ensures ParseOrigins(v) == [v]
  {
    SplitWithoutSeparator(v, ',');
    StripTrimmed(v);
  }

  /** Text without the separator splits into itself alone. */
  lemma {:induction false} SplitWithoutSeparator(s: string, c: char)
    requires c !in s
    ensures Split(s, c) == [s]
    decreases |s|
  {
    if |s| > 0 {
      assert c !in s[1..] by {
        forall k | 0 <= k < |s| - 1 ensures s[1..][k] != c { assert s[1..][k] == s[k + 1]; }
      }
      SplitWithoutSeparator(s[1..], c);
      assert s == [s[0]] + s[1..];
    }
  }
}

=== FILE: content_filter.dfy ===
/**
 * The crisis filter applied to submissions before any story is generated:
 * a crisis test and a four-step risk ladder over two keyword lists.
 */
module ContentFilter {
  import opened Strings
  import opened Seqs
  import opened Keywords

  datatype Level = Critical | High | Moderate | Low

  /** Ordering of the levels, `Low` lowest. */
  function Rank(l: Level): nat {
    match l
    case Low => 0
    case Moderate => 1
    case High => 2
    case Critical => 3
  }

  function LevelName(l: Level): string {
    match l
    case Critical => "critical"
    case High => "high"
    case Moderate => "moderate"
    case Low => "low"
  }

  /** The dictionary returned by `get_risk_assessment`. */
  datatype Assessment = Assessment(level: Level, requiresIntervention: bool, recommendedAction: string)

  const CrisisKeywords: seq<string> :=
    ["suicide", "kill myself", "end it all", "not worth living",
     "hurt myself", "self harm", "overdose", "want to die"]

  const UrgentKeywords: seq<string> :=
    ["can't cope", "breaking down", "losing control", "hopeless",
     "give up", "can't handle", "too much", "overwhelmed"]

  /** `requires_immediate_attention`: some crisis keyword occurs in the lower-cased text. */
  predicate RequiresImmediateAttention(text: string) {
    AnyOccurs(CrisisKeywords, Lower(text))
  }

  /** Python's count of urgent keywords counts distinct keywords. */
  lemma UrgentKeywordsDistinct()
    ensures Distinct(UrgentKeywords)
  {
  }

  /** The number of distinct urgent keywords in the lower-cased text. */
  function UrgentCount(text: string): nat {
    |Hits(UrgentKeywords, Lower(text))|
  }

  function ActionFor(l: Level): string {
    match l
    case Critical => "immediate_crisis_support"
    case High => "professional_resources"
    case Moderate => "support_resources"
    case Low => "community_support"
  }

  /**
   * `get_risk_assessment`. The source counts crisis keywords and tests the
   * count against zero; the contract states the level through the crisis test
   * of `requires_immediate_attention` instead, and intervention through the level.
   */
  function GetRiskAssessment(text: string): (r: Assessment)
    ensures r.level == Critical <==> RequiresImmediateAttention(text)
    ensures r.level == High <==> !RequiresImmediateAttention(text) && UrgentCount(text) >= 3
    ensures r.level == Moderate <==> !RequiresImmediateAttention(text) && 1 <= UrgentCount(text) < 3
    ensures r.level == Low <==> !RequiresImmediateAttention(text) && !AnyOccurs(UrgentKeywords, Lower(text))
    ensures r.requiresIntervention <==> r.level == Critical || r.level == High
    ensures r.recommendedAction == ActionFor(r.level)
  {
    var lowered := Lower(text);
    var crisisCount := CountOccurring(CrisisKeywords, lowered);
    var urgentCount := CountOccurring(UrgentKeywords, lowered);
    AnyIffCount(CrisisKeywords, lowered);
    UrgentKeywordsDistinct();
    HitsCount(UrgentKeywords, lowered);
    if crisisCount > 0 then Assessment(Critical, true, "immediate_crisis_support")
    else if urgentCount >= 3 then Assessment(High, true, "professional_resources")
    else if urgentCount >= 1 then Assessment(Moderate, false, "support_resources")
    else Assessment(Low, false, "community_support")
  }

  /** Text needing immediate attention is always assessed "critical" and needs intervention. */
  lemma ImmediateImpliesCritical(text: string)
    requires RequiresImmediateAttention(text)
    ensures GetRiskAssessment(text).level == Critical
    ensures GetRiskAssessment(text).requiresIntervention
  {
  }

  /** Appending text never lowers the assessed level. */
  lemma {:induction false} AssessmentMonotone(text: string, extra: string)
    ensures Rank(GetRiskAssessment(text).level) <= Rank(GetRiskAssessment(text + extra).level)
  {
    LowerAppend(text, extra);
    if RequiresImmediateAttention(text) {
      AnyOccursExtend(CrisisKeywords, Lower(text), Lower(extra));
    }
    CountExtend(UrgentKeywords, Lower(text), Lower(extra));
    UrgentKeywordsDistinct();
    HitsCount(UrgentKeywords, Lower(text));
    HitsCount(UrgentKeywords, Lower(text + extra));
  }
}

=== FILE: content_risk.dfy ===
/**
 * The moderation queue's keyword screening: the risk grade attached to a
 * submitted story and the list of concern keywords flagged for moderators.
 */
module ContentRisk {
  import opened Strings
  import opened Seqs
  import opened Keywords

  datatype RiskLevel = High | Medium | Low | Minimal

  /** Ordering of the grades, `Minimal` lowest. */
  function Rank(r: RiskLevel): nat {
    match r
    case Minimal => 0
    case Low => 1
    case Medium => 2
    case High => 3
  }

  function RiskName(r: RiskLevel): string {
    match r
    case High => "high"
    case Medium => "medium"
    case Low => "low"
    case Minimal => "minimal"
  }

  const HighRiskKeywords: seq<string> :=
    ["suicide", "kill myself", "end it all", "not worth living",
     "hurt myself", "self harm", "overdose", "die", "death wish"]

  const MediumRiskKeywords: seq<string> :=
    ["hopeless", "can't cope", "giving up", "too much", "breaking down",
     "can't handle", "losing control", "scared", "terrified", "panic"]

  const ConcernKeywords: seq<string> :=
    ["suicide", "self harm", "hurt myself", "kill myself", "hopeless",
     "can't cope", "giving up", "breaking down", "losing control"]

  /** The screened text: `f"{experience} {advice} {generated_story}".lower()`. */
  function Combined(experience: string, advice: string, generatedStory: string): string {
    Lower(experience + " " + advice + " " + generatedStory)
  }

  /**
   * `_assess_content_risk`: "high" iff a high-risk keyword occurs; otherwise
   * graded by how many distinct medium-risk keywords occur (3 or more, 1 or 2,
   * none).
   */
  function AssessContentRisk(experience: string, advice: string, generatedStory: string): (r: RiskLevel)
    ensures var text := Combined(experience, advice, generatedStory);
            && (r == High <==> AnyOccurs(HighRiskKeywords, text))
            && (r == Medium <==> !AnyOccurs(HighRiskKeywords, text) && |Hits(MediumRiskKeywords, text)| >= 3)
            && (r == Low <==> !AnyOccurs(HighRiskKeywords, text) && 1 <= |Hits(MediumRiskKeywords, text)| <= 2)
            && (r == Minimal <==> !AnyOccurs(HighRiskKeywords, text) && !AnyOccurs(MediumRiskKeywords, text))
  {
    var text := Combined(experience, advice, generatedStory);
    MediumKeywordsDistinct();
    HitsCount(MediumRiskKeywords, text);
    if AnyOccurs(HighRiskKeywords, text) then High
    else
      var riskCount := CountOccurring(MediumRiskKeywords, text);
      if riskCount >= 3 then Medium
      else if riskCount >= 1 then Low
      else Minimal
  }

  /** The count of medium-risk indicators counts distinct keywords. */
  lemma MediumKeywordsDistinct()
    ensures Distinct(MediumRiskKeywords)
  {
  }

  /** Appending to the generated story can only raise the grade. */
  lemma {:induction false} AssessMonotone(experience: string, advice: string, generatedStory: string, extra: string)
    ensures Rank(AssessContentRisk(experience, advice, generatedStory))
         <= Rank(AssessContentRisk(experience, advice, generatedStory + extra))
  {
    var text := Combined(experience, advice, generatedStory);
    var wider := Combined(experience, advice, generatedStory + extra);
    assert experience + " " + advice + " " + (generatedStory + extra)
        == (experience + " " + advice + " " + generatedStory) + extra;
    LowerAppend(experience + " " + advice + " " + generatedStory, extra);
    assert wider == text + Lower(extra);
    if AnyOccurs(HighRiskKeywords, text) {
      AnyOccursExtend(HighRiskKeywords, text, Lower(extra));
    }
    CountExtend(MediumRiskKeywords, text, Lower(extra));
    MediumKeywordsDistinct();
    HitsCount(MediumRiskKeywords, text);
    HitsCount(MediumRiskKeywords, wider);
  }

  /**
   * `_assess_content_risk` tests plain substrings: "die" inside "studied"
   * grades a harmless sentence "high".
   */
  lemma SubstringInsideWord()
    ensures AssessContentRisk("", "", "I studied") == High
  {
    var text := Combined("", "", "I studied");
    assert text == "  i studied";
    assert OccursAt(text, "die", 7);
    ContainsAt(text, "die", 7);
    assert HighRiskKeywords[7] == "die";
  }

  /** `_check_keywords`: exactly the concern keywords occurring in the lower-cased text, in list order. */
  function CheckKeywords(text: string): (r: seq<string>)
    ensures forall k :: k in r <==> k in ConcernKeywords && Contains(Lower(text), k)
    ensures IsSubsequence(r, ConcernKeywords)
    ensures Distinct(r)
  {
    assert Distinct(ConcernKeywords);
    Matching(ConcernKeywords, Lower(text))
  }

  /**
   * Every concern keyword is a high- or medium-risk keyword, so content that
   * `CheckKeywords` flags (some concern keyword occurs) is never graded "minimal".
   */
  lemma FlaggedImpliesRisk(experience: string, advice: string, generatedStory: string)
    requires AnyOccurs(ConcernKeywords, Combined(experience, advice, generatedStory))
    ensures AssessContentRisk(experience, advice, generatedStory) != Minimal
  {
    var text := Combined(experience, advice, generatedStory);
    var k :| k in ConcernKeywords && Contains(text, k);
    if k in HighRiskKeywords {
      assert AnyOccurs(HighRiskKeywords, text);
    } else {
      assert k in MediumRiskKeywords;
      assert AnyOccurs(MediumRiskKeywords, text);
    }
  }
}

=== FILE: documents.dfy ===
/**
 * Stored documents. A MongoDB document is a map from field names to values;
 * only the value kinds the backend reads are distinguished.
 */
module Documents {
  import opened Wrappers
  import opened Strings

  datatype Value =
    | Str(s: string)
    | StrList(items: seq<string>)
    | Num(x: real)
    | Vector(v: seq<real>)
    | Flag(b: bool)
    | Null
    | ObjectId(hex: string)
    | Time(seconds: int)

  type Doc = map<string, Value>

  /** Python's truthiness of a stored value. */
  predicate Truthy(v: Value) {
    match v
    case Str(s) => s != ""
    case StrList(xs) => xs != []
    case Num(x) => x != 0.0
    case Vector(xs) => xs != []
    case Flag(b) => b
    case Null => false
    case ObjectId(_) => true
    case Time(_) => true
  }

  /** `doc.get(key)`. */
  function Get(doc: Doc, key: string): Option<Value> {
    if key in doc then Some(doc[key]) else None
  }

  /** The text of a string field; a missing or non-string field reads as "". */
  function Text(doc: Doc, key: string): string {
    if key in doc && doc[key].Str? then doc[key].s else ""
  }

  /** `str(doc["_id"])`: an ObjectId renders as its hex digits, other values are kept. */
  function StringifyId(v: Value): Value {
    if v.ObjectId? then Str(v.hex) else v
  }

  /** A hexadecimal digit, in either case. */
  predicate IsHexDigit(c: char) {
    ('0' <= c <= '9') || ('a' <= c <= 'f') || ('A' <= c <= 'F')
  }

  /** Text `ObjectId(...)` accepts: 24 hexadecimal digits. */
  predicate ValidId(s: string) {
    |s| == 24 && forall k :: 0 <= k < |s| ==> IsHexDigit(s[k])
  }

  /** The ObjectId a valid id denotes, written the way `str()` prints it: lower-case hex. */
  function Canonical(s: string): string {
    Lower(s)
  }

  /** Printing a valid id keeps it valid, and printing it again changes nothing. */
  lemma CanonicalValid(s: string)
    requires ValidId(s)
    ensures ValidId(Canonical(s))
    ensures Canonical(Canonical(s)) == Canonical(s)
  {
    LowerIdempotent(s);
  }
}

=== FILE: generation.dfy ===
/**
 * Story and message generation: the models are asked in order, the first
 * output whose stripped length exceeds a threshold is kept, and a fixed
 * template stands in when no model qualifies. Three copies of this loop
 * exist: the recovery-story generator of the first API (`main.py`), the
 * supportive-message generator of the backend service, and its older copy.
 */
module Generation {
  import opened Wrappers
  import opened Strings
  import opened Templates
  import opened Http
  import Symptoms

  /**
   * A model client: the text the named model returns for a prompt, or `None`
   * when the call raises or returns nothing.
   */
  type Query = (string, string) -> Option<string>

  const RecoveryThreshold: nat := 100
  const SupportiveThreshold: nat := 50

  const FallbackName: string := "fallback"

  /** A model output qualifies when it is present and its stripped length exceeds `n`. */
  predicate Accepts(output: Option<string>, n: nat) {
    output.Some? && |Strip(output.value)| > n
  }

  /** The outputs of the models for `prompt`, in the order they are asked. */
  function Outputs(models: seq<string>, prompt: string, query: Query): (outs: seq<Option<string>>)
    ensures |outs| == |models|
    ensures forall i :: 0 <= i < |models| ==> outs[i] == query(models[i], prompt)
  {
    seq(|models|, i requires 0 <= i < |models| => query(models[i], prompt))
  }

  /** No output qualifies. */
  predicate NoneAccepted(outs: seq<Option<string>>, n: nat) {
    forall j :: 0 <= j < |outs| ==> !Accepts(outs[j], n)
  }

  /** Output `i` is the first that qualifies. */
  predicate FirstToQualify(outs: seq<Option<string>>, n: nat, i: nat) {
    && i < |outs|
    && Accepts(outs[i], n)
    && forall j :: 0 <= j < i ==> !Accepts(outs[j], n)
  }

  /** The `for model_name in MODELS` loop that breaks at the first qualifying output. */
  function FirstAccepted(outs: seq<Option<string>>, n: nat): (r: Option<nat>)
    ensures r.Some? ==> FirstToQualify(outs, n, r.value)
    ensures r.None? <==> NoneAccepted(outs, n)
  {
    if outs == [] then None
    else if Accepts(outs[0], n) then Some(0)
    else
      match FirstAccepted(outs[1..], n)
      case None => None
      case Some(i) => Some(i + 1)
  }

  /** At most one output qualifies first. */
  lemma FirstToQualifyUnique(outs: seq<Option<string>>, n: nat, i: nat, k: nat)
    requires FirstToQualify(outs, n, i)
    requires FirstToQualify(outs, n, k)
    ensures i == k
  {
  }

  /** The dictionary a generator returns; `message` is `None` when the key is absent. */
  datatype Reply = Reply(success: bool, story: string, authorName: Option<string>, modelUsed: string, message: Option<string>)

  /**
   * `reply` carries the stripped output of the first qualifying model and its
   * name, or `fallback` under the name "fallback" when no model qualifies.
   */
  ghost predicate Selected(reply: Reply, models: seq<string>, prompt: string, query: Query, n: nat, fallback: string) {
    var outs := Outputs(models, prompt, query);
    || (exists i: nat :: FirstToQualify(outs, n, i)
          && reply.modelUsed == models[i] && reply.story == Strip(outs[i].value))
    || (NoneAccepted(outs, n) && reply.modelUsed == FallbackName && reply.story == fallback)
  }

  /**
   * The shared shape of the loop-then-fallback generators: the first
   * qualifying output, followed by the re-check `len(story.strip()) < n`
   * that the older copies perform before falling back.
   */
  function Choose(models: seq<string>, prompt: string, query: Query, n: nat, fallback: string): (r: (string, string))
    ensures Selected(Reply(true, r.1, None, r.0, None), models, prompt, query, n, fallback)
    ensures r.0 != FallbackName ==> |r.1| > n
  {
    var outs := Outputs(models, prompt, query);
    match FirstAccepted(outs, n)
    case None => (FallbackName, fallback)
    case Some(i) =>
      var story := Strip(outs[i].value);
      StripIdempotent(outs[i].value);
      if |Strip(story)| < n then (FallbackName, fallback)
      else (models[i], story)
  }

  /**
   * The older generators' shape: the selection loop inside an outer `try`.
   * `outerFault` stands for an exception escaping the loop, which yields a
   * failed reply with the fallback text and no "message" key.
   */
  function GenerateWithFallback(
    models: seq<string>, query: Query, prompt: string, n: nat, fallback: string,
    authorName: Option<string>, created: string, outerFault: bool): (r: Reply)
    ensures outerFault ==> r == Reply(false, fallback, authorName, FallbackName, None)
    ensures !outerFault ==> r.success && r.authorName == authorName && r.message == Some(created + r.modelUsed)
    ensures !outerFault ==> Selected(r, models, prompt, query, n, fallback)
  {
    if outerFault then Reply(false, fallback, authorName, FallbackName, None)
    else
      var (used, story) := Choose(models, prompt, query, n, fallback);
      Reply(true, story, authorName, used, Some(created + used))
  }

  const RecoveryCreated: string := "Recovery story created using "

  /**
   * `generate_recovery_story` of the first API. The advice is optional in the
   * request: a missing advice renders as "None" in the prompt and leaves the
   * fallback without an advice section.
   */
  function GenerateRecoveryStory(
    models: seq<string>, query: Query, challenge: string, experience: string, solution: string,
    advice: Option<string>, authorName: Option<string>, outerFault: bool): (r: Reply)
    ensures var fallback := FallbackRecoveryStory(challenge, experience, solution, advice.GetOr(""));
            && (outerFault ==> r == Reply(false, fallback, authorName, FallbackName, None))
            && (!outerFault ==>
                  && r.success && r.authorName == authorName
                  && r.message == Some(RecoveryCreated + r.modelUsed)
                  && Selected(r, models, RecoveryPrompt(Legacy, challenge, experience, solution, Interpolate(advice)),
                              query, RecoveryThreshold, fallback))
  {
    GenerateWithFallback(models, query, RecoveryPrompt(Legacy, challenge, experience, solution, Interpolate(advice)),
      RecoveryThreshold, FallbackRecoveryStory(challenge, experience, solution, advice.GetOr("")),
      authorName, RecoveryCreated, outerFault)
  }

  /**
   * The backend generator's shape: return at the first qualifying model,
   * otherwise the fallback; there is no outer error path.
   */
  function GenerateFirst(
    models: seq<string>, query: Query, prompt: string, n: nat, fallback: string,
    authorName: Option<string>, created: string): (r: Reply)
    ensures r.success && r.authorName == authorName && r.message == Some(created + r.modelUsed)
    ensures Selected(r, models, prompt, query, n, fallback)
    ensures r.modelUsed != FallbackName ==> |r.story| > n
  {
    var outs := Outputs(models, prompt, query);
    match FirstAccepted(outs, n)
    case Some(i) => Reply(true, Strip(outs[i].value), authorName, models[i], Some(created + models[i]))
    case None => Reply(true, fallback, authorName, FallbackName, Some(created + FallbackName))
  }

  /** `Selected` fixes the story and the model name. */
  lemma SelectedUnique(a: Reply, b: Reply, models: seq<string>, prompt: string, query: Query, n: nat, fallback: string)
    requires Selected(a, models, prompt, query, n, fallback)
    requires Selected(b, models, prompt, query, n, fallback)
    ensures a.story == b.story && a.modelUsed == b.modelUsed
  {
    var outs := Outputs(models, prompt, query);
    if !NoneAccepted(outs, n) {
      var i: nat :| FirstToQualify(outs, n, i) && a.modelUsed == models[i] && a.story == Strip(outs[i].value);
      var k: nat :| FirstToQualify(outs, n, k) && b.modelUsed == models[k] && b.story == Strip(outs[k].value);
      FirstToQualifyUnique(outs, n, i, k);
    }
  }

  /**
   * Returning at the first qualifying model and breaking out of the loop to
   * re-check the stripped length answer alike: the re-check never fires.
   */
  lemma EarlyReturnAgrees(
    models: seq<string>, query: Query, prompt: string, n: nat, fallback: string, authorName: Option<string>, created: string)
    ensures GenerateWithFallback(models, query, prompt, n, fallback, authorName, created, false)
         == GenerateFirst(models, query, prompt, n, fallback, authorName, created)
  {
    var a := GenerateWithFallback(models, query, prompt, n, fallback, authorName, created, false);
    var b := GenerateFirst(models, query, prompt, n, fallback, authorName, created);
    SelectedUnique(a, b, models, prompt, query, n, fallback);
  }

  /** A model that raises (or answers nothing) is skipped: the next qualifying model is used. */
  lemma FailingModelSkipped(
    models: seq<string>, query: Query, prompt: string, n: nat, fallback: string, authorName: Option<string>, created: string)
    requires |models| >= 2
    requires query(models[0], prompt).None?
    requires Accepts(query(models[1], prompt), n)
    ensures var r := GenerateFirst(models, query, prompt, n, fallback, authorName, created);
            r.modelUsed == models[1] && r.story == Strip(query(models[1], prompt).value)
  {
    var outs := Outputs(models, prompt, query);
    var r := GenerateFirst(models, query, prompt, n, fallback, authorName, created);
    assert FirstToQualify(outs, n, 1);
    SelectedUnique(r, Reply(true, Strip(outs[1].value), authorName, models[1], None), models, prompt, query, n, fallback);
  }

  const SupportiveCreated: string := "Supportive message created using "

  /** `generate_supportive_message` of the backend service. */
  function GenerateSupportiveMessage(models: seq<string>, query: Query, experience: string, feelings: string, authorName: Option<string>)
    : (r: Reply)
    ensures r.success && r.authorName == authorName
    ensures r.message == Some(SupportiveCreated + r.modelUsed)
    ensures Selected(r, models, SupportivePrompt(experience, feelings), query, SupportiveThreshold,
                     FallbackSupportiveMessage(experience, feelings))
  {
    GenerateFirst(models, query, SupportivePrompt(experience, feelings), SupportiveThreshold,
      FallbackSupportiveMessage(experience, feelings), authorName, SupportiveCreated)
  }

  /** The older `generate_supportive_message`, with the re-check and the outer error path. */
  function GenerateSupportiveMessageLegacy(
    models: seq<string>, query: Query, experience: string, feelings: string, authorName: Option<string>, outerFault: bool)
    : (r: Reply)
    ensures var fallback := FallbackSupportiveMessage(experience, feelings);
            && (outerFault ==> r == Reply(false, fallback, authorName, FallbackName, None))
            && (!outerFault ==>
                  && r.success && r.authorName == authorName
                  && r.message == Some(SupportiveCreated + r.modelUsed)
                  && Selected(r, models, SupportivePrompt(experience, feelings), query, SupportiveThreshold, fallback))
  {
    GenerateWithFallback(models, query, SupportivePrompt(experience, feelings), SupportiveThreshold,
      FallbackSupportiveMessage(experience, feelings), authorName, SupportiveCreated, outerFault)
  }

  /** Without an outer failure the two copies of the supportive-message generator answer identically. */
  lemma SupportiveCopiesAgree(models: seq<string>, query: Query, experience: string, feelings: string, authorName: Option<string>)
    ensures GenerateSupportiveMessageLegacy(models, query, experience, feelings, authorName, false)
         == GenerateSupportiveMessage(models, query, experience, feelings, authorName)
  {
    EarlyReturnAgrees(models, query, SupportivePrompt(experience, feelings), SupportiveThreshold,
      FallbackSupportiveMessage(experience, feelings), authorName, SupportiveCreated);
  }

  const EmptyFieldsDetail: string := "Challenge, experience, and solution cannot be empty"

  /** The detail of the 500 answer: the text of the `KeyError` raised for the missing "message" key. */
  const MissingMessageDetail: string := "Failed to create recovery story: 'message'"

  /** The detail of the 500 answer when the response model refuses a null author name (first line of the error). */
  const InvalidAuthorDetail: string := "Failed to create recovery story: 1 validation error for StoryResponse"

  /** Some of the three required story fields is blank after stripping. */
  predicate AnyBlank(challenge: string, experience: string, solution: string) {
    IsBlank(challenge) || IsBlank(experience) || IsBlank(solution)
  }

  /**
   * The `/transform-story` endpoint, given `reply`, the generator's answer
   * for the request (`GenerateRecoveryStory`). A blank challenge, experience
   * or solution is refused with 400 before any generation. The generator's
   * outer error reply has no "message" key, so building the response raises
   * and the endpoint answers 500. The request may carry a null author name,
   * which the generator echoes; the response model requires a string, so
   * such a reply also ends in 500.
   */
  function TransformStory(challenge: string, experience: string, solution: string, reply: Reply): (r: Response<Reply>)
    ensures AnyBlank(challenge, experience, solution) ==> r == Error(BadRequest, EmptyFieldsDetail)
    ensures !AnyBlank(challenge, experience, solution) && reply.message.None? ==> r == Error(ServerError, MissingMessageDetail)
    ensures !AnyBlank(challenge, experience, solution) && reply.message.Some? && reply.authorName.None? ==>
              r == Error(ServerError, InvalidAuthorDetail)
    ensures r.Ok? <==> !AnyBlank(challenge, experience, solution) && reply.message.Some? && reply.authorName.Some?
    ensures r.Ok? ==> r.body == reply
  {
    if AnyBlank(challenge, experience, solution) then Error(BadRequest, EmptyFieldsDetail)
    else
      match reply.message
      case None => Error(ServerError, MissingMessageDetail)
      case Some(_) => if reply.authorName.None? then Error(ServerError, InvalidAuthorDetail) else Ok(reply)
  }

  /**
   * A request without a blank field whose author name is null fails even
   * when a model answers: the generator echoes the null name.
   */
  lemma NullAuthorFails(
    models: seq<string>, query: Query, challenge: string, experience: string, solution: string, advice: Option<string>)
    requires !AnyBlank(challenge, experience, solution)
    ensures TransformStory(challenge, experience, solution,
              GenerateRecoveryStory(models, query, challenge, experience, solution, advice, None, false)).Error?
  {
  }

  const ExtractFailedPrefix: string := "Failed to extract symptoms: "

  /**
   * The `/extract-symptoms` endpoint: a blank experience is refused with 400;
   * otherwise `extract` runs the extraction, the insights and the response
   * model, and either answers or fails with the text of the exception it
   * raised (an LLM reply with an empty severity list, say), which the endpoint
   * reports as 500.
   */
  function ExtractSymptomsEndpoint<T>(experience: string, feelings: string, extract: (string, string) -> Result<T, string>)
    : (r: Response<T>)
    ensures IsBlank(experience) ==> r == Error(BadRequest, "Experience cannot be empty")
    ensures !IsBlank(experience) && extract(experience, feelings).Failure? ==>
              r == Error(ServerError, ExtractFailedPrefix + extract(experience, feelings).error)
    ensures r.Ok? <==> !IsBlank(experience) && extract(experience, feelings).Success?
    ensures r.Ok? ==> r.body == extract(experience, feelings).value
  {
    if IsBlank(experience) then Error(BadRequest, "Experience cannot be empty")
    else
      match extract(experience, feelings)
      case Success(v) => Ok(v)
      case Failure(e) => Error(ServerError, ExtractFailedPrefix + e)
  }

  /**
   * The endpoint's pipeline: the symptom record `extract` returns (from the
   * language model or the rule-based fallback), then its insights; an
   * insights step that raises fails the pipeline with the exception's text.
   */
  function InsightsPipeline(extract: (string, string) -> Symptoms.SymptomData)
    : (string, string) -> Result<(Symptoms.SymptomData, Symptoms.Insights), string>
  {
    (e: string, f: string) =>
      var data := extract(e, f);
      match Symptoms.GetSymptomInsights(data)
      case Success(insights) => Success((data, insights))
      case Failure(err) => Failure(err)
  }

  /**
   * Past the blank check, the endpoint answers 500 "Failed to extract
   * symptoms: list index out of range" exactly when the extracted record
   * carries an empty severity list, and otherwise answers with the record
   * and its insights.
   */
  lemma EmptySeverityFails(experience: string, feelings: string, extract: (string, string) -> Symptoms.SymptomData)
    requires !IsBlank(experience)
    ensures var r := ExtractSymptomsEndpoint(experience, feelings, InsightsPipeline(extract));
            && (extract(experience, feelings).severityIndicators == Some([]) <==>
                r == Error(ServerError, ExtractFailedPrefix + "list index out of range"))
            && (r.Ok? <==> extract(experience, feelings).severityIndicators != Some([]))
            && (r.Ok? ==> r.body.0 == extract(experience, feelings))
  {
    var data := extract(experience, feelings);
    assert InsightsPipeline(extract)(experience, feelings).Failure? <==> data.severityIndicators == Some([]);
  }
}

=== FILE: http.dfy ===
/**
 * The shapes the request handlers share: a handler either answers with a
 * body or raises an HTTP error with a status code and a detail message.
 */
module Http {
  import opened Wrappers

  datatype Response<+T> = Ok(body: T) | Error(status: nat, detail: string)

  const BadRequest: nat := 400
  const Forbidden: nat := 403
  const NotFound: nat := 404
  const ServerError: nat := 500

  /**
   * An optional request field placed in an f-string: a missing value
   * renders as "None".
   */
  function Interpolate(field: Option<string>): string {
    match field
    case None => "None"
    case Some(s) => s
  }
}

=== FILE: keywords.dfy ===
/**
 * Keyword scans over lower-cased text: the shape shared by every classifier of
 * the backend (`[k for k in KEYWORDS if k in text]`, `any(...)`, `sum(1 for ...)`).
 */
module Keywords {
  import opened Strings
  import opened Seqs

  /** Some keyword of `keys` occurs in `text` (Python's `any(k in text for k in keys)`). */
  predicate AnyOccurs(keys: seq<string>, text: string) {
    exists k :: k in keys && Contains(text, k)
  }

  /** The keywords of `keys` that occur in `text`, in list order. */
  function Matching(keys: seq<string>, text: string): (r: seq<string>)
    ensures |r| <= |keys|
    ensures forall k :: k in r <==> k in keys && Contains(text, k)
    ensures IsSubsequence(r, keys)
    ensures Distinct(keys) ==> Distinct(r)
  {
    var r := Select(keys, k => Contains(text, k));
    if Distinct(keys) then SelectDistinct(keys, k => Contains(text, k)); r else r
  }

  /** Python's `sum(1 for k in keys if k in text)`. */
  function CountOccurring(keys: seq<string>, text: string): nat {
    |Matching(keys, text)|
  }

  lemma AnyIffCount(keys: seq<string>, text: string)
    ensures AnyOccurs(keys, text) <==> CountOccurring(keys, text) > 0
  {
    var r := Matching(keys, text);
    if AnyOccurs(keys, text) {
      var k :| k in keys && Contains(text, k);
      assert k in r;
    }
    if |r| > 0 {
      assert r[0] in r;
    }
  }

  /** The distinct keywords of `keys` that occur in `text`. */
  function Hits(keys: seq<string>, text: string): set<string> {
    set k | k in keys && Contains(text, k)
  }

  /** Over a duplicate-free keyword list, Python's count of matches is the number of distinct hits. */
  lemma HitsCount(keys: seq<string>, text: string)
    requires Distinct(keys)
    ensures |Hits(keys, text)| == CountOccurring(keys, text)
    ensures AnyOccurs(keys, text) <==> |Hits(keys, text)| > 0
  {
    var m := Matching(keys, text);
    assert Hits(keys, text) == set x | x in m;
    DistinctCard(m);
    AnyIffCount(keys, text);
  }

  /** A text containing every keyword another text contains matches at least as many keywords. */
  lemma CountMonotone(keys: seq<string>, text: string, wider: string)
    requires forall k :: k in keys && Contains(text, k) ==> Contains(wider, k)
    ensures CountOccurring(keys, text) <= CountOccurring(keys, wider)
  {
    SelectMonotone(keys, k => Contains(text, k), k => Contains(wider, k));
  }

  /** Appending text never removes a keyword occurrence. */
  lemma AnyOccursExtend(keys: seq<string>, text: string, extra: string)
    requires AnyOccurs(keys, text)
    ensures AnyOccurs(keys, text + extra)
  {
    var k :| k in keys && Contains(text, k);
    ContainsPrefix(text, extra, k);
  }

  lemma CountExtend(keys: seq<string>, text: string, extra: string)
    ensures CountOccurring(keys, text) <= CountOccurring(keys, text + extra)
  {
    forall k | k in keys && Contains(text, k) ensures Contains(text + extra, k) {
      ContainsPrefix(text, extra, k);
    }
    CountMonotone(keys, text, text + extra);
  }

  /** Scanning two keyword lists one after the other is scanning their concatenation. */
  lemma MatchingAppend(a: seq<string>, b: seq<string>, text: string)
    ensures Matching(a + b, text) == Matching(a, text) + Matching(b, text)
  {
    SelectAppend(a, b, k => Contains(text, k));
  }
}

=== FILE: moderation.dfy ===
/**
 * The moderation workflow: a submitted story waits in the pending
 * collection until a moderator approves it (moving it to the approved
 * collection) or rejects it (deleting it). Both collections are maps from
 * the printed ObjectId to the stored document.
 */
module Moderation {
  import opened Wrappers
  import opened Http
  import opened Documents

  type Collection = map<string, Doc>

  const InsufficientDetail: string := "Insufficient permissions"
  const NotFoundDetail: string := "Story not found"
  /** FastAPI's answer to an exception no handler catches (an id `ObjectId()` rejects, a duplicate key). */
  const InternalDetail: string := "Internal Server Error"

  /** Every document sits under the printed form of its own `_id`. */
  predicate WellKeyed(c: Collection) {
    forall id :: id in c ==> ValidId(id) && Canonical(id) == id && "_id" in c[id] && c[id]["_id"] == ObjectId(id)
  }

  /** `require_moderator`: the role "moderator" or "admin" passes; any other role, or none, is refused. */
  function RequireModerator(role: Option<string>): (r: Response<string>)
    ensures r.Ok? <==> role == Some("moderator") || role == Some("admin")
    ensures r.Error? ==> r.status == Forbidden && r.detail == InsufficientDetail
    ensures r.Ok? ==> Some(r.body) == role
  {
    if role == Some("moderator") || role == Some("admin") then Ok(role.value)
    else Error(Forbidden, InsufficientDetail)
  }

  datatype PendingListing = PendingListing(stories: seq<Doc>, count: nat)

  /** `get_pending_stories` handler over what the pending query returned. */
  function PendingEndpoint(role: Option<string>, fetched: seq<Doc>): (r: Response<PendingListing>)
    ensures r.Error? <==> RequireModerator(role).Error?
    ensures r.Ok? ==> r.body.stories == fetched && r.body.count == |fetched|
  {
    if RequireModerator(role).Error? then Error(Forbidden, InsufficientDetail)
    else Ok(PendingListing(fetched, |fetched|))
  }

  /** `get_story_details`: the pending document with its `_id` printed. */
  function StoryDetails(pending: Collection, role: Option<string>, storyId: string): (r: Response<Doc>)
    requires WellKeyed(pending)
    ensures RequireModerator(role).Error? ==> r == Error(Forbidden, InsufficientDetail)
    ensures RequireModerator(role).Ok? && !ValidId(storyId) ==> r == Error(ServerError, InternalDetail)
    ensures r.Ok? <==> RequireModerator(role).Ok? && ValidId(storyId) && Canonical(storyId) in pending
    ensures r.Ok? ==> r.body == pending[Canonical(storyId)]["_id" := Str(Canonical(storyId))]
  {
    if RequireModerator(role).Error? then Error(Forbidden, InsufficientDetail)
    else if !ValidId(storyId) then Error(ServerError, InternalDetail)
    else
      var id := Canonical(storyId);
      if id !in pending then Error(NotFound, NotFoundDetail)
      else Ok(pending[id]["_id" := StringifyId(pending[id]["_id"])])
  }

  /** The approved form of a pending document: every field kept, plus the status and the approver. */
  function ApprovedForm(d: Doc, email: string, now: int): (r: Doc)
    ensures forall k :: k in r <==> k in d || k in {"status", "approved_by", "approved_at"}
    ensures r["status"] == Str("approved") && r["approved_by"] == Str(email) && r["approved_at"] == Time(now)
    ensures forall k :: k in d && k !in {"status", "approved_by", "approved_at"} ==> r[k] == d[k]
  {
    d["status" := Str("approved")]["approved_by" := Str(email)]["approved_at" := Time(now)]
  }

  datatype Collections = Collections(pending: Collection, approved: Collection)

  /** The replies of a successful approval and rejection; the first opens with a check mark emoji. */
  const ApprovedMessage: string := "\U{2705} Story approved and published"
  const RejectedMessage: string := "Story rejected and removed from queue"

  /**
   * Which driver call of `approve_story` raises, if any. The handler has no
   * `try`, so each one answers FastAPI's generic 500; a `delete_one` that
   * raises does so after the insert has already published the story.
   */
  datatype ApproveFailure = NoFailure | FindRaises | InsertRaises | DeleteRaises

  /** The approval reaches the insert: an allowed role, an id `ObjectId()` accepts, pending and not yet approved. */
  predicate Movable(c: Collections, role: Option<string>, storyId: string) {
    && RequireModerator(role).Ok? && ValidId(storyId)
    && Canonical(storyId) in c.pending && Canonical(storyId) !in c.approved
  }

  /**
   * `approve_story` by the moderator with `email` at time `now`. The insert
   * into the approved collection fails on an id already there, before the
   * pending copy is deleted; `failure` names the driver call that raises.
   */
  function Approve(c: Collections, role: Option<string>, email: string, storyId: string, now: int, failure: ApproveFailure)
    : (r: (Response<string>, Collections))
    requires WellKeyed(c.pending)
    ensures RequireModerator(role).Error? ==> r.0 == Error(Forbidden, InsufficientDetail)
    ensures RequireModerator(role).Ok? && ValidId(storyId) && failure == FindRaises ==>
              r.0 == Error(ServerError, InternalDetail)
    ensures RequireModerator(role).Ok? && ValidId(storyId) && failure != FindRaises && Canonical(storyId) !in c.pending ==>
              r.0 == Error(NotFound, NotFoundDetail)
    ensures r.0.Ok? <==> Movable(c, role, storyId) && failure == NoFailure
    ensures !(Movable(c, role, storyId) && (failure == NoFailure || failure == DeleteRaises)) ==> r.1 == c
    ensures Movable(c, role, storyId) && (failure == NoFailure || failure == DeleteRaises) ==>
              var id := Canonical(storyId);
              && r.1.approved == c.approved[id := ApprovedForm(c.pending[id], email, now)]
              && r.1.approved[id]["_id"] == ObjectId(id)
    ensures Movable(c, role, storyId) && failure == NoFailure ==>
              r.0.body == ApprovedMessage && r.1.pending == c.pending - {Canonical(storyId)}
    ensures Movable(c, role, storyId) && failure == DeleteRaises ==>
              r.0 == Error(ServerError, InternalDetail) && r.1.pending == c.pending
  {
    if RequireModerator(role).Error? then (Error(Forbidden, InsufficientDetail), c)
    else if !ValidId(storyId) || failure.FindRaises? then (Error(ServerError, InternalDetail), c)
    else
      var id := Canonical(storyId);
      if id !in c.pending then (Error(NotFound, NotFoundDetail), c)
      else if id in c.approved || failure.InsertRaises? then (Error(ServerError, InternalDetail), c)
      else
        var moved := ApprovedForm(c.pending[id], email, now);
        if failure.NoFailure? then (Ok(ApprovedMessage), Collections(c.pending - {id}, c.approved[id := moved]))
        else (Error(ServerError, InternalDetail), Collections(c.pending, c.approved[id := moved]))
  }

  /**
   * `reject_story`: the pending document is deleted and stored nowhere else.
   * `fault` stands for `delete_one` raising, which answers the generic 500.
   */
  function Reject(c: Collections, role: Option<string>, storyId: string, fault: bool): (r: (Response<string>, Collections))
    ensures r.0.Error? ==> r.1 == c
    ensures RequireModerator(role).Error? ==> r.0 == Error(Forbidden, InsufficientDetail)
    ensures RequireModerator(role).Ok? && fault ==> r.0 == Error(ServerError, InternalDetail)
    ensures RequireModerator(role).Ok? && ValidId(storyId) && !fault ==>
              (r.0 == Error(NotFound, NotFoundDetail) <==> Canonical(storyId) !in c.pending)
    ensures r.0.Ok? <==> RequireModerator(role).Ok? && ValidId(storyId) && !fault && Canonical(storyId) in c.pending
    ensures r.0.Ok? ==> r.0.body == RejectedMessage && r.1 == Collections(c.pending - {Canonical(storyId)}, c.approved)
  {
    if RequireModerator(role).Error? then (Error(Forbidden, InsufficientDetail), c)
    else if !ValidId(storyId) || fault then (Error(ServerError, InternalDetail), c)
    else
      var id := Canonical(storyId);
      if id !in c.pending then (Error(NotFound, NotFoundDetail), c)
      else (Ok(RejectedMessage), Collections(c.pending - {id}, c.approved))
  }

  /** No story is both waiting and published. */
  predicate Disjoint(c: Collections) {
    forall id :: id in c.pending ==> id !in c.approved
  }

  predicate Consistent(c: Collections) {
    WellKeyed(c.pending) && WellKeyed(c.approved) && Disjoint(c)
  }

  /**
   * Approval keeps both collections keyed by their ids, and leaves no story
   * in both unless `delete_one` raises after a successful insert, which
   * leaves exactly that story published and still pending.
   */
  lemma ApprovePreservesConsistent(c: Collections, role: Option<string>, email: string, storyId: string, now: int,
    failure: ApproveFailure)
    requires Consistent(c)
    ensures var after := Approve(c, role, email, storyId, now, failure).1;
            && WellKeyed(after.pending) && WellKeyed(after.approved)
            && (Disjoint(after) <==> !(Movable(c, role, storyId) && failure == DeleteRaises))
            && (forall id :: id in after.pending && id in after.approved ==> id == Canonical(storyId))
  {
    var after := Approve(c, role, email, storyId, now, failure).1;
    if Movable(c, role, storyId) && failure == DeleteRaises {
      assert Canonical(storyId) in after.pending && Canonical(storyId) in after.approved;
    }
  }

  /** Rejection keeps the collections consistent as well. */
  lemma RejectPreservesConsistent(c: Collections, role: Option<string>, storyId: string, fault: bool)
    requires Consistent(c)
    ensures Consistent(Reject(c, role, storyId, fault).1)
  {
  }

  /**
   * Approval moves a story: the number of stories over both collections is
   * unchanged, except that a raising `delete_one` leaves one copy too many.
   */
  lemma ApproveConservesStories(c: Collections, role: Option<string>, email: string, storyId: string, now: int,
    failure: ApproveFailure)
    requires Consistent(c)
    ensures var after := Approve(c, role, email, storyId, now, failure).1;
            |after.pending| + |after.approved| ==
              |c.pending| + |c.approved| + (if Movable(c, role, storyId) && failure == DeleteRaises then 1 else 0)
  {
    var (resp, after) := Approve(c, role, email, storyId, now, failure);
    if Movable(c, role, storyId) && (failure == NoFailure || failure == DeleteRaises) {
      var id := Canonical(storyId);
      if failure == NoFailure {
        RemoveCard(c.pending, id);
      }
      AddCard(c.approved, id, after.approved[id]);
    }
  }

  lemma RemoveCard(m: Collection, id: string)
    requires id in m
    ensures |m - {id}| == |m| - 1
  {
    assert m.Keys == (m - {id}).Keys + {id};
  }

  lemma AddCard(m: Collection, id: string, d: Doc)
    requires id !in m
    ensures |m[id := d]| == |m| + 1
  {
    assert m[id := d].Keys == m.Keys + {id};
  }

  /** Rejection discards exactly one story. */
  lemma RejectDiscardsOne(c: Collections, role: Option<string>, storyId: string, fault: bool)
    requires Reject(c, role, storyId, fault).0.Ok?
    ensures var after := Reject(c, role, storyId, fault).1;
            |after.pending| + |after.approved| + 1 == |c.pending| + |c.approved|
  {
    RemoveCard(c.pending, Canonical(storyId));
  }

  /** An id written with upper-case hex digits reaches the same story as its printed form. */
  lemma IdCaseIrrelevant(c: Collections, role: Option<string>, storyId: string, fault: bool)
    requires ValidId(storyId)
    ensures Reject(c, role, storyId, fault) == Reject(c, role, Canonical(storyId), fault)
  {
    CanonicalValid(storyId);
  }
}

=== FILE: saved_stories.dfy ===
/**
 * A user's saved stories. The `saved_stories` collection is a sequence of
 * (user, story, time) records in insertion order; a story id is the text of
 * an approved story's ObjectId.
 */
module SavedStories {
  import opened Wrappers
  import opened Strings
  import opened Seqs
  import opened Sorting
  import opened Documents

  datatype Save = Save(userId: string, storyId: string, savedAt: int)

  /** `find_one({"user_id": u, "story_id": s})` finds a record. */
  predicate IsSavedIn(saves: seq<Save>, u: string, s: string) {
    exists i :: 0 <= i < |saves| && saves[i].userId == u && saves[i].storyId == s
  }

  /** The (user, story) pairs the collection records. */
  function Pairs(saves: seq<Save>): (r: set<(string, string)>)
    ensures forall u, s :: (u, s) in r <==> IsSavedIn(saves, u, s)
  {
    set i | 0 <= i < |saves| :: (saves[i].userId, saves[i].storyId)
  }

  /** No pair is recorded twice: the state `save_story` maintains. */
  predicate NoDuplicates(saves: seq<Save>) {
    forall i, j :: 0 <= i < j < |saves| ==> (saves[i].userId, saves[i].storyId) != (saves[j].userId, saves[j].storyId)
  }

  // ---------------------------------------------------------------------
  // Save and unsave

  datatype SaveOutcome = Saved | AlreadySaved | SaveFailed

  function SaveMessage(o: SaveOutcome): string {
    match o
    case Saved => "Story saved successfully"
    case AlreadySaved => "Story already saved"
    case SaveFailed => "Failed to save story"
  }

  /**
   * `save_story` at time `now`. `lookupFault` stands for `find_one` raising,
   * `insertFault` for `insert_one` raising; either is caught and reported as
   * "Failed to save story", with nothing stored.
   */
  function SaveStory(saves: seq<Save>, u: string, s: string, now: int, lookupFault: bool, insertFault: bool)
    : (r: (SaveOutcome, seq<Save>))
    ensures lookupFault ==> r.0 == SaveFailed
    ensures !lookupFault && IsSavedIn(saves, u, s) ==> r.0 == AlreadySaved
    ensures r.0 == Saved <==> !lookupFault && !insertFault && !IsSavedIn(saves, u, s)
    ensures r.0 != Saved ==> r.1 == saves
    ensures r.0 == Saved ==> r.1 == saves + [Save(u, s, now)]
    ensures !lookupFault && !insertFault ==> Pairs(r.1) == Pairs(saves) + {(u, s)}
  {
    if lookupFault then (SaveFailed, saves)
    else if IsSavedIn(saves, u, s) then (AlreadySaved, saves)
    else if insertFault then (SaveFailed, saves)
    else
      var after := saves + [Save(u, s, now)];
      PairsAppend(saves, Save(u, s, now));
      (Saved, after)
  }

  /** Appending a record adds exactly its pair. */
  lemma PairsAppend(saves: seq<Save>, x: Save)
    ensures Pairs(saves + [x]) == Pairs(saves) + {(x.userId, x.storyId)}
  {
    var after := saves + [x];
    forall q | q in Pairs(saves) ensures q in Pairs(after) {
      var k :| 0 <= k < |saves| && (saves[k].userId, saves[k].storyId) == q;
      assert after[k] == saves[k];
    }
    assert after[|saves|] == x;
    forall q | q in Pairs(after) ensures q in Pairs(saves) + {(x.userId, x.storyId)} {
      var k :| 0 <= k < |after| && (after[k].userId, after[k].storyId) == q;
      if k < |saves| { assert after[k] == saves[k]; }
    }
  }

  /** Saving keeps every pair recorded at most once. */
  lemma SavePreservesNoDuplicates(saves: seq<Save>, u: string, s: string, now: int, lookupFault: bool, insertFault: bool)
    requires NoDuplicates(saves)
    ensures NoDuplicates(SaveStory(saves, u, s, now, lookupFault, insertFault).1)
  {
  }

  /** Saving is idempotent on the recorded pairs: the second save changes nothing. */
  lemma SaveIdempotent(saves: seq<Save>, u: string, s: string, now: int, later: int)
    ensures var once := SaveStory(saves, u, s, now, false, false).1;
            SaveStory(once, u, s, later, false, false) == (AlreadySaved, once)
  {
    var once := SaveStory(saves, u, s, now, false, false).1;
    assert (u, s) in Pairs(once);
  }

  datatype UnsaveOutcome = Removed | NotSaved | UnsaveFailed

  function UnsaveMessage(o: UnsaveOutcome): string {
    match o
    case Removed => "Story removed from saved stories"
    case NotSaved => "Story was not saved"
    case UnsaveFailed => "Failed to remove saved story"
  }

  /** The position of the first record of the pair (the one `delete_one` removes). */
  function FirstMatch(saves: seq<Save>, u: string, s: string): (i: nat)
    requires IsSavedIn(saves, u, s)
    ensures i < |saves| && saves[i].userId == u && saves[i].storyId == s
    ensures forall k :: 0 <= k < i ==> !(saves[k].userId == u && saves[k].storyId == s)
    decreases |saves|
  {
    if saves[0].userId == u && saves[0].storyId == s then 0
    else
      assert IsSavedIn(saves[1..], u, s) by {
        var k :| 0 <= k < |saves| && saves[k].userId == u && saves[k].storyId == s;
        assert saves[1..][k - 1] == saves[k];
      }
      1 + FirstMatch(saves[1..], u, s)
  }

  /** `unsave_story`: `delete_one` removes the first matching record; `fault` stands for the database raising. */
  function UnsaveStory(saves: seq<Save>, u: string, s: string, fault: bool): (r: (UnsaveOutcome, seq<Save>))
    ensures r.0 == Removed <==> !fault && IsSavedIn(saves, u, s)
    ensures r.0 == NotSaved <==> !fault && !IsSavedIn(saves, u, s)
    ensures r.0 != Removed ==> r.1 == saves
    ensures r.0 == Removed ==> |r.1| == |saves| - 1 && multiset(r.1) <= multiset(saves)
    ensures r.0 == Removed && NoDuplicates(saves) ==> Pairs(r.1) == Pairs(saves) - {(u, s)} && NoDuplicates(r.1)
  {
    if fault then (UnsaveFailed, saves)
    else if !IsSavedIn(saves, u, s) then (NotSaved, saves)
    else
      var i := FirstMatch(saves, u, s);
      var after := saves[..i] + saves[i + 1..];
      RemoveAt(saves, i);
      (Removed, after)
  }

  /** Removing one record of a duplicate-free collection forgets exactly its pair. */
  lemma RemoveAt(saves: seq<Save>, i: nat)
    requires i < |saves|
    ensures var after := saves[..i] + saves[i + 1..];
            && multiset(after) <= multiset(saves)
            && (NoDuplicates(saves) ==>
                  Pairs(after) == Pairs(saves) - {(saves[i].userId, saves[i].storyId)} && NoDuplicates(after))
  {
    var after := saves[..i] + saves[i + 1..];
    assert saves == saves[..i] + [saves[i]] + saves[i + 1..];
    assert multiset(saves) == multiset(after) + multiset{saves[i]};
    if NoDuplicates(saves) {
      RemoveAtPairs(saves, i);
      RemoveAtNoDuplicates(saves, i);
    }
  }

  /** The records after removing the one at `i`, by position. */
  lemma RemoveAtIndex(saves: seq<Save>, i: nat)
    requires i < |saves|
    ensures |saves[..i] + saves[i + 1..]| == |saves| - 1
    ensures forall k :: 0 <= k < i ==> (saves[..i] + saves[i + 1..])[k] == saves[k]
    ensures forall k :: i < k < |saves| ==> (saves[..i] + saves[i + 1..])[k - 1] == saves[k]
  {
  }

  lemma RemoveAtPairs(saves: seq<Save>, i: nat)
    requires i < |saves| && NoDuplicates(saves)
    ensures Pairs(saves[..i] + saves[i + 1..]) == Pairs(saves) - {(saves[i].userId, saves[i].storyId)}
  {
    var after := saves[..i] + saves[i + 1..];
    var p := (saves[i].userId, saves[i].storyId);
    RemoveAtIndex(saves, i);
    forall q | q in Pairs(saves) - {p} ensures q in Pairs(after) {
      var k :| 0 <= k < |saves| && (saves[k].userId, saves[k].storyId) == q;
      if k < i { assert after[k] == saves[k]; } else { assert after[k - 1] == saves[k]; }
    }
    forall q | q in Pairs(after) ensures q in Pairs(saves) - {p} {
      var k :| 0 <= k < |after| && (after[k].userId, after[k].storyId) == q;
      if k < i {
        assert after[k] == saves[k];
      } else {
        assert after[k] == saves[k + 1];
      }
    }
  }

  lemma RemoveAtNoDuplicates(saves: seq<Save>, i: nat)
    requires i < |saves| && NoDuplicates(saves)
    ensures NoDuplicates(saves[..i] + saves[i + 1..])
  {
    var after := saves[..i] + saves[i + 1..];
    RemoveAtIndex(saves, i);
    forall a, b | 0 <= a < b < |after|
      ensures (after[a].userId, after[a].storyId) != (after[b].userId, after[b].storyId)
    {
      var a' := if a < i then a else a + 1;
      var b' := if b < i then b else b + 1;
      assert after[a] == saves[a'] && after[b] == saves[b'];
    }
  }

  /** Unsaving a story that was just saved restores the collection exactly. */
  lemma SaveThenUnsave(saves: seq<Save>, u: string, s: string, now: int)
    requires !IsSavedIn(saves, u, s)
    ensures var saved := SaveStory(saves, u, s, now, false, false).1;
            UnsaveStory(saved, u, s, false) == (Removed, saves)
  {
    var saved := saves + [Save(u, s, now)];
    assert IsSavedIn(saved, u, s) by { assert saved[|saves|] == Save(u, s, now); }
    var i := FirstMatch(saved, u, s);
    assert forall k :: 0 <= k < |saves| ==> saved[k] == saves[k];
    assert i == |saves|;
    assert saved[..i] + saved[i + 1..] == saves;
  }

  /** `is_story_saved`: the lookup's answer, or false when the lookup raises. */
  function IsStorySaved(saves: seq<Save>, u: string, s: string, fault: bool): (r: bool)
    ensures r <==> !fault && (u, s) in Pairs(saves)
  {
    !fault && IsSavedIn(saves, u, s)
  }

  // ---------------------------------------------------------------------
  // Listing and statistics

  /** The saves of one user, in collection order. */
  function SavesOf(saves: seq<Save>, u: string): (r: seq<Save>)
    ensures forall x :: x in r <==> x in saves && x.userId == u
    ensures |r| <= |saves|
  {
    Select(saves, (x: Save) => x.userId == u)
  }

  function SavedAtKey(x: Save): real {
    x.savedAt as real
  }

  /** Fields the listing projects from the joined story. */
  const ProjectedKeys: set<string> :=
    {"_id", "challenge", "experience", "solution", "advice", "generated_story", "author_name", "created_at", "key_symptoms"}

  /** The approved stories whose `_id` is the ObjectId the saved id denotes. */
  function Lookup(approved: seq<Doc>, storyId: string): (r: seq<Doc>)
    ensures forall d :: d in r <==> d in approved && Get(d, "_id") == Some(ObjectId(Canonical(storyId)))
  {
    Select(approved, d => Get(d, "_id") == Some(ObjectId(Canonical(storyId))))
  }

  /** One listed story: the projected fields, `id` the story's id, `saved_at` the save's time, no `_id`. */
  function SavedEntry(d: Doc, x: Save): (r: Doc)
    requires "_id" in d && d["_id"].ObjectId?
    ensures "_id" !in r
    ensures "id" in r && r["id"] == Str(d["_id"].hex)
    ensures "saved_at" in r && r["saved_at"] == Time(x.savedAt)
    ensures forall k :: k in r <==> k == "id" || k == "saved_at" || (k in d && k in ProjectedKeys && k != "_id")
  {
    var kept := map k | k in d && k in ProjectedKeys && k != "_id" :: d[k];
    kept["id" := Str(d["_id"].hex)]["saved_at" := Time(x.savedAt)]
  }

  /** `e` is the joined row of some save in `window` with the approved story it names. */
  predicate JoinedRow(e: Doc, window: seq<Save>, approved: seq<Doc>) {
    exists x, d :: x in window && d in approved && Get(d, "_id") == Some(ObjectId(Canonical(x.storyId)))
                   && e == SavedEntry(d, x)
  }

  /** `$lookup` followed by `$unwind`: one row per matching approved story, none for a save whose story is gone. */
  function Joined(window: seq<Save>, approved: seq<Doc>): (r: seq<Doc>)
    ensures forall e :: e in r ==> JoinedRow(e, window, approved)
    ensures UniqueIds(approved) ==> |r| <= |window|
    decreases |window|
  {
    if |window| == 0 then []
    else
      var x := window[0];
      var found := Lookup(approved, x.storyId);
      var here := Rows(found, x);
      var rest := Joined(window[1..], approved);
      JoinedRowsWiden(rest, window, approved);
      assert forall k :: 0 <= k < |found| ==> found[k] in found;
      if UniqueIds(approved) then
        LookupAtMostOne(approved, x.storyId);
        here + rest
      else here + rest
  }

  /** The rows one save contributes, one per story found for it. */
  function Rows(found: seq<Doc>, x: Save): (r: seq<Doc>)
    requires forall d: Doc :: d in found ==> "_id" in d && d["_id"].ObjectId?
    ensures |r| == |found|
    ensures forall k :: 0 <= k < |found| ==> r[k] == SavedEntry(found[k], x)
    ensures forall k :: 0 <= k < |r| ==> SavedTime(r[k]) == x.savedAt
  {
    seq(|found|, k requires 0 <= k < |found| => SavedEntry(found[k], x))
  }

  /** The time a listed row was saved. */
  function SavedTime(e: Doc): int {
    if "saved_at" in e && e["saved_at"].Time? then e["saved_at"].seconds else 0
  }

  /** Saves ordered newest first. */
  predicate SavesNewestFirst(w: seq<Save>) {
    forall i, j :: 0 <= i < j < |w| ==> w[i].savedAt >= w[j].savedAt
  }

  /** Rows ordered by non-increasing `saved_at`. */
  predicate RowsNewestFirst(rows: seq<Doc>) {
    forall i, j :: 0 <= i < j < |rows| ==> SavedTime(rows[i]) >= SavedTime(rows[j])
  }

  /** Every save of the window whose story is approved yields its row. */
  lemma {:induction false} JoinedComplete(window: seq<Save>, approved: seq<Doc>, x: Save, d: Doc)
    requires x in window && d in approved && Get(d, "_id") == Some(ObjectId(Canonical(x.storyId)))
    ensures "_id" in d && d["_id"].ObjectId?
    ensures SavedEntry(d, x) in Joined(window, approved)
    decreases |window|
  {
    var found := Lookup(approved, window[0].storyId);
    assert forall k :: 0 <= k < |found| ==> found[k] in found;
    var here := Rows(found, window[0]);
    assert Joined(window, approved) == here + Joined(window[1..], approved);
    if window[0] == x {
      assert d in found;
      var k :| 0 <= k < |found| && found[k] == d;
      assert here[k] == SavedEntry(d, x);
    } else {
      assert x in window[1..];
      JoinedComplete(window[1..], approved, x, d);
    }
  }

  /** A window ordered newest first yields rows ordered newest first. */
  lemma {:induction false} JoinedNewestFirst(window: seq<Save>, approved: seq<Doc>)
    requires SavesNewestFirst(window)
    ensures RowsNewestFirst(Joined(window, approved))
    decreases |window|
  {
    if |window| > 0 {
      var x := window[0];
      var found := Lookup(approved, x.storyId);
      assert forall k :: 0 <= k < |found| ==> found[k] in found;
      var here := Rows(found, x);
      var rest := Joined(window[1..], approved);
      assert SavesNewestFirst(window[1..]);
      JoinedNewestFirst(window[1..], approved);
      assert forall y :: y in window[1..] ==> y.savedAt <= x.savedAt;
      assert Joined(window, approved) == here + rest;
      JoinedNoLater(window[1..], approved, x.savedAt);
      RowsConcat(here, rest, x.savedAt);
    }
  }

  /** Saves made no later than `t` join into rows saved no later than `t`. */
  lemma JoinedNoLater(window: seq<Save>, approved: seq<Doc>, t: int)
    requires forall x :: x in window ==> x.savedAt <= t
    ensures forall e :: e in Joined(window, approved) ==> SavedTime(e) <= t
  {
    forall e | e in Joined(window, approved) ensures SavedTime(e) <= t {
      var y, d :| y in window && d in approved && Get(d, "_id") == Some(ObjectId(Canonical(y.storyId)))
                  && e == SavedEntry(d, y);
    }
  }

  /** Rows saved at `t`, followed by newest-first rows saved no later than `t`, are newest first. */
  lemma RowsConcat(here: seq<Doc>, rest: seq<Doc>, t: int)
    requires forall k :: 0 <= k < |here| ==> SavedTime(here[k]) == t
    requires forall e :: e in rest ==> SavedTime(e) <= t
    requires RowsNewestFirst(rest)
    ensures RowsNewestFirst(here + rest)
  {
    var all := here + rest;
    forall i, j | 0 <= i < j < |all| ensures SavedTime(all[i]) >= SavedTime(all[j]) {
      if j >= |here| {
        assert all[j] == rest[j - |here|] && rest[j - |here|] in rest;
        if i >= |here| {
          assert all[i] == rest[i - |here|];
        }
      }
    }
  }

  /** A row joined from the tail of a window is joined from the whole window. */
  lemma JoinedRowsWiden(rows: seq<Doc>, window: seq<Save>, approved: seq<Doc>)
    requires |window| > 0
    requires forall e :: e in rows ==> JoinedRow(e, window[1..], approved)
    ensures forall e :: e in rows ==> JoinedRow(e, window, approved)
  {
    forall e | e in rows ensures JoinedRow(e, window, approved) {
      var y, d :| y in window[1..] && d in approved && Get(d, "_id") == Some(ObjectId(Canonical(y.storyId)))
                  && e == SavedEntry(d, y);
      assert y in window;
    }
  }

  /** No two approved stories share an `_id`. */
  predicate UniqueIds(approved: seq<Doc>) {
    forall i, j :: 0 <= i < j < |approved| && "_id" in approved[i] && "_id" in approved[j] ==> approved[i]["_id"] != approved[j]["_id"]
  }

  lemma LookupAtMostOne(approved: seq<Doc>, storyId: string)
    requires UniqueIds(approved)
    ensures |Lookup(approved, storyId)| <= 1
  {
    var found := Lookup(approved, storyId);
    if |found| > 1 {
      SelectSublist(approved, d => Get(d, "_id") == Some(ObjectId(Canonical(storyId))));
      assert false;
    }
  }

  /** The first two selected elements sit at two distinct, ordered positions. */
  lemma {:induction false} SelectSublist<T(!new)>(s: seq<T>, p: T -> bool)
    requires |Select(s, p)| > 1
    ensures exists i, j :: 0 <= i < j < |s| && s[i] == Select(s, p)[0] && s[j] == Select(s, p)[1]
    decreases |s|
  {
    if p(s[0]) {
      var rest := Select(s[1..], p);
      assert rest[0] in rest;
      var j :| 0 <= j < |s[1..]| && s[1..][j] == rest[0];
      assert s[j + 1] == Select(s, p)[1];
    } else {
      SelectSublist(s[1..], p);
      var i, j :| 0 <= i < j < |s[1..]| && s[1..][i] == Select(s[1..], p)[0] && s[1..][j] == Select(s[1..], p)[1];
      assert s[i + 1] == s[1..][i] && s[j + 1] == s[1..][j];
    }
  }

  datatype SavedListing = SavedListing(stories: seq<Doc>, totalCount: nat, displayedCount: nat)

  const ListFailed: string := "Failed to retrieve saved stories"

  /** `$skip` then `$limit` of the aggregation. */
  function Window(sorted: seq<Save>, skip: nat, limit: nat): (r: seq<Save>)
    ensures |r| == if skip >= |sorted| then 0 else if |sorted| - skip < limit then |sorted| - skip else limit
    ensures forall i :: 0 <= i < |r| ==> skip + i < |sorted| && r[i] == sorted[skip + i]
    ensures forall x :: x in r ==> x in sorted
  {
    var rest := if skip <= |sorted| then sorted[skip..] else [];
    PrefixSlice(rest, limit)
  }

  /**
   * `w` holds positions `skip` to `skip + limit` of the user's saves ordered
   * newest first, saves with equal times in some order.
   */
  ghost predicate NewestWindow(w: seq<Save>, saves: seq<Save>, u: string, skip: nat, limit: nat) {
    exists sorted: seq<Save> ::
      && multiset(sorted) == multiset(SavesOf(saves, u))
      && SavesNewestFirst(sorted)
      && w == Window(sorted, skip, limit)
  }

  /**
   * `rows` lists the saves of `w` joined with the approved stories: newest
   * first, one row for each save and approved story it names, and no other.
   */
  ghost predicate ListingOf(rows: seq<Doc>, w: seq<Save>, approved: seq<Doc>) {
    && RowsNewestFirst(rows)
    && (forall x, d ::
          x in w && d in approved && Get(d, "_id") == Some(ObjectId(Canonical(x.storyId))) ==> SavedEntry(d, x) in rows)
    && (forall e :: e in rows ==> JoinedRow(e, w, approved))
  }

  /** The page the listing computes is a newest-first window of the user's saves, and its join lists it. */
  lemma WindowListing(saves: seq<Save>, approved: seq<Doc>, u: string, skip: nat, limit: nat)
    ensures var w := Window(SortDesc(SavesOf(saves, u), SavedAtKey), skip, limit);
            && NewestWindow(w, saves, u, skip, limit)
            && ListingOf(Joined(w, approved), w, approved)
            && forall x :: x in w ==> x in saves && x.userId == u
  {
    var mine := SavesOf(saves, u);
    var sorted := SortDesc(mine, SavedAtKey);
    var window := Window(sorted, skip, limit);
    forall x | x in window ensures x in mine {
      assert x in multiset(sorted);
    }
    assert SavesNewestFirst(sorted) by {
      assert forall i, j :: 0 <= i < j < |sorted| ==> SavedAtKey(sorted[i]) >= SavedAtKey(sorted[j]);
    }
    assert NewestWindow(window, saves, u, skip, limit);
    assert SavesNewestFirst(window);
    JoinedNewestFirst(window, approved);
    forall x, d | x in window && d in approved && Get(d, "_id") == Some(ObjectId(Canonical(x.storyId)))
      ensures SavedEntry(d, x) in Joined(window, approved)
    {
      JoinedComplete(window, approved, x, d);
    }
  }

  /**
   * `get_saved_stories`: the user's saves newest first, `skip` then `limit`
   * of them, joined with the approved stories; saves whose story is gone
   * drop out. A negative skip, a limit that is not positive, an id
   * `$toObjectId` rejects inside the window, or a database failure (`fault`)
   * fails the whole call.
   */
  function GetSavedStories(saves: seq<Save>, approved: seq<Doc>, u: string, limit: int, skip: int, fault: bool)
    : (r: Result<SavedListing, string>)
    requires forall d: Doc :: d in approved ==> "_id" in d && d["_id"].ObjectId?
    ensures r.Failure? ==> r.error == ListFailed
    ensures fault || skip < 0 || limit <= 0 ==> r.Failure?
    ensures !fault && skip >= 0 && limit > 0 && (forall x :: x in saves && x.userId == u ==> ValidId(x.storyId))
            ==> r.Success?
    ensures r.Success? ==>
              exists w: seq<Save> :: NewestWindow(w, saves, u, skip, limit) && ListingOf(r.value.stories, w, approved)
                                   && forall x :: x in w ==> ValidId(x.storyId)
    ensures r.Success? ==>
              && r.value.totalCount == |SavesOf(saves, u)|
              && r.value.displayedCount == |r.value.stories|
              && (UniqueIds(approved) ==> r.value.displayedCount <= limit)
              && forall e :: e in r.value.stories ==>
                   exists x, d :: x in saves && x.userId == u && d in approved
                                  && Get(d, "_id") == Some(ObjectId(Canonical(x.storyId))) && e == SavedEntry(d, x)
  {
    if fault || skip < 0 || limit <= 0 then Failure(ListFailed)
    else
      var mine := SavesOf(saves, u);
      var sorted := SortDesc(mine, SavedAtKey);
      var window := Window(sorted, skip, limit);
      WindowListing(saves, approved, u, skip, limit);
      if exists x :: x in window && !ValidId(x.storyId) then Failure(ListFailed)
      else
        var stories := Joined(window, approved);
        Success(SavedListing(stories, |mine|, |stories|))
  }

  datatype Stats = Stats(totalSaved: nat, recentSaved: nat)

  const Week: int := 7 * 86400

  /** The user's save from the seven days before `now` (`saved_at >= now - 7 days`). */
  predicate Recent(x: Save, u: string, now: int) {
    x.userId == u && x.savedAt >= now - Week
  }

  /** `get_saved_stories_stats` at time `now`: all of the user's saves, and those from the last seven days. */
  function GetStats(saves: seq<Save>, u: string, now: int, fault: bool): (r: Stats)
    ensures fault ==> r == Stats(0, 0)
    ensures !fault ==> r.totalSaved == |SavesOf(saves, u)|
    ensures !fault ==> r.recentSaved == |Select(saves, (x: Save) => Recent(x, u, now))|
    ensures r.recentSaved <= r.totalSaved
  {
    if fault then Stats(0, 0)
    else
      SelectMonotone(saves, (x: Save) => Recent(x, u, now), (x: Save) => x.userId == u);
      Stats(|SavesOf(saves, u)|, |Select(saves, (x: Save) => Recent(x, u, now))|)
  }

  // ---------------------------------------------------------------------
  // Orphan cleanup

  /**
   * The ids `cleanup_orphaned_saves` keeps, as written: the printed ObjectIds
   * of the approved stories some save points at. Printing lower-cases the
   * hex digits.
   */
  function ExistingIds(saves: seq<Save>, approvedIds: set<string>): (r: set<string>)
    ensures forall id :: id in r <==> exists i :: 0 <= i < |saves| && ValidId(saves[i].storyId) && id == Canonical(saves[i].storyId) && id in approvedIds
  {
    set i | 0 <= i < |saves| && ValidId(saves[i].storyId) && Canonical(saves[i].storyId) in approvedIds :: Canonical(saves[i].storyId)
  }

  /** `delete_many({"story_id": {"$nin": existing}})` compares the saved text itself. */
  predicate KeptAsWritten(x: Save, existing: set<string>) {
    x.storyId in existing
  }

  /**
   * `cleanup_orphaned_saves` as written. `approvedIds` are the printed ids of
   * the approved stories; `fault` stands for the database raising, which
   * deletes nothing and reports 0.
   */
  function CleanupAsWritten(saves: seq<Save>, approvedIds: set<string>, fault: bool): (r: (nat, seq<Save>))
    ensures fault ==> r == (0, saves)
    ensures !fault ==> r.1 == Select(saves, x => KeptAsWritten(x, ExistingIds(saves, approvedIds)))
    ensures r.0 + |r.1| == |saves|
  {
    if fault then (0, saves)
    else
      var existing := ExistingIds(saves, approvedIds);
      var kept := Select(saves, x => KeptAsWritten(x, existing));
      (|saves| - |kept|, kept)
  }

  /** Lower-case hex: the only way `str(ObjectId(...))` prints an id. */
  predicate PrintedIds(approvedIds: set<string>) {
    forall id :: id in approvedIds ==> ValidId(id) && Canonical(id) == id
  }

  /**
   * As written, a save whose id names an existing approved story with an
   * upper-case hex digit is deleted as an orphan, although the listing
   * finds its story.
   */
  lemma UpperCaseIdDeleted(saves: seq<Save>, approvedIds: set<string>, i: nat)
    requires i < |saves|
    requires ValidId(saves[i].storyId) && Canonical(saves[i].storyId) in approvedIds
    requires Canonical(saves[i].storyId) != saves[i].storyId
    ensures saves[i] !in CleanupAsWritten(saves, approvedIds, false).1
    ensures saves[i] in CleanupCorrected(saves, approvedIds, false).1
  {
    var x := saves[i];
    NotLowerHasUpper(x.storyId);
    assert forall k :: 0 <= k < |saves| ==> Canonical(saves[k].storyId) != x.storyId;
  }

  /** Text that lower-casing changes holds an upper-case letter. */
  lemma NotLowerHasUpper(s: string)
    requires Lower(s) != s
    ensures exists k :: 0 <= k < |s| && IsAsciiUpper(s[k])
  {
    var k :| 0 <= k < |s| && Lower(s)[k] != s[k];
  }

  /** A save is an orphan when its id is not a valid ObjectId or names no approved story. */
  predicate Orphan(x: Save, approvedIds: set<string>) {
    !ValidId(x.storyId) || Canonical(x.storyId) !in approvedIds
  }

  /** `cleanup_orphaned_saves` comparing ObjectIds rather than their spelling. */
  function CleanupCorrected(saves: seq<Save>, approvedIds: set<string>, fault: bool): (r: (nat, seq<Save>))
    ensures fault ==> r == (0, saves)
    ensures !fault ==> forall x :: x in r.1 <==> x in saves && !Orphan(x, approvedIds)
    ensures !fault ==> IsSubsequence(r.1, saves)
    ensures r.0 + |r.1| == |saves|
  {
    if fault then (0, saves)
    else
      var kept := Select(saves, x => !Orphan(x, approvedIds));
      (|saves| - |kept|, kept)
  }

  /** The corrected cleanup reports the number of orphans it removed, and running it again removes nothing. */
  lemma CleanupCorrectedIdempotent(saves: seq<Save>, approvedIds: set<string>)
    ensures var (n, kept) := CleanupCorrected(saves, approvedIds, false);
            CleanupCorrected(kept, approvedIds, false) == (0, kept)
  {
    var kept := CleanupCorrected(saves, approvedIds, false).1;
    SelectAll(kept, x => !Orphan(x, approvedIds));
  }

  /** Selecting by a predicate every element satisfies keeps the whole list. */
  lemma {:induction false} SelectAll<T(!new)>(s: seq<T>, p: T -> bool)
    requires forall x :: x in s ==> p(x)
    ensures Select(s, p) == s
    decreases |s|
  {
    if |s| > 0 {
      assert forall x :: x in s[1..] ==> x in s;
      SelectAll(s[1..], p);
      assert s == [s[0]] + s[1..];
    }
  }

  /** On ids spelled the way they print, the cleanup as written and the corrected one agree. */
  lemma CleanupAgreesOnPrintedIds(saves: seq<Save>, approvedIds: set<string>)
    requires forall i :: 0 <= i < |saves| && ValidId(saves[i].storyId) ==> Canonical(saves[i].storyId) == saves[i].storyId
    ensures CleanupAsWritten(saves, approvedIds, false) == CleanupCorrected(saves, approvedIds, false)
  {
    var existing := ExistingIds(saves, approvedIds);
    forall x | x in saves
      ensures KeptAsWritten(x, existing) == !Orphan(x, approvedIds)
    {
      var i :| 0 <= i < |saves| && saves[i] == x;
      if KeptAsWritten(x, existing) {
        var k :| 0 <= k < |saves| && ValidId(saves[k].storyId) && x.storyId == Canonical(saves[k].storyId) && x.storyId in approvedIds;
        LowerIdempotent(saves[k].storyId);
        assert Lower(x.storyId) == x.storyId;
        CanonicalValid(saves[k].storyId);
      }
    }
    SelectSame(saves, x => KeptAsWritten(x, existing), x => !Orphan(x, approvedIds));
  }

  /** Two predicates that agree on a list select the same elements. */
  lemma {:induction false} SelectSame<T(!new)>(s: seq<T>, p: T -> bool, q: T -> bool)
    requires forall x :: x in s ==> p(x) == q(x)
    ensures Select(s, p) == Select(s, q)
    decreases |s|
  {
    if |s| > 0 {
      assert forall x :: x in s[1..] ==> x in s;
      SelectSame(s[1..], p, q);
    }
  }
}

=== FILE: saved_stories_router.dfy ===
/**
 * The `/stories/saved` request handlers: the database outcomes of saving
 * and unsaving mapped to responses, the toggle built from the saved check,
 * and the administrator-only orphan cleanup.
 */
module SavedStoriesRouter {
  import opened Wrappers
  import opened Strings
  import opened Http
  import opened SavedStories

  const IdRequiredDetail: string := "Story ID is required"
  const SaveFailedDetail: string := "Failed to save story"
  const UnsaveFailedDetail: string := "Failed to remove saved story"
  const AdminRequiredDetail: string := "Admin access required"

  const AlreadyInCollection: string := "Story already in your saved collection"
  const NotInCollection: string := "Story was not in your saved collection"
  const ToggledOff: string := "Story removed from saved collection"
  const ToggledOn: string := "Story added to saved collection"

  /** `SaveStoryResponse`. */
  datatype SaveReply = SaveReply(success: bool, message: string, isSaved: bool)

  /**
   * `save_story` handler. A blank id is refused before the database is
   * touched; a failed save raises inside the `try`, which turns any detail
   * into the generic 500.
   */
  function SaveEndpoint(saves: seq<Save>, u: string, storyId: string, now: int, lookupFault: bool, insertFault: bool)
    : (r: (Response<SaveReply>, seq<Save>))
    ensures IsBlank(storyId) ==> r == (Error(BadRequest, IdRequiredDetail), saves)
    ensures !IsBlank(storyId) ==> r.1 == SaveStory(saves, u, storyId, now, lookupFault, insertFault).1
    ensures r.0.Ok? <==> !IsBlank(storyId) && !lookupFault && !(insertFault && !IsSavedIn(saves, u, storyId))
    ensures r.0.Ok? ==> r.0.body.success && r.0.body.isSaved && IsSavedIn(r.1, u, storyId)
    ensures r.0.Ok? && IsSavedIn(saves, u, storyId) ==> r.0.body.message == AlreadyInCollection && r.1 == saves
    ensures r.0.Error? && !IsBlank(storyId) ==> r.0 == Error(ServerError, SaveFailedDetail) && r.1 == saves
  {
    if IsBlank(storyId) then (Error(BadRequest, IdRequiredDetail), saves)
    else
      var (o, after) := SaveStory(saves, u, storyId, now, lookupFault, insertFault);
      match o
      case Saved =>
        assert after[|saves|] == Save(u, storyId, now);
        (Ok(SaveReply(true, SaveMessage(Saved), true)), after)
      case AlreadySaved => (Ok(SaveReply(true, AlreadyInCollection, true)), after)
      case SaveFailed => (Error(ServerError, SaveFailedDetail), after)
  }

  /** A lookup that raises answers 500 even for a story that is already saved. */
  lemma LookupFaultFailsSave(saves: seq<Save>, u: string, storyId: string, now: int, insertFault: bool)
    requires !IsBlank(storyId)
    ensures SaveEndpoint(saves, u, storyId, now, true, insertFault) == (Error(ServerError, SaveFailedDetail), saves)
  {
  }

  /** `unsave_story` handler: a story that was not saved still reports success. */
  function UnsaveEndpoint(saves: seq<Save>, u: string, storyId: string, fault: bool)
    : (r: (Response<SaveReply>, seq<Save>))
    ensures IsBlank(storyId) ==> r == (Error(BadRequest, IdRequiredDetail), saves)
    ensures !IsBlank(storyId) ==> r.1 == UnsaveStory(saves, u, storyId, fault).1
    ensures r.0.Ok? <==> !IsBlank(storyId) && !fault
    ensures r.0.Ok? ==> r.0.body.success && !r.0.body.isSaved
    ensures r.0.Ok? && !IsSavedIn(saves, u, storyId) ==> r.0.body.message == NotInCollection && r.1 == saves
    ensures r.0.Ok? && NoDuplicates(saves) ==> !IsSavedIn(r.1, u, storyId)
    ensures r.0.Error? && !IsBlank(storyId) ==> r.0 == Error(ServerError, UnsaveFailedDetail) && r.1 == saves
  {
    if IsBlank(storyId) then (Error(BadRequest, IdRequiredDetail), saves)
    else
      var (o, after) := UnsaveStory(saves, u, storyId, fault);
      match o
      case Removed => (Ok(SaveReply(true, UnsaveMessage(Removed), false)), after)
      case NotSaved => (Ok(SaveReply(true, NotInCollection, false)), after)
      case UnsaveFailed => (Error(ServerError, UnsaveFailedDetail), after)
  }

  /**
   * `toggle_save_story`. `checkFault` makes the saved check answer false;
   * `opFault` makes the following save or unsave raise, which stores nothing
   * whichever of its steps raised. The outcome of that operation is ignored:
   * the reply depends on the check alone.
   */
  function ToggleEndpoint(saves: seq<Save>, u: string, storyId: string, now: int, checkFault: bool, opFault: bool)
    : (r: (Response<SaveReply>, seq<Save>))
    ensures IsBlank(storyId) ==> r == (Error(BadRequest, IdRequiredDetail), saves)
    ensures !IsBlank(storyId) ==> r.0.Ok? && r.0.body.success
    ensures !IsBlank(storyId) ==> (r.0.body.isSaved <==> !IsStorySaved(saves, u, storyId, checkFault))
    ensures !IsBlank(storyId) && IsStorySaved(saves, u, storyId, checkFault) ==>
              r.0.body.message == ToggledOff && r.1 == UnsaveStory(saves, u, storyId, opFault).1
    ensures !IsBlank(storyId) && !IsStorySaved(saves, u, storyId, checkFault) ==>
              r.0.body.message == ToggledOn && r.1 == SaveStory(saves, u, storyId, now, opFault, false).1
  {
    if IsBlank(storyId) then (Error(BadRequest, IdRequiredDetail), saves)
    else if IsStorySaved(saves, u, storyId, checkFault) then
      (Ok(SaveReply(true, ToggledOff, false)), UnsaveStory(saves, u, storyId, opFault).1)
    else
      (Ok(SaveReply(true, ToggledOn, true)), SaveStory(saves, u, storyId, now, opFault, false).1)
  }

  /** Without faults, a toggle flips whether the story is saved and reports the new state. */
  lemma ToggleFlips(saves: seq<Save>, u: string, storyId: string, now: int)
    requires NoDuplicates(saves) && !IsBlank(storyId)
    ensures var (resp, after) := ToggleEndpoint(saves, u, storyId, now, false, false);
            && (IsSavedIn(after, u, storyId) <==> !IsSavedIn(saves, u, storyId))
            && resp.body.isSaved == IsSavedIn(after, u, storyId)
            && NoDuplicates(after)
  {
    SavePreservesNoDuplicates(saves, u, storyId, now, false, false);
  }

  /** Without faults, two toggles restore the set of saved pairs. */
  lemma ToggleTwiceRestores(saves: seq<Save>, u: string, storyId: string, now: int, later: int)
    requires NoDuplicates(saves) && !IsBlank(storyId)
    ensures var once := ToggleEndpoint(saves, u, storyId, now, false, false).1;
            var twice := ToggleEndpoint(once, u, storyId, later, false, false).1;
            Pairs(twice) == Pairs(saves)
  {
    var once := ToggleEndpoint(saves, u, storyId, now, false, false).1;
    ToggleFlips(saves, u, storyId, now);
    if IsSavedIn(saves, u, storyId) {
      assert Pairs(once) == Pairs(saves) - {(u, storyId)};
      assert (u, storyId) in Pairs(saves);
    } else {
      SaveThenUnsave(saves, u, storyId, now);
    }
  }

  /** When the check fails on a saved story, the toggle saves again: it reports the story added and nothing changes. */
  lemma ToggleAfterFailedCheck(saves: seq<Save>, u: string, storyId: string, now: int)
    requires !IsBlank(storyId) && IsSavedIn(saves, u, storyId)
    ensures var (resp, after) := ToggleEndpoint(saves, u, storyId, now, true, false);
            resp.body.isSaved && resp.body.message == ToggledOn && after == saves
  {
  }

  /** `check_story_saved`: the check never raises, so the endpoint always answers. */
  function CheckEndpoint(saves: seq<Save>, u: string, storyId: string, fault: bool): (r: Response<bool>)
    ensures r.Ok?
    ensures r.body <==> !fault && IsSavedIn(saves, u, storyId)
  {
    Ok(IsStorySaved(saves, u, storyId, fault))
  }

  /** `get_saved_stories` handler: a failed listing surfaces as a 500. */
  function ListEndpoint(saves: seq<Save>, approved: seq<Documents.Doc>, u: string, limit: int, skip: int, fault: bool)
    : (r: Response<SavedListing>)
    requires forall d: Documents.Doc :: d in approved ==> "_id" in d && d["_id"].ObjectId?
    ensures r.Error? <==> GetSavedStories(saves, approved, u, limit, skip, fault).Failure?
    ensures r.Error? ==> r.status == ServerError && r.detail == ListFailed
    ensures r.Ok? ==> r.body.displayedCount == |r.body.stories| && r.body.totalCount == |SavesOf(saves, u)|
  {
    match GetSavedStories(saves, approved, u, limit, skip, fault)
    case Success(listing) => Ok(listing)
    case Failure(_) => Error(ServerError, ListFailed)
  }

  /**
   * `cleanup_orphaned_saves` handler. Only the role "admin" may run it; the
   * cleanup used is the corrected one, which compares ObjectIds.
   */
  function CleanupEndpoint(saves: seq<Save>, approvedIds: set<string>, role: Option<string>, fault: bool)
    : (r: (Response<nat>, seq<Save>))
    ensures role != Some("admin") ==> r == (Error(Forbidden, AdminRequiredDetail), saves)
    ensures role == Some("admin") ==> r.0.Ok? && (r.0.body, r.1) == CleanupCorrected(saves, approvedIds, fault)
    ensures r.0.Ok? && !fault ==> r.0.body == |saves| - |r.1| && forall x :: x in r.1 <==> x in saves && !Orphan(x, approvedIds)
  {
    if role != Some("admin") then (Error(Forbidden, AdminRequiredDetail), saves)
    else
      var (n, kept) := CleanupCorrected(saves, approvedIds, fault);
      (Ok(n), kept)
  }
}

=== FILE: seqs.dfy ===
/** Order-preserving selection from a sequence (Python's list comprehension with an `if`). */
module Seqs {

  predicate Distinct<T(==)>(s: seq<T>) {
    forall i, j :: 0 <= i < j < |s| ==> s[i] != s[j]
  }

  /** A duplicate-free list has as many distinct members as entries. */
  lemma {:induction false} DistinctCard<T>(s: seq<T>)
    requires Distinct(s)
    ensures |set x | x in s| == |s|
    decreases |s|
  {
    if |s| > 0 {
      assert Distinct(s[1..]);
      DistinctCard(s[1..]);
      assert (set x | x in s) == (set x | x in s[1..]) + {s[0]};
      assert s[0] !in (set x | x in s[1..]);
    }
  }

  /** `a` can be obtained from `b` by deleting elements (order kept). */
  predicate IsSubsequence<T(==)>(a: seq<T>, b: seq<T>)
    decreases |b|
  {
    |a| == 0 || (|b| > 0 && if a[0] == b[0] then IsSubsequence(a[1..], b[1..]) else IsSubsequence(a, b[1..]))
  }

  /** `[x for x in s if p(x)]`. */
  function Select<T(==,!new)>(s: seq<T>, p: T -> bool): (r: seq<T>)
    ensures |r| <= |s|
    ensures forall x :: x in r <==> x in s && p(x)
    ensures IsSubsequence(r, s)
    decreases |s|
  {
    if |s| == 0 then []
    else if p(s[0]) then [s[0]] + Select(s[1..], p)
    else Select(s[1..], p)
  }

  /** Selecting from a duplicate-free list yields a duplicate-free list. */
  lemma {:induction false} SelectDistinct<T(!new)>(s: seq<T>, p: T -> bool)
    requires Distinct(s)
    ensures Distinct(Select(s, p))
    decreases |s|
  {
    if |s| > 0 {
      assert Distinct(s[1..]);
      SelectDistinct(s[1..], p);
      var rest := Select(s[1..], p);
      if p(s[0]) {
        assert s[0] !in s[1..];
        assert s[0] !in rest;
        var r := [s[0]] + rest;
        forall i, j | 0 <= i < j < |r| ensures r[i] != r[j] {
          if i == 0 {
            assert r[j] in rest;
          } else {
            assert r[i] == rest[i - 1] && r[j] == rest[j - 1];
          }
        }
      }
    }
  }

  /** A weaker filter selects at least as many elements. */
  lemma {:induction false} SelectMonotone<T(!new)>(s: seq<T>, p: T -> bool, q: T -> bool)
    requires forall x :: x in s && p(x) ==> q(x)
    ensures |Select(s, p)| <= |Select(s, q)|
    decreases |s|
  {
    if |s| > 0 {
      assert forall x :: x in s[1..] ==> x in s;
      SelectMonotone(s[1..], p, q);
    }
  }

  /** Selecting from a concatenation selects from each part in turn. */
  lemma {:induction false} SelectAppend<T(!new)>(a: seq<T>, b: seq<T>, p: T -> bool)
    ensures Select(a + b, p) == Select(a, p) + Select(b, p)
    decreases |a|
  {
    if |a| > 0 {
      assert (a + b)[1..] == a[1..] + b;
      SelectAppend(a[1..], b, p);
    } else {
      assert a + b == b;
    }
  }

  /** Selecting by a predicate and by its negation splits a list into two parts that together hold every element. */
  lemma {:induction false} SelectPartition<T(!new)>(s: seq<T>, p: T -> bool, q: T -> bool)
    requires forall x :: q(x) == !p(x)
    ensures multiset(Select(s, p)) + multiset(Select(s, q)) == multiset(s)
    decreases |s|
  {
    if |s| > 0 {
      SelectPartition(s[1..], p, q);
      assert s == [s[0]] + s[1..];
    }
  }

  /** A permutation holds the same elements. */
  lemma SameMembers<T>(a: seq<T>, b: seq<T>)
    requires multiset(a) == multiset(b)
    ensures |a| == |b|
    ensures forall x :: x in a <==> x in b
  {
    assert |a| == |multiset(a)|;
    forall x ensures x in a <==> x in b {
      assert x in a <==> x in multiset(a);
      assert x in b <==> x in multiset(b);
    }
  }
}

=== FILE: sorting.dfy ===
/**
 * Python's `list.sort(key=..., reverse=True)`: a stable sort into non-increasing
 * key order. Elements are tagged with their position in the input so that
 * stability (equal keys keep their input order) can be stated.
 */
module Sorting {

  datatype Tagged<T> = Tagged(pos: nat, item: T)

  /** `a` precedes `b` in a stable descending sort by `key`. */
  predicate Before<T>(a: Tagged<T>, b: Tagged<T>, key: T -> real) {
    key(a.item) > key(b.item) || (key(a.item) == key(b.item) && a.pos < b.pos)
  }

  /** Strictly ordered by `Before`: non-increasing keys, ties in input order. */
  predicate StableDesc<T>(s: seq<Tagged<T>>, key: T -> real) {
    forall i, j :: 0 <= i < j < |s| ==> Before(s[i], s[j], key)
  }

  predicate DistinctPositions<T>(s: seq<Tagged<T>>) {
    forall i, j :: 0 <= i < j < |s| ==> s[i].pos != s[j].pos
  }

  /** Tags every element with its index in `s`. */
  function Tag<T>(s: seq<T>): (r: seq<Tagged<T>>)
    ensures |r| == |s|
    ensures forall i :: 0 <= i < |s| ==> r[i] == Tagged(i, s[i])
    ensures DistinctPositions(r)
  {
    seq(|s|, i requires 0 <= i < |s| => Tagged(i, s[i]))
  }

  function Untag<T>(s: seq<Tagged<T>>): (r: seq<T>)
    ensures |r| == |s|
    ensures forall i :: 0 <= i < |s| ==> r[i] == s[i].item
  {
    seq(|s|, i requires 0 <= i < |s| => s[i].item)
  }

  lemma BeforeTransitive<T>(a: Tagged<T>, b: Tagged<T>, c: Tagged<T>, key: T -> real)
    requires Before(a, b, key) && Before(b, c, key)
    ensures Before(a, c, key)
  {
  }

  /** Putting an element that precedes every element of a sorted list in front keeps it sorted. */
  lemma ConsSorted<T>(h: Tagged<T>, s: seq<Tagged<T>>, key: T -> real)
    requires StableDesc(s, key)
    requires forall y :: y in multiset(s) ==> Before(h, y, key)
    ensures StableDesc([h] + s, key)
  {
    forall i, j | 0 <= i < j < |[h] + s| ensures Before(([h] + s)[i], ([h] + s)[j], key) {
      if i == 0 {
        assert ([h] + s)[j] == s[j - 1] && s[j - 1] in multiset(s);
      }
    }
  }

  /** The elements of a sorted list a head precedes are preceded by everything before it. */
  lemma SortedHead<T>(x: Tagged<T>, s: seq<Tagged<T>>, key: T -> real)
    requires StableDesc(s, key) && |s| > 0 && Before(x, s[0], key)
    ensures forall y :: y in multiset(s) ==> Before(x, y, key)
  {
    forall y | y in multiset(s) ensures Before(x, y, key) {
      var k :| 0 <= k < |s| && s[k] == y;
      if k > 0 {
        BeforeTransitive(x, s[0], s[k], key);
      }
    }
  }

  /** Inserts `x` into a sorted list, after every element that precedes it. */
  function Insert<T>(x: Tagged<T>, s: seq<Tagged<T>>, key: T -> real): (r: seq<Tagged<T>>)
    requires StableDesc(s, key)
    requires forall i :: 0 <= i < |s| ==> s[i].pos != x.pos
    ensures StableDesc(r, key)
    ensures multiset(r) == multiset(s) + multiset{x}
    decreases |s|
  {
    if |s| == 0 then [x]
    else if Before(s[0], x, key) then
      assert StableDesc(s[1..], key) by {
        forall i, j | 0 <= i < j < |s[1..]| ensures Before(s[1..][i], s[1..][j], key) {
          assert s[1..][i] == s[i + 1] && s[1..][j] == s[j + 1];
        }
      }
      var rest := Insert(x, s[1..], key);
      assert s == [s[0]] + s[1..];
      assert forall y :: y in multiset(rest) ==> Before(s[0], y, key) by {
        if |s[1..]| > 0 {
          SortedHead(s[0], s[1..], key);
        }
      }
      ConsSorted(s[0], rest, key);
      [s[0]] + rest
    else
      SortedHead(x, s, key);
      ConsSorted(x, s, key);
      [x] + s
  }

  /** The tail of a list with distinct positions keeps them distinct and avoids the head's position. */
  lemma TailPositions<T>(s: seq<Tagged<T>>)
    requires DistinctPositions(s) && |s| > 0
    ensures DistinctPositions(s[1..])
    ensures forall y :: y in multiset(s[1..]) ==> y.pos != s[0].pos
  {
    forall y | y in multiset(s[1..]) ensures y.pos != s[0].pos {
      var k :| 0 <= k < |s[1..]| && s[1..][k] == y;
      assert s[k + 1] == y;
    }
  }

  /** A permutation of a list whose positions avoid `p` avoids `p` too. */
  lemma PermutationAvoids<T>(rest: seq<Tagged<T>>, tail: seq<Tagged<T>>, p: nat)
    requires multiset(rest) == multiset(tail)
    requires forall y :: y in multiset(tail) ==> y.pos != p
    ensures forall i :: 0 <= i < |rest| ==> rest[i].pos != p
  {
    forall i | 0 <= i < |rest| ensures rest[i].pos != p {
      assert rest[i] in multiset(rest);
    }
  }

  /** Insertion sort of tagged elements. */
  function SortTagged<T>(s: seq<Tagged<T>>, key: T -> real): (r: seq<Tagged<T>>)
    requires DistinctPositions(s)
    ensures StableDesc(r, key)
    ensures multiset(r) == multiset(s)
    decreases |s|
  {
    if |s| == 0 then []
    else
      TailPositions(s);
      var rest := SortTagged(s[1..], key);
      PermutationAvoids(rest, s[1..], s[0].pos);
      assert s == [s[0]] + s[1..];
      Insert(s[0], rest, key)
  }

  lemma UntagAppend<T>(a: seq<Tagged<T>>, b: seq<Tagged<T>>)
    ensures Untag(a + b) == Untag(a) + Untag(b)
  {
  }

  /** Untagging maps a permutation to a permutation. */
  lemma {:induction false} UntagPermutation<T>(t1: seq<Tagged<T>>, t2: seq<Tagged<T>>)
    requires multiset(t1) == multiset(t2)
    ensures multiset(Untag(t1)) == multiset(Untag(t2))
    decreases |t1|
  {
    if |t1| == 0 {
      assert |t2| == |multiset(t2)| == 0;
    } else {
      var x := t1[0];
      assert x in multiset(t2);
      var j :| 0 <= j < |t2| && t2[j] == x;
      var t2' := t2[..j] + t2[j + 1..];
      assert t2 == t2[..j] + [x] + t2[j + 1..];
      assert multiset(t2) == multiset(t2[..j]) + multiset{x} + multiset(t2[j + 1..]);
      assert multiset(t2') == multiset(t2[..j]) + multiset(t2[j + 1..]);
      assert t1 == [x] + t1[1..];
      assert multiset(t1) == multiset{x} + multiset(t1[1..]);
      assert multiset(t2') == multiset(t2) - multiset{x};
      assert multiset(t1[1..]) == multiset(t1) - multiset{x};
      UntagPermutation(t1[1..], t2');
      UntagAppend(t2[..j] + [x], t2[j + 1..]);
      UntagAppend(t2[..j], [x]);
      UntagAppend(t2[..j], t2[j + 1..]);
      UntagAppend([x], t1[1..]);
    }
  }

  /**
   * `sorted(s, key=key, reverse=True)`: a permutation of `s` in non-increasing
   * key order, elements with equal keys in their order in `s`.
   */
  function SortDesc<T(!new)>(s: seq<T>, key: T -> real): (r: seq<T>)
    ensures multiset(r) == multiset(s)
    ensures forall i, j :: 0 <= i < j < |r| ==> key(r[i]) >= key(r[j])
    ensures exists t: seq<Tagged<T>> :: StableDesc(t, key) && multiset(t) == multiset(Tag(s)) && r == Untag(t)
  {
    var t := SortTagged(Tag(s), key);
    UntagPermutation(t, Tag(s));
    assert Untag(Tag(s)) == s;
    Untag(t)
  }

  /**
   * A prefix of a list in non-increasing key order holds its largest keys:
   * nothing left out has a larger key than anything kept.
   */
  lemma PrefixHoldsLargest<T>(s: seq<T>, r: seq<T>, key: T -> real)
    requires forall i, j :: 0 <= i < j < |s| ==> key(s[i]) >= key(s[j])
    requires r <= s
    ensures multiset(r) <= multiset(s)
    ensures forall e, f :: e in r && f in multiset(s) - multiset(r) ==> key(f) <= key(e)
  {
    var rest := s[|r|..];
    assert s == r + rest;
    assert multiset(s) == multiset(r) + multiset(rest);
    forall e, f | e in r && f in multiset(s) - multiset(r) ensures key(f) <= key(e) {
      var i :| 0 <= i < |r| && r[i] == e;
      assert f in multiset(rest);
      var j :| 0 <= j < |rest| && rest[j] == f;
      assert s[i] == e && s[|r| + j] == f;
    }
  }

  /** Two stably sorted permutations of each other start with the same element. */
  lemma SameHead<T>(a: seq<Tagged<T>>, b: seq<Tagged<T>>, key: T -> real)
    requires StableDesc(a, key) && StableDesc(b, key)
    requires |a| > 0 && |b| > 0
    requires a[0] in b && b[0] in a
    ensures a[0] == b[0]
  {
    var j :| 0 <= j < |b| && b[j] == a[0];
    var i :| 0 <= i < |a| && a[i] == b[0];
    assert j == 0 || Before(b[0], b[j], key);
    assert i == 0 || Before(a[0], a[i], key);
  }

  /** Only one list is stably sorted and a permutation of a given list. */
  lemma {:induction false} StableDescUnique<T>(a: seq<Tagged<T>>, b: seq<Tagged<T>>, key: T -> real)
    requires StableDesc(a, key) && StableDesc(b, key)
    requires multiset(a) == multiset(b)
    ensures a == b
    decreases |a|
  {
    if |a| == 0 {
      assert |b| == |multiset(b)| == 0;
    } else {
      assert |b| == |multiset(b)| > 0;
      assert a[0] in multiset(b) && b[0] in multiset(a);
      SameHead(a, b, key);
      assert a == [a[0]] + a[1..] && b == [b[0]] + b[1..];
      assert multiset(a[1..]) == multiset(a) - multiset{a[0]};
      assert multiset(b[1..]) == multiset(b) - multiset{b[0]};
      StableDescUnique(a[1..], b[1..], key);
    }
  }
}

=== FILE: stories_router.dfy ===
/**
 * The `/stories` request handlers: the submission gate with its crisis
 * short-circuit, the find-similar endpoint, the public listings with their
 * sensitive fields removed, and the per-user listing that merges the three
 * moderation collections.
 */
module StoriesRouter {
  import opened Wrappers
  import opened Strings
  import opened Seqs
  import opened Sorting
  import opened Documents
  import opened Http
  import Generation
  import ContentFilter
  import StoryMatcher
  import Config
  import Keywords

  // ---------------------------------------------------------------------
  // Submission

  datatype CrisisResource = CrisisResource(name: string, phone: string, description: string)

  /** `CrisisSupport.get_crisis_resources`. */
  const CrisisResources: seq<CrisisResource> := [
    CrisisResource("National Suicide Prevention Lifeline", "988", "24/7 free and confidential support"),
    CrisisResource("Crisis Text Line", "Text HOME to 741741", "24/7 crisis support via text"),
    CrisisResource("Postpartum International Helpline", "1-944-4-PSI-HELP", "Specialized postpartum support"),
    CrisisResource("Emergency Services", "911", "Immediate emergency assistance")
  ]

  const CrisisMessage: string := "We noticed your message indicates you might be in distress. Please reach out for immediate support."

  /**
   * What the submission handler does once the request is accepted: answer
   * with the crisis reply, or go on to generate and store the story.
   */
  datatype SubmitReply =
    | CrisisReply(success: bool, requiresImmediateSupport: bool, resources: seq<CrisisResource>, message: string)
    | Generate

  /** The text the crisis filter reads: experience and advice, a missing advice printed as "None". */
  function CombinedText(experience: string, advice: Option<string>): string {
    experience + " " + Interpolate(advice)
  }

  /** `submit_story_for_review` up to the point where generation starts. */
  function SubmitStory(challenge: string, experience: string, solution: string, advice: Option<string>): (r: Response<SubmitReply>)
    ensures r.Error? <==> Generation.AnyBlank(challenge, experience, solution)
    ensures r.Error? ==> r.status == BadRequest && r.detail == Generation.EmptyFieldsDetail
    ensures r.Ok? && r.body.CrisisReply? <==>
              !Generation.AnyBlank(challenge, experience, solution)
              && ContentFilter.GetRiskAssessment(CombinedText(experience, advice)).requiresIntervention
    ensures r.Ok? && r.body.CrisisReply? ==>
              !r.body.success && r.body.requiresImmediateSupport && r.body.resources == CrisisResources && r.body.message == CrisisMessage
  {
    if Generation.AnyBlank(challenge, experience, solution) then Error(BadRequest, Generation.EmptyFieldsDetail)
    else if ContentFilter.GetRiskAssessment(CombinedText(experience, advice)).requiresIntervention then
      Ok(CrisisReply(false, true, CrisisResources, CrisisMessage))
    else Ok(Generate)
  }

  /**
   * A complete submission whose experience alone already calls for
   * intervention never reaches generation, whatever the advice says.
   */
  lemma CrisisInExperienceStops(challenge: string, experience: string, solution: string, advice: Option<string>)
    requires !Generation.AnyBlank(challenge, experience, solution)
    requires ContentFilter.GetRiskAssessment(experience).requiresIntervention
    ensures SubmitStory(challenge, experience, solution, advice).Ok?
    ensures SubmitStory(challenge, experience, solution, advice).body.CrisisReply?
  {
    ContentFilter.AssessmentMonotone(experience, " " + Interpolate(advice));
    assert CombinedText(experience, advice) == experience + (" " + Interpolate(advice));
  }

  /** A crisis keyword anywhere in the advice stops a complete submission as well. */
  lemma CrisisInAdviceStops(challenge: string, experience: string, solution: string, advice: string)
    requires !Generation.AnyBlank(challenge, experience, solution)
    requires ContentFilter.RequiresImmediateAttention(advice)
    ensures SubmitStory(challenge, experience, solution, Some(advice)).Ok?
    ensures SubmitStory(challenge, experience, solution, Some(advice)).body.CrisisReply?
  {
    var t := CombinedText(experience, Some(advice));
    assert t == (experience + " ") + advice;
    LowerAppend(experience + " ", advice);
    var k :| k in ContentFilter.CrisisKeywords && Contains(Lower(advice), k);
    ContainsInfix(Lower(experience + " "), Lower(advice), [], k);
    assert Lower(experience + " ") + Lower(advice) + [] == Lower(t);
    ContentFilter.ImmediateImpliesCritical(t);
  }

  // ---------------------------------------------------------------------
  // Finding similar stories

  const StoryRequiredDetail: string := "Story text is required"
  const MoreDetailsDetail: string := "Please provide more details about your situation"
  const MinStoryLength: nat := 10
  const FoundMessage: string := "Found similar stories"
  const NoneFoundMessage: string := "No similar stories found"

  /** The endpoint asks for at most 9 results scoring at least 0.1. */
  const RequestedTopK: int := 9
  const RequestedMinSimilarity: real := 0.1

  datatype SimilarReply = SimilarReply(stories: seq<StoryMatcher.SimilarStory>, totalFound: nat, message: string)

  /**
   * `find_similar_stories_endpoint`. The search itself is the story
   * matcher's; `collection` is the approved-stories collection (`None` when
   * the database is unavailable), `encode` the sentence encoder and `cosine`
   * the per-candidate similarity.
   */
  function FindSimilarStories(
    story: string,
    collection: Option<seq<Doc>>,
    encode: string -> Option<StoryMatcher.Embedding>,
    cosine: (StoryMatcher.Embedding, Doc) -> Option<real>
  ): (r: Response<SimilarReply>)
    ensures IsBlank(story) ==> r == Error(BadRequest, StoryRequiredDetail)
    ensures !IsBlank(story) && |Strip(story)| < MinStoryLength ==> r == Error(BadRequest, MoreDetailsDetail)
    ensures r.Ok? <==> |Strip(story)| >= MinStoryLength
    ensures r.Ok? ==>
              && r.body.stories == StoryMatcher.FindSimilar(story, collection, RequestedTopK, RequestedMinSimilarity, encode, cosine)
              && r.body.totalFound == |r.body.stories| <= RequestedTopK
              && (r.body.message == FoundMessage <==> r.body.stories != [])
              && (r.body.message == NoneFoundMessage <==> r.body.stories == [])
              && forall i :: 0 <= i < |r.body.stories| ==> r.body.stories[i].similarity >= RequestedMinSimilarity
  {
    if IsBlank(story) then Error(BadRequest, StoryRequiredDetail)
    else if |Strip(story)| < MinStoryLength then Error(BadRequest, MoreDetailsDetail)
    else
      var found := StoryMatcher.FindSimilar(story, collection, RequestedTopK, RequestedMinSimilarity, encode, cosine);
      Ok(SimilarReply(found, |found|, if found != [] then FoundMessage else NoneFoundMessage))
  }

  /** The endpoint's search parameters are the configured matching defaults. */
  lemma RequestUsesConfiguredDefaults()
    ensures RequestedTopK == Config.MaxSimilarStories
    ensures RequestedMinSimilarity == Config.SimilarityThreshold
  {
  }

  /** Blank input is never long enough to search with. */
  lemma BlankIsTooShort(story: string)
    requires IsBlank(story)
    ensures |Strip(story)| < MinStoryLength
  {
  }

  // ---------------------------------------------------------------------
  // Public listings

  /** Fields never shown in the public story listing. */
  const SensitiveKeys: set<string> :=
    {"user_id", "moderated_by", "moderation_notes", "match_percentage", "similarity_score"}

  /** Scoring fields left over from matching, removed from a single story. */
  const ScoreKeys: set<string> := {"match_percentage", "similarity_score"}

  /** `doc.pop(key, None)` for every key of `keys`. */
  function Scrub(d: Doc, keys: set<string>): (r: Doc)
    ensures forall k :: k in r <==> k in d && k !in keys
    ensures forall k :: k in r ==> r[k] == d[k]
  {
    map k | k in d && k !in keys :: d[k]
  }

  /** Removing fields twice removes nothing more. */
  lemma ScrubIdempotent(d: Doc, keys: set<string>)
    ensures Scrub(Scrub(d, keys), keys) == Scrub(d, keys)
  {
  }

  /** A document that carries none of the fields comes back unchanged. */
  lemma ScrubClean(d: Doc, keys: set<string>)
    requires forall k :: k in keys ==> k !in d
    ensures Scrub(d, keys) == d
  {
  }

  datatype Listing = Listing(stories: seq<Doc>, count: nat)

  /** A prefix slice holds each element at most as often as the whole list. */
  lemma PrefixSliceSub<T>(s: seq<T>, n: int)
    ensures multiset(PrefixSlice(s, n)) <= multiset(s)
  {
    var r := PrefixSlice(s, n);
    assert s == r + s[|r|..];
  }

  /**
   * The stories `get_approved_stories` keeps: the first `limit` of the
   * shuffled list when shuffling is asked for and more than `limit` came
   * back, otherwise everything fetched.
   */
  function Kept(fetched: seq<Doc>, limit: int, random: bool, shuffled: seq<Doc>): (k: seq<Doc>)
    requires multiset(shuffled) == multiset(fetched)
    ensures multiset(k) <= multiset(fetched)
    ensures !random || |fetched| <= limit ==> k == fetched
    ensures random && |fetched| > limit && limit >= 0 ==> |k| == limit
  {
    if random && |fetched| > limit then
      PrefixSliceSub(shuffled, limit);
      assert |shuffled| == |multiset(shuffled)| == |fetched|;
      PrefixSlice(shuffled, limit)
    else fetched
  }

  /**
   * `get_approved_stories` after the database read. `fetched` is what the
   * read returned and `shuffled` is the order `random.shuffle` left it in;
   * each listed story is a distinct fetched one with the sensitive fields
   * removed.
   */
  function GetApprovedStories(fetched: seq<Doc>, limit: int, random: bool, shuffled: seq<Doc>): (r: Listing)
    requires multiset(shuffled) == multiset(fetched)
    ensures r.count == |r.stories|
    ensures forall i, k :: 0 <= i < |r.stories| && k in SensitiveKeys ==> k !in r.stories[i]
    ensures forall i :: 0 <= i < |r.stories| ==> exists d :: d in fetched && r.stories[i] == Scrub(d, SensitiveKeys)
    ensures !random || |fetched| <= limit ==>
              |r.stories| == |fetched| && forall i :: 0 <= i < |fetched| ==> r.stories[i] == Scrub(fetched[i], SensitiveKeys)
    ensures random && |fetched| > limit && limit >= 0 ==> r.count == limit
    ensures exists kept: seq<Doc> ::
              && multiset(kept) <= multiset(fetched) && |kept| == |r.stories|
              && forall i :: 0 <= i < |kept| ==> r.stories[i] == Scrub(kept[i], SensitiveKeys)
  {
    var kept := Kept(fetched, limit, random, shuffled);
    SubMultisetMembers(kept, fetched);
    var stories := ScrubAll(kept);
    Listing(stories, |stories|)
  }

  /** Every document of the list with the sensitive fields removed, in order. */
  function ScrubAll(docs: seq<Doc>): (r: seq<Doc>)
    ensures |r| == |docs|
    ensures forall i :: 0 <= i < |r| ==> r[i] == Scrub(docs[i], SensitiveKeys)
  {
    seq(|docs|, i requires 0 <= i < |docs| => Scrub(docs[i], SensitiveKeys))
  }

  lemma SubMultisetMembers(xs: seq<Doc>, ys: seq<Doc>)
    requires multiset(xs) <= multiset(ys)
    ensures forall i :: 0 <= i < |xs| ==> xs[i] in ys
  {
    forall i | 0 <= i < |xs| ensures xs[i] in ys {
      assert xs[i] in multiset(xs);
    }
  }

  /** `get_story`: a missing or empty document is "not found"; otherwise the scoring fields are removed. */
  function GetStory(found: Option<Doc>): (r: Response<Doc>)
    ensures r.Error? <==> found.None? || found.value == map[]
    ensures r.Error? ==> r.status == NotFound && r.detail == NotFoundDetail
    ensures r.Ok? ==> forall k :: k in r.body <==> k in found.value && k !in ScoreKeys
    ensures r.Ok? ==> forall k :: k in r.body ==> r.body[k] == found.value[k]
  {
    if found.None? || found.value == map[] then Error(NotFound, NotFoundDetail)
    else Ok(Scrub(found.value, ScoreKeys))
  }

  const NotFoundDetail: string := "Story not found"

  // ---------------------------------------------------------------------
  // A user's own stories

  datatype Status = Pending | Approved | Rejected

  function StatusName(s: Status): string {
    match s
    case Pending => "pending"
    case Approved => "approved"
    case Rejected => "rejected"
  }

  const FetchErrorDetail: string := "Error fetching stories"

  /** `{"user_id": uid}` matches the document. */
  predicate OwnedBy(uid: string, d: Doc) {
    Get(d, "user_id") == Some(Str(uid))
  }

  /** The creation time, when the document carries one. */
  predicate Dated(d: Doc) {
    "created_at" in d && d["created_at"].Time?
  }

  predicate Undated(d: Doc) {
    !Dated(d)
  }

  /** The sort key: the creation time in seconds (every undated document ties at zero). */
  function CreatedKey(d: Doc): real {
    if Dated(d) then d["created_at"].seconds as real else 0.0
  }

  /** `.sort("created_at", -1)`: dated documents newest first, then those without a date. */
  function NewestFirst(docs: seq<Doc>): (r: seq<Doc>)
    ensures multiset(r) == multiset(docs)
    ensures forall i, j :: 0 <= i < j < |r| && Dated(r[j]) ==> Dated(r[i]) && CreatedKey(r[i]) >= CreatedKey(r[j])
  {
    var dated := SortDesc(Select(docs, Dated), CreatedKey);
    var undated := Select(docs, Undated);
    SelectPartition(docs, Dated, Undated);
    SameMembers(dated, Select(docs, Dated));
    DatedBeforeUndated(dated, undated);
    dated + undated
  }

  /** Sorted dated documents followed by undated ones list every dated document first, newest first. */
  lemma DatedBeforeUndated(dated: seq<Doc>, undated: seq<Doc>)
    requires forall d :: d in dated ==> Dated(d)
    requires forall d :: d in undated ==> Undated(d)
    requires forall i, j :: 0 <= i < j < |dated| ==> CreatedKey(dated[i]) >= CreatedKey(dated[j])
    ensures var r := dated + undated;
            forall i, j :: 0 <= i < j < |r| && Dated(r[j]) ==> Dated(r[i]) && CreatedKey(r[i]) >= CreatedKey(r[j])
  {
    var r := dated + undated;
    assert forall k :: |dated| <= k < |r| ==> Undated(r[k]) by {
      forall k | |dated| <= k < |r| ensures Undated(r[k]) {
        assert r[k] == undated[k - |dated|] && undated[k - |dated|] in undated;
      }
    }
    forall i, j | 0 <= i < j < |r| && Dated(r[j]) ensures Dated(r[i]) && CreatedKey(r[i]) >= CreatedKey(r[j]) {
      assert j < |dated|;
      assert r[i] == dated[i] && r[j] == dated[j];
      assert dated[i] in dated;
    }
  }

  /** A cursor's `.limit(n)`: zero means no limit and a negative limit counts like its absolute value. */
  function CursorLimit(docs: seq<Doc>, n: int): (r: seq<Doc>)
    ensures r <= docs
    ensures n == 0 ==> r == docs
    ensures n != 0 ==> |r| == if |docs| < Abs(n) then |docs| else Abs(n)
  {
    if n == 0 then docs else PrefixSlice(docs, Abs(n))
  }

  function Abs(n: int): nat {
    if n < 0 then -n else n
  }

  /** The user's documents of a collection, in collection order. */
  function Owned(collection: seq<Doc>, uid: string): (r: seq<Doc>)
    ensures forall d :: d in r <==> d in collection && OwnedBy(uid, d)
    ensures |r| <= |collection|
  {
    Select(collection, d => OwnedBy(uid, d))
  }

  /** `collection.find({"user_id": uid}).sort("created_at", -1).limit(limit)`. */
  function Fetch(collection: seq<Doc>, uid: string, limit: int): (r: seq<Doc>)
    ensures forall d :: d in r ==> d in collection && OwnedBy(uid, d)
    ensures |r| <= |Owned(collection, uid)|
    ensures limit == 0 ==> |r| == |Owned(collection, uid)|
    ensures limit != 0 ==> |r| == if |Owned(collection, uid)| < Abs(limit) then |Owned(collection, uid)| else Abs(limit)
    ensures forall i, j :: 0 <= i < j < |r| && Dated(r[j]) ==> Dated(r[i]) && CreatedKey(r[i]) >= CreatedKey(r[j])
    ensures limit == 0 || |Owned(collection, uid)| <= Abs(limit) ==> multiset(r) == multiset(Owned(collection, uid))
  {
    var owned := Owned(collection, uid);
    var sorted := NewestFirst(owned);
    SameMembers(sorted, owned);
    var r := CursorLimit(sorted, limit);
    assert forall d :: d in r ==> d in sorted;
    r
  }

  /** The listing entry for a stored document: `id` is the stringified `_id`, `status` names the collection, `_id` is dropped. */
  function Entry(d: Doc, s: Status): (r: Doc)
    requires "_id" in d
    ensures "_id" !in r
    ensures "id" in r && r["id"] == StringifyId(d["_id"])
    ensures "status" in r && r["status"] == Str(StatusName(s))
    ensures forall k :: k in r <==> k == "id" || k == "status" || (k in d && k != "_id")
    ensures forall k :: k in d && k !in {"_id", "id", "status"} ==> r[k] == d[k]
  {
    var r := d["id" := StringifyId(d["_id"])]["status" := Str(StatusName(s))];
    map k | k in r && k != "_id" :: r[k]
  }

  predicate HasIds(docs: seq<Doc>) {
    forall i :: 0 <= i < |docs| ==> "_id" in docs[i]
  }

  function Entries(docs: seq<Doc>, s: Status): (r: seq<Doc>)
    requires HasIds(docs)
    ensures |r| == |docs|
    ensures forall i :: 0 <= i < |r| ==> r[i] == Entry(docs[i], s)
  {
    seq(|docs|, i requires 0 <= i < |docs| => Entry(docs[i], s))
  }

  /** Python cannot order a datetime against the empty string: some entries dated and some not. */
  predicate MixedDates(docs: seq<Doc>) {
    (exists i :: 0 <= i < |docs| && Dated(docs[i])) && (exists j :: 0 <= j < |docs| && !Dated(docs[j]))
  }

  datatype UserStories = UserStories(
    stories: seq<Doc>,
    totalCount: nat,
    pendingCount: nat,
    approvedCount: nat,
    rejectedCount: nat)

  /** An entry of the listing came from the collection its status names and belongs to the user. */
  predicate EntryFrom(e: Doc, uid: string, pending: seq<Doc>, approved: seq<Doc>, rejected: seq<Doc>) {
    || (exists d :: d in pending && OwnedBy(uid, d) && "_id" in d && e == Entry(d, Pending))
    || (exists d :: d in approved && OwnedBy(uid, d) && "_id" in d && e == Entry(d, Approved))
    || (exists d :: d in rejected && OwnedBy(uid, d) && "_id" in d && e == Entry(d, Rejected))
  }

  /**
   * `get_user_stories`: up to `limit` of the user's documents from each of
   * the three collections, tagged with their status, merged and sorted
   * newest first; the merged list is cut at `limit` and the counts report
   * what each collection contributed. `fault` stands for a driver call
   * raising inside the handler's `try`, which answers like every other
   * exception there.
   */
  function GetUserStories(pending: seq<Doc>, approved: seq<Doc>, rejected: seq<Doc>, uid: string, limit: int, fault: bool)
    : (r: Response<UserStories>)
    ensures r.Error? ==> r.status == ServerError && r.detail == FetchErrorDetail
    ensures fault ==> r == Error(ServerError, FetchErrorDetail)
    ensures r.Ok? ==>
              && r.body.totalCount == r.body.pendingCount + r.body.approvedCount + r.body.rejectedCount
              && r.body.pendingCount == |Fetch(pending, uid, limit)|
              && r.body.approvedCount == |Fetch(approved, uid, limit)|
              && r.body.rejectedCount == |Fetch(rejected, uid, limit)|
              && (limit >= 0 ==> |r.body.stories| <= limit)
              && |r.body.stories| <= r.body.totalCount
              && (forall i, j :: 0 <= i < j < |r.body.stories| ==> CreatedKey(r.body.stories[i]) >= CreatedKey(r.body.stories[j]))
              && (forall i :: 0 <= i < |r.body.stories| ==> EntryFrom(r.body.stories[i], uid, pending, approved, rejected))
    ensures r.Error? <==>
              var all := Fetch(pending, uid, limit) + Fetch(approved, uid, limit) + Fetch(rejected, uid, limit);
              fault || !HasIds(all) || MixedDates(all)
    ensures r.Ok? ==>
              var p, a, j := Fetch(pending, uid, limit), Fetch(approved, uid, limit), Fetch(rejected, uid, limit);
              && HasIds(p) && HasIds(a) && HasIds(j)
              && NewestKept(r.body.stories, Merge(p, a, j))
              && (limit >= 0 ==> |r.body.stories| == if limit < r.body.totalCount then limit else r.body.totalCount)
  {
    var p := Fetch(pending, uid, limit);
    var a := Fetch(approved, uid, limit);
    var j := Fetch(rejected, uid, limit);
    if fault || !HasIds(p + a + j) then Error(ServerError, FetchErrorDetail)
    else
      IdsOfParts(p, a, j);
      var all := Merge(p, a, j);
      EntriesKeepDates(p, a, j, all);
      if MixedDates(all) then Error(ServerError, FetchErrorDetail)
      else
        var shown := NewestCut(all, limit);
        ShownFromUser(uid, pending, approved, rejected, limit, shown);
        Ok(UserStories(shown, |all|, |p|, |a|, |j|))
  }

  /** Each of the three parts of a list with ids has ids. */
  lemma IdsOfParts(p: seq<Doc>, a: seq<Doc>, j: seq<Doc>)
    requires HasIds(p + a + j)
    ensures HasIds(p) && HasIds(a) && HasIds(j)
  {
    assert forall i :: 0 <= i < |p| ==> (p + a + j)[i] == p[i];
    assert forall i :: 0 <= i < |a| ==> (p + a + j)[|p| + i] == a[i];
    assert forall i :: 0 <= i < |j| ==> (p + a + j)[|p| + |a| + i] == j[i];
  }

  /** `pending + approved + rejected` after tagging. */
  function Merge(p: seq<Doc>, a: seq<Doc>, j: seq<Doc>): (r: seq<Doc>)
    requires HasIds(p) && HasIds(a) && HasIds(j)
    ensures |r| == |p| + |a| + |j|
    ensures forall e :: e in r ==> (exists d :: d in p && e == Entry(d, Pending))
                                   || (exists d :: d in a && e == Entry(d, Approved))
                                   || (exists d :: d in j && e == Entry(d, Rejected))
  {
    var ep, ea, ej := Entries(p, Pending), Entries(a, Approved), Entries(j, Rejected);
    var r := ep + ea + ej;
    forall e | e in r
      ensures (exists d :: d in p && e == Entry(d, Pending))
              || (exists d :: d in a && e == Entry(d, Approved))
              || (exists d :: d in j && e == Entry(d, Rejected))
    {
      if e in ep {
        var i :| 0 <= i < |ep| && ep[i] == e;
        assert p[i] in p;
      } else if e in ea {
        var i :| 0 <= i < |ea| && ea[i] == e;
        assert a[i] in a;
      } else {
        assert e in ej;
        var i :| 0 <= i < |ej| && ej[i] == e;
        assert j[i] in j;
      }
    }
    r
  }

  /** Every document of the three parts is tagged into the merged list. */
  lemma MergeComplete(p: seq<Doc>, a: seq<Doc>, j: seq<Doc>, d: Doc)
    requires HasIds(p) && HasIds(a) && HasIds(j)
    ensures d in p ==> "_id" in d && Entry(d, Pending) in Merge(p, a, j)
    ensures d in a ==> "_id" in d && Entry(d, Approved) in Merge(p, a, j)
    ensures d in j ==> "_id" in d && Entry(d, Rejected) in Merge(p, a, j)
  {
    var ep, ea, ej := Entries(p, Pending), Entries(a, Approved), Entries(j, Rejected);
    assert Merge(p, a, j) == ep + ea + ej;
    if d in p {
      var i :| 0 <= i < |p| && p[i] == d;
      assert ep[i] == Entry(d, Pending);
    }
    if d in a {
      var i :| 0 <= i < |a| && a[i] == d;
      assert ea[i] == Entry(d, Approved);
    }
    if d in j {
      var i :| 0 <= i < |j| && j[i] == d;
      assert ej[i] == Entry(d, Rejected);
    }
  }

  /** `r` keeps documents of `all` and leaves out none newer than one it keeps. */
  predicate NewestKept(r: seq<Doc>, all: seq<Doc>) {
    && multiset(r) <= multiset(all)
    && forall e, f :: e in r && f in multiset(all) - multiset(r) ==> CreatedKey(f) <= CreatedKey(e)
  }

  /**
   * `sorted(all, key=created_at, reverse=True)[:limit]`: the `limit` newest
   * entries (a negative limit drops that many of the oldest), entries with
   * equal dates kept in their order in `all`.
   */
  function NewestCut(all: seq<Doc>, limit: int): (r: seq<Doc>)
    ensures |r| <= |all|
    ensures limit >= 0 ==> |r| <= limit
    ensures limit == 0 ==> r == []
    ensures limit >= 0 ==> |r| == if limit < |all| then limit else |all|
    ensures limit < 0 ==> |r| == if |all| + limit > 0 then |all| + limit else 0
    ensures forall e :: e in r ==> e in all
    ensures forall i, j :: 0 <= i < j < |r| ==> CreatedKey(r[i]) >= CreatedKey(r[j])
    ensures NewestKept(r, all)
    ensures exists t: seq<Tagged<Doc>> ::
              StableDesc(t, CreatedKey) && multiset(t) == multiset(Tag(all)) && r == PrefixSlice(Untag(t), limit)
  {
    var sorted := SortDesc(all, CreatedKey);
    var r := PrefixSlice(sorted, limit);
    CutKeepsNewest(all, sorted, r);
    CutIsStable(all, sorted, r, limit);
    r
  }

  /** A prefix of a newest-first permutation of `all` keeps the newest of `all`, in order. */
  lemma CutKeepsNewest(all: seq<Doc>, sorted: seq<Doc>, r: seq<Doc>)
    requires multiset(sorted) == multiset(all)
    requires forall i, j :: 0 <= i < j < |sorted| ==> CreatedKey(sorted[i]) >= CreatedKey(sorted[j])
    requires r <= sorted
    ensures |sorted| == |all|
    ensures forall e :: e in r ==> e in all
    ensures forall i, j :: 0 <= i < j < |r| ==> CreatedKey(r[i]) >= CreatedKey(r[j])
    ensures NewestKept(r, all)
  {
    assert |sorted| == |multiset(sorted)| == |all|;
    PrefixHoldsLargest(sorted, r, CreatedKey);
    forall e | e in r ensures e in all {
      assert e in multiset(all);
    }
    assert forall i :: 0 <= i < |r| ==> r[i] == sorted[i];
  }

  /** The stable order `SortDesc` produces carries over to the cut. */
  lemma CutIsStable(all: seq<Doc>, sorted: seq<Doc>, r: seq<Doc>, limit: int)
    requires sorted == SortDesc(all, CreatedKey) && r == PrefixSlice(sorted, limit)
    ensures exists t: seq<Tagged<Doc>> ::
              StableDesc(t, CreatedKey) && multiset(t) == multiset(Tag(all)) && r == PrefixSlice(Untag(t), limit)
  {
    var t: seq<Tagged<Doc>> :| StableDesc(t, CreatedKey) && multiset(t) == multiset(Tag(all)) && sorted == Untag(t);
  }


  /** Every listed entry is the tagged form of one of the user's own documents. */
  lemma ShownFromUser(uid: string, pending: seq<Doc>, approved: seq<Doc>, rejected: seq<Doc>, limit: int, shown: seq<Doc>)
    requires HasIds(Fetch(pending, uid, limit)) && HasIds(Fetch(approved, uid, limit)) && HasIds(Fetch(rejected, uid, limit))
    requires forall e :: e in shown ==> e in Merge(Fetch(pending, uid, limit), Fetch(approved, uid, limit), Fetch(rejected, uid, limit))
    ensures forall i :: 0 <= i < |shown| ==> EntryFrom(shown[i], uid, pending, approved, rejected)
  {
    forall i | 0 <= i < |shown|
      ensures EntryFrom(shown[i], uid, pending, approved, rejected)
    {
      assert shown[i] in shown;
    }
  }

  /** Tagging does not change which entries carry a creation date. */
  lemma EntriesKeepDates(p: seq<Doc>, a: seq<Doc>, j: seq<Doc>, all: seq<Doc>)
    requires HasIds(p) && HasIds(a) && HasIds(j)
    requires all == Merge(p, a, j)
    ensures MixedDates(all) <==> MixedDates(p + a + j)
  {
    var ep, ea, ej := Entries(p, Pending), Entries(a, Approved), Entries(j, Rejected);
    assert all == ep + ea + ej;
    EntriesDated(p, Pending);
    EntriesDated(a, Approved);
    EntriesDated(j, Rejected);
    SameDatesConcat(ep, p, ea, a);
    SameDatesConcat(ep + ea, p + a, ej, j);
    SameDatesMixed(all, p + a + j);
  }

  /** Two lists agree position by position on which entries are dated. */
  predicate SameDates(x: seq<Doc>, y: seq<Doc>) {
    |x| == |y| && forall i :: 0 <= i < |x| ==> (Dated(x[i]) <==> Dated(y[i]))
  }

  /** An entry is dated exactly when its document is. */
  lemma EntriesDated(docs: seq<Doc>, s: Status)
    requires HasIds(docs)
    ensures SameDates(Entries(docs, s), docs)
  {
    var e := Entries(docs, s);
    forall i | 0 <= i < |e| ensures Dated(e[i]) <==> Dated(docs[i]) {
      assert "created_at" !in {"_id", "id", "status"};
    }
  }

  lemma SameDatesConcat(x1: seq<Doc>, y1: seq<Doc>, x2: seq<Doc>, y2: seq<Doc>)
    requires SameDates(x1, y1) && SameDates(x2, y2)
    ensures SameDates(x1 + x2, y1 + y2)
  {
    forall i | 0 <= i < |x1 + x2| ensures Dated((x1 + x2)[i]) <==> Dated((y1 + y2)[i]) {
      if i >= |x1| {
        assert (x1 + x2)[i] == x2[i - |x1|] && (y1 + y2)[i] == y2[i - |x1|];
      }
    }
  }

  lemma SameDatesMixed(x: seq<Doc>, y: seq<Doc>)
    requires SameDates(x, y)
    ensures MixedDates(x) <==> MixedDates(y)
  {
  }

  /**
   * With `limit` 0 the cursors return every matching document but the final
   * `[:0]` slice returns none of them: the counts cover all of the user's
   * stories while the list is empty.
   */
  lemma ZeroLimitListsNothing(pending: seq<Doc>, approved: seq<Doc>, rejected: seq<Doc>, uid: string, fault: bool)
    requires GetUserStories(pending, approved, rejected, uid, 0, fault).Ok?
    ensures var b := GetUserStories(pending, approved, rejected, uid, 0, fault).body;
            && b.stories == []
            && b.pendingCount == |Owned(pending, uid)|
            && b.approvedCount == |Owned(approved, uid)|
            && b.rejectedCount == |Owned(rejected, uid)|
  {
  }

  /**
   * When the user owns no more than `limit` documents across the three
   * collections, the listing shows every one of them under its status.
   */
  lemma RoomyListingShowsAll(pending: seq<Doc>, approved: seq<Doc>, rejected: seq<Doc>, uid: string, limit: int, fault: bool, d: Doc)
    requires limit > 0
    requires |Owned(pending, uid)| + |Owned(approved, uid)| + |Owned(rejected, uid)| <= limit
    requires GetUserStories(pending, approved, rejected, uid, limit, fault).Ok?
    ensures var shown := GetUserStories(pending, approved, rejected, uid, limit, fault).body.stories;
            && (d in pending && OwnedBy(uid, d) ==> "_id" in d && Entry(d, Pending) in shown)
            && (d in approved && OwnedBy(uid, d) ==> "_id" in d && Entry(d, Approved) in shown)
            && (d in rejected && OwnedBy(uid, d) ==> "_id" in d && Entry(d, Rejected) in shown)
  {
    var p, a, j := Fetch(pending, uid, limit), Fetch(approved, uid, limit), Fetch(rejected, uid, limit);
    var r := GetUserStories(pending, approved, rejected, uid, limit, fault);
    assert HasIds(p) && HasIds(a) && HasIds(j);
    var all := Merge(p, a, j);
    assert NewestKept(r.body.stories, all);
    assert |p| + |a| + |j| <= limit;
    assert |r.body.stories| == |all|;
    MultisetSubEqual(multiset(r.body.stories), multiset(all));
    assert d in pending && OwnedBy(uid, d) ==> d in multiset(p);
    assert d in approved && OwnedBy(uid, d) ==> d in multiset(a);
    assert d in rejected && OwnedBy(uid, d) ==> d in multiset(j);
    MergeComplete(p, a, j, d);
    forall s: Status | s in {Pending, Approved, Rejected} && "_id" in d && Entry(d, s) in all
      ensures Entry(d, s) in r.body.stories
    {
      assert Entry(d, s) in multiset(r.body.stories);
    }
  }

  /** A sub-multiset of the same size is the whole multiset. */
  lemma MultisetSubEqual<T>(m: multiset<T>, n: multiset<T>)
    requires m <= n && |m| == |n|
    ensures m == n
  {
    assert |n - m| == |n| - |m|;
  }
}

=== FILE: story_matcher.dfy ===
/**
 * The semantic story matcher: the text composed from a story record, the
 * keyword theme extractor, the match explanation, and the ranking of stored
 * stories against a query. The embedding model and cosine similarity are
 * abstract: `encode` maps text to a vector or fails, and `cosine` scores a
 * stored document against the query vector or fails (missing, empty or
 * mismatched vectors all fail).
 */
module StoryMatcher {
  import opened Wrappers
  import opened Strings
  import opened Seqs
  import opened Keywords
  import opened Sorting
  import opened Documents

  // ---------------------------------------------------------------------------
  // Composed text
  // ---------------------------------------------------------------------------

  /** The narrative is cut to this many characters before it is embedded. */
  const NarrativeLimit: nat := 500

  const TextFieldKeys: seq<string> := ["challenge", "experience", "solution", "advice"]
  const Labels: seq<string> := ["Challenge", "Experience", "Solution", "Advice", "Symptoms", "Story"]

  /** Number of parts a composed text can have. */
  const PartCount: nat := 6

  function Labelled(name: string, value: string): string {
    name + ": " + value
  }

  /**
   * The items `", ".join` takes from `story_doc["key_symptoms"]`: the strings
   * of a list, the characters of a string, nothing for any other value.
   */
  function Symptoms(doc: Doc): (r: seq<string>)
    ensures r != [] <==> "key_symptoms" in doc && (doc["key_symptoms"].StrList? || doc["key_symptoms"].Str?)
                         && Truthy(doc["key_symptoms"])
  {
    if "key_symptoms" !in doc then []
    else match doc["key_symptoms"]
      case StrList(items) => items
      case Str(s) => seq(|s|, k requires 0 <= k < |s| => [s[k]])
      case _ => []
  }

  /**
   * Whether part `i` (in the fixed order Challenge .. Story) is present: its
   * field is a non-empty string, or for the symptoms a non-empty list or string.
   */
  predicate PartPresent(doc: Doc, i: nat) {
    if i < 4 then Text(doc, TextFieldKeys[i]) != ""
    else if i == 4 then Symptoms(doc) != []
    else i == 5 && Text(doc, "generated_story") != ""
  }

  /** How part `i` is rendered when present. */
  function PartText(doc: Doc, i: nat): string
    requires i < PartCount
  {
    if i < 4 then Labelled(Labels[i], Text(doc, TextFieldKeys[i]))
    else if i == 4 then Labelled(Labels[4], Join(Symptoms(doc), ", "))
    else Labelled(Labels[5], Cut(Text(doc, "generated_story"), NarrativeLimit))
  }

  /** Indices `i..5` of the present parts, in increasing order. */
  function PresentFrom(doc: Doc, i: nat): (r: seq<nat>)
    requires i <= PartCount
    ensures forall k :: 0 <= k < |r| ==> i <= r[k] < PartCount && PartPresent(doc, r[k])
    ensures forall k, l :: 0 <= k < l < |r| ==> r[k] < r[l]
    ensures forall j :: i <= j < PartCount && PartPresent(doc, j) ==> j in r
    decreases PartCount - i
  {
    if i == PartCount then []
    else if PartPresent(doc, i) then [i] + PresentFrom(doc, i + 1)
    else PresentFrom(doc, i + 1)
  }

  /**
   * The parts of the composed text: one rendered part per present field, in the
   * fixed field order; absent or empty fields contribute nothing.
   */
  function ComposeParts(doc: Doc): (r: seq<string>)
    ensures |r| <= PartCount
    ensures exists idx: seq<nat> :: PartsAt(doc, idx, r)
  {
    var idx := PresentFrom(doc, 0);
    assert |idx| <= PartCount by {
      StrictlyIncreasingBound(idx);
    }
    var r := seq(|idx|, k requires 0 <= k < |idx| => PartText(doc, idx[k]));
    assert PartsAt(doc, idx, r);
    r
  }

  /** `r` renders exactly the present parts of `doc`, listed by `idx` in increasing field order. */
  predicate PartsAt(doc: Doc, idx: seq<nat>, r: seq<string>) {
    && |idx| == |r|
    && (forall k :: 0 <= k < |idx| ==> idx[k] < PartCount && PartPresent(doc, idx[k]) && r[k] == PartText(doc, idx[k]))
    && (forall k, l :: 0 <= k < l < |idx| ==> idx[k] < idx[l])
    && (forall j :: 0 <= j < PartCount && PartPresent(doc, j) ==> j in idx)
  }

  lemma {:induction false} StrictlyIncreasingBound(idx: seq<nat>)
    requires forall k :: 0 <= k < |idx| ==> idx[k] < PartCount
    requires forall k, l :: 0 <= k < l < |idx| ==> idx[k] < idx[l]
    ensures |idx| <= PartCount
  {
    var k := 0;
    while k < |idx|
      invariant 0 <= k <= |idx|
      invariant forall m :: 0 <= m < k ==> idx[m] >= m
    {
      if k > 0 {
        assert idx[k - 1] < idx[k];
      }
      k := k + 1;
    }
    if |idx| > 0 {
      assert idx[|idx| - 1] >= |idx| - 1;
    }
  }

  /** `create_story_embedding_text`: the present parts joined with " | ". */
  function ComposeText(doc: Doc): (r: string)
    ensures r == "" <==> forall j :: 0 <= j < PartCount ==> !PartPresent(doc, j)
  {
    ComposeEmpty(doc);
    Join(ComposeParts(doc), " | ")
  }

  lemma ComposeEmpty(doc: Doc)
    ensures Join(ComposeParts(doc), " | ") == "" <==> forall j :: 0 <= j < PartCount ==> !PartPresent(doc, j)
  {
    var parts := ComposeParts(doc);
    var idx :| PartsAt(doc, idx, parts);
    if |parts| > 0 {
      assert parts[0] == PartText(doc, idx[0]);
      JoinNonEmpty(parts, " | ");
    } else {
      assert forall j :: 0 <= j < PartCount ==> !PartPresent(doc, j);
    }
  }

  lemma JoinNonEmpty(parts: seq<string>, sep: string)
    requires |parts| > 0 && parts[0] != ""
    ensures Join(parts, sep) != ""
  {
    if |parts| > 1 {
      assert Join(parts, sep)[0] == parts[0][0];
    }
  }

  /** The Story part holds the narrative verbatim up to 500 characters, else its first 500 and "...". */
  lemma StoryPart(doc: Doc)
    ensures var n := Text(doc, "generated_story");
            && (|n| <= NarrativeLimit ==> PartText(doc, 5) == "Story: " + n)
            && (|n| > NarrativeLimit ==> PartText(doc, 5) == "Story: " + n[..NarrativeLimit] + "...")
  {
  }

  // ---------------------------------------------------------------------------
  // Themes and match explanations
  // ---------------------------------------------------------------------------

  datatype Theme =
    | Depression | Anxiety | Isolation | Sleep | Feeding | Bonding
    | Identity | Relationship | Support | Recovery | Guilt | Baby

  /** The theme vocabulary in the order it is scanned. */
  const Vocabulary: seq<Theme> :=
    [Depression, Anxiety, Isolation, Sleep, Feeding, Bonding,
     Identity, Relationship, Support, Recovery, Guilt, Baby]

  function ThemeName(t: Theme): string {
    match t
    case Depression => "depression"
    case Anxiety => "anxiety"
    case Isolation => "isolation"
    case Sleep => "sleep"
    case Feeding => "feeding"
    case Bonding => "bonding"
    case Identity => "identity"
    case Relationship => "relationship"
    case Support => "support"
    case Recovery => "recovery"
    case Guilt => "guilt"
    case Baby => "baby"
  }

  function ThemeKeywords(t: Theme): seq<string> {
    match t
    case Depression => ["depression", "depressed", "sad", "hopeless", "worthless", "empty", "dark"]
    case Anxiety => ["anxiety", "anxious", "worried", "panic", "overwhelmed", "scared", "fear"]
    case Isolation => ["lonely", "alone", "isolated", "no one", "support", "friends"]
    case Sleep => ["sleep", "tired", "exhausted", "insomnia", "sleepless", "fatigue"]
    case Feeding => ["breastfeeding", "feeding", "bottle", "latch", "milk", "nutrition"]
    case Bonding => ["bond", "bonding", "connection", "attachment", "love", "feelings"]
    case Identity => ["identity", "myself", "who am i", "lost", "changed", "person"]
    case Relationship => ["partner", "husband", "relationship", "marriage", "spouse"]
    case Support => ["help", "support", "therapy", "counselor", "treatment", "medication"]
    case Recovery => ["better", "healing", "recovery", "improvement", "hope", "progress"]
    case Guilt => ["guilt", "shame", "failure", "bad mother", "not enough"]
    case Baby => ["baby", "newborn", "infant", "child", "crying", "care"]
  }

  lemma InVocabulary(t: Theme)
    ensures t in Vocabulary
  {
    match t
    case Depression => assert Vocabulary[0] == t;
    case Anxiety => assert Vocabulary[1] == t;
    case Isolation => assert Vocabulary[2] == t;
    case Sleep => assert Vocabulary[3] == t;
    case Feeding => assert Vocabulary[4] == t;
    case Bonding => assert Vocabulary[5] == t;
    case Identity => assert Vocabulary[6] == t;
    case Relationship => assert Vocabulary[7] == t;
    case Support => assert Vocabulary[8] == t;
    case Recovery => assert Vocabulary[9] == t;
    case Guilt => assert Vocabulary[10] == t;
    case Baby => assert Vocabulary[11] == t;
  }

  lemma AllInVocabulary()
    ensures forall t :: t in Vocabulary
  {
    forall t {
      InVocabulary(t);
    }
  }

  /** Whether theme `t` is found in `text` (lower-cased, plain substring test). */
  predicate HasTheme(text: string, t: Theme) {
    AnyOccurs(ThemeKeywords(t), Lower(text))
  }

  /**
   * `_extract_key_themes`: a theme is reported iff one of its keywords occurs in
   * the lower-cased text; themes come in vocabulary order, each at most once.
   */
  function ExtractThemes(text: string): (r: seq<Theme>)
    ensures forall t :: t in r <==> HasTheme(text, t)
    ensures IsSubsequence(r, Vocabulary)
    ensures Distinct(r)
    ensures |r| <= |Vocabulary|
  {
    var p := (t: Theme) => HasTheme(text, t);
    SelectDistinct(Vocabulary, p);
    AllInVocabulary();
    Select(Vocabulary, p)
  }

  function ThemeNames(ts: seq<Theme>): (r: seq<string>)
    ensures |r| == |ts|
    ensures forall i :: 0 <= i < |ts| ==> r[i] == ThemeName(ts[i])
  {
    seq(|ts|, i requires 0 <= i < |ts| => ThemeName(ts[i]))
  }

  const ExplanationPrefix: string := "Similar experiences with: "
  const GenericExplanation: string := "Similar emotional journey and experiences"

  /** Themes found both in the query and in the composed text of the story. */
  predicate Shared(inputText: string, story: Doc, t: Theme) {
    HasTheme(inputText, t) && HasTheme(ComposeText(story), t)
  }

  /** `order` lists every shared theme exactly once (one possible iteration order of a set). */
  predicate EnumeratesShared(order: seq<Theme>, inputText: string, story: Doc) {
    Distinct(order) && forall t :: t in order <==> Shared(inputText, story, t)
  }

  /** The themes found in both texts, each once (`input_themes & story_themes`). */
  function CommonThemes(inputText: string, story: Doc): (r: seq<Theme>)
    ensures EnumeratesShared(r, inputText, story)
  {
    var storyThemes := ExtractThemes(ComposeText(story));
    var inputThemes := ExtractThemes(inputText);
    SelectDistinct(inputThemes, t => t in storyThemes);
    Select(inputThemes, t => t in storyThemes)
  }

  /**
   * `_explain_match`: when the two theme sets intersect, the prefix followed by
   * the shared themes joined with ", " (Python leaves the order of a set
   * unspecified; any enumeration of the intersection is allowed); otherwise
   * the generic sentence.
   */
  function ExplainMatch(inputText: string, story: Doc): (r: string)
    ensures (exists t :: Shared(inputText, story, t)) ==>
              exists order :: EnumeratesShared(order, inputText, story)
                && order != [] && r == ExplanationPrefix + Join(ThemeNames(order), ", ")
    ensures (forall t :: !Shared(inputText, story, t)) ==> r == GenericExplanation
  {
    var common := CommonThemes(inputText, story);
    if common != [] then
      assert Shared(inputText, story, common[0]);
      ExplanationPrefix + Join(ThemeNames(common), ", ")
    else
      GenericExplanation
  }

  // ---------------------------------------------------------------------------
  // Ranking
  // ---------------------------------------------------------------------------

  type Embedding = seq<real>

  /** A candidate that scored at or above the threshold. */
  datatype Scored = Scored(story: Doc, similarity: real)

  /** One returned result. */
  datatype SimilarStory = SimilarStory(story: Doc, similarity: real, matchExplanation: string)

  function Similarity(s: Scored): real {
    s.similarity
  }

  /** The cursor's filter: documents that have an `embedding` field and status "approved". */
  predicate IsCandidate(d: Doc) {
    "embedding" in d && Get(d, "status") == Some(Str("approved"))
  }

  function Candidates(collection: seq<Doc>): (r: seq<Doc>)
    ensures forall d :: d in r <==> d in collection && IsCandidate(d)
  {
    Select(collection, IsCandidate)
  }

  /** Candidates whose similarity could be computed at all. */
  function Scorable(query: Embedding, docs: seq<Doc>, cosine: (Embedding, Doc) -> Option<real>): seq<Doc> {
    Select(docs, d => cosine(query, d).Some?)
  }

  /**
   * The scan: every candidate is scored; one whose scoring fails is skipped
   * without stopping the scan, and one below `minSimilarity` is dropped.
   */
  function Scan(query: Embedding, docs: seq<Doc>, cosine: (Embedding, Doc) -> Option<real>, minSimilarity: real): (r: seq<Scored>)
    ensures |r| <= |Scorable(query, docs, cosine)|
    ensures forall i :: 0 <= i < |r| ==>
              && r[i].story in docs
              && cosine(query, r[i].story) == Some(r[i].similarity)
              && r[i].similarity >= minSimilarity
    ensures forall d :: d in docs && cosine(query, d).Some? && cosine(query, d).value >= minSimilarity ==>
              Scored(d, cosine(query, d).value) in r
    decreases |docs|
  {
    if |docs| == 0 then []
    else
      var rest := Scan(query, docs[1..], cosine, minSimilarity);
      var c := cosine(query, docs[0]);
      if c.Some? && c.value >= minSimilarity then [Scored(docs[0], c.value)] + rest else rest
  }

  /**
   * `similarities.sort(key=..., reverse=True)` followed by `[:top_k]`, keeping
   * each entry's scan position: results are in non-increasing similarity, and
   * entries of equal similarity stay in scan order.
   */
  function RankTagged(scored: seq<Scored>, topK: int): (r: seq<Tagged<Scored>>)
    ensures StableDesc(r, Similarity)
    ensures forall i :: 0 <= i < |r| ==> r[i].pos < |scored| && scored[r[i].pos] == r[i].item
    ensures |r| == |PrefixSlice(scored, topK)|
  {
    var sorted := SortTagged(Tag(scored), Similarity);
    assert |sorted| == |multiset(sorted)| == |scored|;
    forall i | 0 <= i < |sorted| ensures sorted[i].pos < |scored| && scored[sorted[i].pos] == sorted[i].item {
      assert sorted[i] in multiset(Tag(scored));
    }
    PrefixSlice(sorted, topK)
  }

  /** The similarities that survive the threshold, ranked and cut to `top_k`. */
  function Rank(scored: seq<Scored>, topK: int): (r: seq<Scored>)
    ensures |r| == |PrefixSlice(scored, topK)|
    ensures forall i :: 0 <= i < |r| ==> r[i] in scored
    ensures forall i, j :: 0 <= i < j < |r| ==> r[i].similarity >= r[j].similarity
  {
    var t := RankTagged(scored, topK);
    Untag(t)
  }

  /** The returned copy of a stored story: no `embedding` field and a stringified `_id`. */
  function Present(d: Doc): (r: Doc)
    ensures "embedding" !in r
    ensures forall k :: k in r <==> k in d && k != "embedding"
    ensures forall k :: k in r && k != "_id" ==> r[k] == d[k]
    ensures "_id" in r ==> r["_id"] == StringifyId(d["_id"])
  {
    var copy := d - {"embedding"};
    if "_id" in copy then copy["_id" := StringifyId(copy["_id"])] else copy
  }

  /** `generate_embedding`: a failure to encode yields the empty list instead of raising. */
  function GenerateEmbedding(text: string, encode: string -> Option<Embedding>): (r: Embedding)
    ensures encode(text).None? ==> r == []
    ensures encode(text).Some? ==> r == encode(text).value
  {
    encode(text).GetOr([])
  }

  /** One returned entry per ranked similarity, in ranked order. */
  function Results(inputText: string, ranked: seq<Scored>): (r: seq<SimilarStory>)
    ensures |r| == |ranked|
    ensures forall i :: 0 <= i < |r| ==>
              && r[i].story == Present(ranked[i].story)
              && r[i].similarity == ranked[i].similarity
              && r[i].matchExplanation == ExplainMatch(inputText, r[i].story)
  {
    seq(|ranked|, i requires 0 <= i < |ranked| =>
      SimilarStory(Present(ranked[i].story), ranked[i].similarity, ExplainMatch(inputText, Present(ranked[i].story))))
  }

  /** The returned story `s` is the copy of an approved, embedded document with that score. */
  predicate FromCandidate(query: Embedding, docs: seq<Doc>, cosine: (Embedding, Doc) -> Option<real>, s: SimilarStory) {
    exists d :: d in docs && IsCandidate(d) && Present(d) == s.story && cosine(query, d) == Some(s.similarity)
  }

  /** The body of the outer `try` once the query vector and the cursor are at hand. */
  function Respond(
    inputText: string,
    query: Embedding,
    docs: seq<Doc>,
    topK: int,
    minSimilarity: real,
    cosine: (Embedding, Doc) -> Option<real>
  ): (r: seq<SimilarStory>)
    ensures forall i :: 0 <= i < |r| ==> r[i].similarity >= minSimilarity
    ensures forall i, j :: 0 <= i < j < |r| ==> r[i].similarity >= r[j].similarity
    ensures topK >= 0 ==> |r| <= topK
    ensures |r| <= |Scorable(query, Candidates(docs), cosine)|
    ensures forall i :: 0 <= i < |r| ==> "embedding" !in r[i].story
    ensures forall i :: 0 <= i < |r| ==> r[i].matchExplanation == ExplainMatch(inputText, r[i].story)
    ensures forall i :: 0 <= i < |r| ==> FromCandidate(query, docs, cosine, r[i])
  {
    var scored := Scan(query, Candidates(docs), cosine, minSimilarity);
    var ranked := Rank(scored, topK);
    var r := Results(inputText, ranked);
    forall i | 0 <= i < |r| ensures FromCandidate(query, docs, cosine, r[i]) {
      assert ranked[i] in scored;
      var d := ranked[i].story;
      assert d in Candidates(docs);
    }
    r
  }

  /**
   * `find_similar_stories_with_embeddings`. `collection` is `None` when reading
   * the collection fails; that, or `encode` failing on the query, yields `[]`.
   */
  function FindSimilar(
    inputText: string,
    collection: Option<seq<Doc>>,
    topK: int,
    minSimilarity: real,
    encode: string -> Option<Embedding>,
    cosine: (Embedding, Doc) -> Option<real>
  ): (r: seq<SimilarStory>)
    ensures encode(inputText).None? || collection.None? ==> r == []
    ensures forall i :: 0 <= i < |r| ==> r[i].similarity >= minSimilarity
    ensures forall i, j :: 0 <= i < j < |r| ==> r[i].similarity >= r[j].similarity
    ensures topK >= 0 ==> |r| <= topK
    ensures forall i :: 0 <= i < |r| ==> "embedding" !in r[i].story
    ensures forall i :: 0 <= i < |r| ==> r[i].matchExplanation == ExplainMatch(inputText, r[i].story)
    ensures encode(inputText).Some? && collection.Some? ==>
              && |r| <= |Scorable(encode(inputText).value, Candidates(collection.value), cosine)|
              && forall i :: 0 <= i < |r| ==> FromCandidate(encode(inputText).value, collection.value, cosine, r[i])
  {
    match (encode(inputText), collection)
    case (Some(query), Some(docs)) => Respond(inputText, query, docs, topK, minSimilarity, cosine)
    case _ => []
  }

  /**
   * Top-k completeness of the ranking: an entry that survived the threshold
   * is returned, or `top_k` entries at least as similar were returned instead.
   */
  lemma {:induction false} RankComplete(scored: seq<Scored>, topK: int, j: nat)
    requires topK >= 0 && j < |scored|
    ensures var r := Rank(scored, topK);
            scored[j] in r || (|r| == topK && forall i :: 0 <= i < |r| ==> r[i].similarity >= scored[j].similarity)
  {
    var tagged := Tag(scored);
    var sorted := SortTagged(tagged, Similarity);
    var x := Tagged(j, scored[j]);
    assert tagged[j] == x;
    assert x in multiset(sorted);
    var k :| 0 <= k < |sorted| && sorted[k] == x;
    var t := PrefixSlice(sorted, topK);
    assert t == RankTagged(scored, topK);
    var r := Untag(t);
    assert r == Rank(scored, topK);
    if k < |t| {
      assert r[k] == scored[j];
    } else {
      assert |sorted| == |multiset(sorted)| == |scored|;
      forall i | 0 <= i < |r| ensures r[i].similarity >= scored[j].similarity {
        assert Before(sorted[i], sorted[k], Similarity);
      }
    }
  }

  lemma {:induction false} RespondComplete(
    inputText: string,
    query: Embedding,
    docs: seq<Doc>,
    topK: int,
    minSimilarity: real,
    cosine: (Embedding, Doc) -> Option<real>,
    d: Doc
  )
    requires topK >= 0 && d in docs && IsCandidate(d)
    requires cosine(query, d).Some? && cosine(query, d).value >= minSimilarity
    ensures var r := Respond(inputText, query, docs, topK, minSimilarity, cosine);
            var v := cosine(query, d).value;
            (exists i :: 0 <= i < |r| && r[i].story == Present(d) && r[i].similarity == v)
            || (|r| == topK && forall i :: 0 <= i < |r| ==> r[i].similarity >= v)
  {
    var v := cosine(query, d).value;
    var scored := Scan(query, Candidates(docs), cosine, minSimilarity);
    assert d in Candidates(docs);
    assert Scored(d, v) in scored;
    var j :| 0 <= j < |scored| && scored[j] == Scored(d, v);
    RankComplete(scored, topK, j);
    var ranked := Rank(scored, topK);
    var r := Results(inputText, ranked);
    assert r == Respond(inputText, query, docs, topK, minSimilarity, cosine);
    if Scored(d, v) in ranked {
      var i :| 0 <= i < |ranked| && ranked[i] == Scored(d, v);
      assert r[i].story == Present(d) && r[i].similarity == v;
    }
  }

  /**
   * Every approved, embedded document that scores at or above the threshold
   * appears in the answer, unless `top_k` stories at least as similar fill it.
   */
  lemma FindSimilarComplete(
    inputText: string,
    docs: seq<Doc>,
    topK: int,
    minSimilarity: real,
    encode: string -> Option<Embedding>,
    cosine: (Embedding, Doc) -> Option<real>,
    d: Doc
  )
    requires topK >= 0
    requires encode(inputText).Some? && d in docs && IsCandidate(d)
    requires cosine(encode(inputText).value, d).Some?
    requires cosine(encode(inputText).value, d).value >= minSimilarity
    ensures var r := FindSimilar(inputText, Some(docs), topK, minSimilarity, encode, cosine);
            var v := cosine(encode(inputText).value, d).value;
            (exists i :: 0 <= i < |r| && r[i].story == Present(d) && r[i].similarity == v)
            || (|r| == topK && forall i :: 0 <= i < |r| ==> r[i].similarity >= v)
  {
    RespondComplete(inputText, encode(inputText).value, docs, topK, minSimilarity, cosine, d);
  }
}

=== FILE: strings.dfy ===
/**
 * Python string primitives the backend relies on: `lower`, `strip`, the `in`
 * substring test, `join`, `split`, and slicing with a "..." marker.
 */
module Strings {

  /** Python's `str.isspace()` for one character (the characters `strip()` removes). */
  predicate IsSpace(c: char) {
    var n := c as int;
    (0x09 <= n <= 0x0d) || (0x1c <= n <= 0x20) || n == 0x85 || n == 0xa0
    || n == 0x1680 || (0x2000 <= n <= 0x200a) || n == 0x2028 || n == 0x2029
    || n == 0x202f || n == 0x205f || n == 0x3000
  }

  predicate IsAsciiUpper(c: char) {
    'A' <= c <= 'Z'
  }

  function LowerChar(c: char): char {
    if IsAsciiUpper(c) then (c as int + 32) as char else c
  }

  /** `s.lower()`, restricted to the ASCII letters. */
  function Lower(s: string): (r: string)
    ensures |r| == |s|
    ensures forall i :: 0 <= i < |s| ==> r[i] == LowerChar(s[i])
    ensures forall i :: 0 <= i < |r| ==> !IsAsciiUpper(r[i])
  {
    seq(|s|, i requires 0 <= i < |s| => LowerChar(s[i]))
  }

  lemma LowerAppend(a: string, b: string)
    ensures Lower(a + b) == Lower(a) + Lower(b)
  {
  }

  /** Lower-casing twice is lower-casing once. */
  lemma LowerIdempotent(s: string)
    ensures Lower(Lower(s)) == Lower(s)
  {
  }

  /** Number of leading whitespace characters of `s`. */
  function LeadingSpaces(s: string): (n: nat)
    ensures n <= |s|
    ensures forall i :: 0 <= i < n ==> IsSpace(s[i])
    ensures n < |s| ==> !IsSpace(s[n])
    decreases |s|
  {
    if |s| > 0 && IsSpace(s[0]) then 1 + LeadingSpaces(s[1..]) else 0
  }

  /** Number of trailing whitespace characters of `s`. */
  function TrailingSpaces(s: string): (n: nat)
    ensures n <= |s|
    ensures forall i :: |s| - n <= i < |s| ==> IsSpace(s[i])
    ensures n < |s| ==> !IsSpace(s[|s| - n - 1])
    decreases |s|
  {
    if |s| > 0 && IsSpace(s[|s| - 1]) then 1 + TrailingSpaces(s[..|s| - 1]) else 0
  }

  /** `r` sits at position `i` of `s` with only whitespace around it. */
  predicate PaddedAt(s: string, r: string, i: int) {
    && 0 <= i <= |s| - |r| && s[i..i + |r|] == r
    && (forall k :: 0 <= k < i ==> IsSpace(s[k]))
    && (forall k :: i + |r| <= k < |s| ==> IsSpace(s[k]))
  }

  /** `s.strip()`: the longest infix of `s` neither starting nor ending with whitespace. */
  function Strip(s: string): (r: string)
    ensures |r| <= |s|
    ensures r == [] || (!IsSpace(r[0]) && !IsSpace(r[|r| - 1]))
    ensures exists i :: PaddedAt(s, r, i)
  {
    var a := LeadingSpaces(s);
    var t := s[a..];
    var b := TrailingSpaces(t);
    var r := t[..|t| - b];
    assert s[a..a + |r|] == r;
    assert PaddedAt(s, r, a);
    r
  }

  /** A string with no whitespace at either end is its own strip. */
  lemma StripTrimmed(s: string)
    requires s == [] || (!IsSpace(s[0]) && !IsSpace(s[|s| - 1]))
    ensures Strip(s) == s
  {
    assert LeadingSpaces(s) == 0;
    assert s[0..] == s;
    assert TrailingSpaces(s) == 0;
  }

  /** Stripping twice is stripping once. */
  lemma StripIdempotent(s: string)
    ensures Strip(Strip(s)) == Strip(s)
  {
    StripTrimmed(Strip(s));
  }

  /** Python's truthiness of `s.strip()`: the string is empty or all whitespace. */
  predicate IsBlank(s: string) {
    Strip(s) == []
  }

  lemma BlankIffAllSpace(s: string)
    ensures IsBlank(s) <==> forall k :: 0 <= k < |s| ==> IsSpace(s[k])
  {
    var r := Strip(s);
    var i :| PaddedAt(s, r, i);
    if r != [] {
      assert s[i] == r[0];
    }
  }

  /** Python's `k in text` on strings: `k` occurs as a contiguous substring. */
  predicate Contains(text: string, k: string)
    decreases |text|
  {
    k <= text || (|text| > 0 && Contains(text[1..], k))
  }

  /** `k` occurs in `text` starting at position `i`. */
  predicate OccursAt(text: string, k: string, i: int) {
    0 <= i <= |text| - |k| && text[i..i + |k|] == k
  }

  lemma OccursAtStart(k: string, s: string)
    ensures OccursAt(k + s, k, 0)
  {
    assert (k + s)[..|k|] == k;
  }

  /** An occurrence moves right by the length of a prefix put in front. */
  lemma OccursShift(p: string, s: string, k: string, i: int)
    requires OccursAt(s, k, i)
    ensures OccursAt(p + s, k, |p| + i)
  {
    assert (p + s)[|p| + i..|p| + i + |k|] == s[i..i + |k|];
  }

  /** An occurrence stays put when text is appended. */
  lemma OccursExtend(s: string, q: string, k: string, i: int)
    requires OccursAt(s, k, i)
    ensures OccursAt(s + q, k, i)
  {
    assert (s + q)[i..i + |k|] == s[i..i + |k|];
  }

  /** Every occurrence found by `Contains` has a position. */
  lemma {:induction false} ContainsWitness(text: string, k: string) returns (i: int)
    requires Contains(text, k)
    ensures OccursAt(text, k, i)
    decreases |text|
  {
    if k <= text {
      i := 0;
    } else {
      var j := ContainsWitness(text[1..], k);
      assert text[1..][j..j + |k|] == text[j + 1..j + 1 + |k|];
      i := j + 1;
    }
  }

  /** A witness position proves an occurrence. */
  lemma {:induction false} ContainsAt(text: string, k: string, i: int)
    requires OccursAt(text, k, i)
    ensures Contains(text, k)
    decreases i
  {
    if i > 0 {
      assert text[1..][i - 1..i - 1 + |k|] == text[i..i + |k|];
      ContainsAt(text[1..], k, i - 1);
    }
  }

  lemma ContainsIff(text: string, k: string)
    ensures Contains(text, k) <==> exists i :: OccursAt(text, k, i)
  {
    if Contains(text, k) {
      var i := ContainsWitness(text, k);
    }
    if exists i :: OccursAt(text, k, i) {
      var i :| OccursAt(text, k, i);
      ContainsAt(text, k, i);
    }
  }

  /** An occurrence in a part is an occurrence in any string around it. */
  lemma ContainsInfix(a: string, b: string, c: string, k: string)
    requires Contains(b, k)
    ensures Contains(a + b + c, k)
  {
    var i := ContainsWitness(b, k);
    assert (a + b + c)[|a| + i..|a| + i + |k|] == k;
    ContainsAt(a + b + c, k, |a| + i);
  }

  /** An occurrence in a string is an occurrence in any extension of it. */
  lemma ContainsPrefix(a: string, b: string, k: string)
    requires Contains(a, k)
    ensures Contains(a + b, k)
  {
    ContainsInfix([], a, b, k);
    assert [] + a + b == a + b;
  }

  /** `sep.join(parts)`. */
  function Join(parts: seq<string>, sep: string): string
    decreases |parts|
  {
    if |parts| == 0 then ""
    else if |parts| == 1 then parts[0]
    else parts[0] + sep + Join(parts[1..], sep)
  }

  /** Number of occurrences of character `c` in `s` (`s.count(c)`). */
  function CountChar(s: string, c: char): nat
    decreases |s|
  {
    if |s| == 0 then 0 else (if s[0] == c then 1 else 0) + CountChar(s[1..], c)
  }

  /** `s.split(c)` for a one-character separator. */
  function Split(s: string, c: char): (r: seq<string>)
    ensures |r| == CountChar(s, c) + 1
    ensures forall p :: p in r ==> c !in p
    decreases |s|
  {
    if |s| == 0 then [""]
    else
      var rest := Split(s[1..], c);
      if s[0] == c then [""] + rest
      else [[s[0]] + rest[0]] + rest[1..]
  }

  /** Joining the pieces of a split with the separator gives back the input. */
  lemma {:induction false} SplitJoin(s: string, c: char)
    ensures Join(Split(s, c), [c]) == s
    decreases |s|
  {
    if |s| > 0 {
      SplitJoin(s[1..], c);
      var rest := Split(s[1..], c);
      if s[0] == c {
        assert Split(s, c) == [""] + rest;
        assert s == [c] + s[1..];
      } else {
        var r := [[s[0]] + rest[0]] + rest[1..];
        if |rest| == 1 {
          assert s == [s[0]] + rest[0];
        } else {
          assert r[1..] == rest[1..];
          assert Join(rest, [c]) == rest[0] + [c] + Join(rest[1..], [c]);
          assert s == [s[0]] + s[1..];
        }
      }
    }
  }

  /** `s[:n] + ("..." if len(s) > n else "")` for a non-negative `n`. */
  function Cut(s: string, n: nat): (r: string)
    ensures |s| <= n ==> r == s
    ensures |s| > n ==> |r| == n + 3 && r[..n] == s[..n] && r[n..] == "..."
  {
    if |s| > n then s[..n] + "..." else s
  }

  /** Python's `s[:n]` for any integer `n` (a negative `n` counts from the end). */
  function PrefixSlice<T>(s: seq<T>, n: int): (r: seq<T>)
    ensures n >= 0 ==> |r| == if n < |s| then n else |s|
    ensures n < 0 ==> |r| == if |s| + n > 0 then |s| + n else 0
    ensures r <= s
  {
    if n >= 0 then (if n < |s| then s[..n] else s)
    else (if |s| + n > 0 then s[..|s| + n] else [])
  }
}

=== FILE: symptoms.dfy ===
/**
 * Rule-based symptom extraction from a parent's description, and the
 * insights (risk level, recommendations, targeted resources) derived from an
 * extraction record.
 */
module Symptoms {
  import opened Wrappers
  import opened Strings
  import opened Seqs
  import opened Keywords

  // ---------------------------------------------------------------------------
  // Vocabulary
  // ---------------------------------------------------------------------------

  datatype Category = Emotional | Physical | Cognitive | Social | Behavioral

  /** The categories in the order they are scanned. */
  const Categories: seq<Category> := [Emotional, Physical, Cognitive, Social, Behavioral]

  function CategoryName(c: Category): string {
    match c
    case Emotional => "emotional"
    case Physical => "physical"
    case Cognitive => "cognitive"
    case Social => "social"
    case Behavioral => "behavioral"
  }

  function CategoryKeywords(c: Category): seq<string> {
    match c
    case Emotional =>
      ["anxiety", "depression", "mood swings", "irritability", "crying", "overwhelmed", "guilt",
       "shame", "anger", "fear", "worry", "sadness", "hopeless", "panic"]
    case Physical =>
      ["fatigue", "exhaustion", "sleep deprivation", "headaches", "muscle tension",
       "appetite changes", "weight changes", "pain", "weakness"]
    case Cognitive =>
      ["brain fog", "memory problems", "concentration", "confusion", "decisions",
       "racing thoughts", "forgetfulness"]
    case Social =>
      ["isolation", "loneliness", "relationship problems", "bonding", "withdrawal",
       "disconnected", "support"]
    case Behavioral =>
      ["sleep problems", "eating changes", "avoiding", "perfectionism", "obsessive",
       "checking", "restless"]
  }

  /** The keywords of `cats`, category after category. */
  function KeywordsOf(cats: seq<Category>): seq<string>
    decreases |cats|
  {
    if |cats| == 0 then [] else CategoryKeywords(cats[0]) + KeywordsOf(cats[1..])
  }

  /** Every symptom keyword, in category-then-keyword order. */
  function AllKeywords(): seq<string> {
    KeywordsOf(Categories)
  }

  const SeverityWords: seq<string> := ["exhausted", "overwhelming", "terrible", "awful", "severe", "intense"]

  datatype Severity = Severe | Moderate | Mild

  function SeverityName(s: Severity): string {
    match s
    case Severe => "severe"
    case Moderate => "moderate"
    case Mild => "mild"
  }

  datatype Concern = SleepDeprivation | BondingDifficulties | SocialIsolation | AnxietyConcern | MoodConcerns

  /** The concern mapping in its insertion order. */
  const Concerns: seq<Concern> := [SleepDeprivation, BondingDifficulties, SocialIsolation, AnxietyConcern, MoodConcerns]

  function ConcernName(c: Concern): string {
    match c
    case SleepDeprivation => "sleep deprivation"
    case BondingDifficulties => "bonding difficulties"
    case SocialIsolation => "social isolation"
    case AnxietyConcern => "anxiety"
    case MoodConcerns => "mood concerns"
  }

  function ConcernTriggers(c: Concern): seq<string> {
    match c
    case SleepDeprivation => ["sleep", "tired"]
    case BondingDifficulties => ["bond", "connect"]
    case SocialIsolation => ["alone", "isolated"]
    case AnxietyConcern => ["anxious", "worry"]
    case MoodConcerns => ["sad", "depressed"]
  }

  lemma AllCategories()
    ensures forall c :: c in Categories
  {
    forall c ensures c in Categories {
      match c
      case Emotional => assert Categories[0] == c;
      case Physical => assert Categories[1] == c;
      case Cognitive => assert Categories[2] == c;
      case Social => assert Categories[3] == c;
      case Behavioral => assert Categories[4] == c;
    }
  }

  lemma AllConcerns()
    ensures forall c :: c in Concerns
  {
    forall c ensures c in Concerns {
      match c
      case SleepDeprivation => assert Concerns[0] == c;
      case BondingDifficulties => assert Concerns[1] == c;
      case SocialIsolation => assert Concerns[2] == c;
      case AnxietyConcern => assert Concerns[3] == c;
      case MoodConcerns => assert Concerns[4] == c;
    }
  }

  // ---------------------------------------------------------------------------
  // Rule-based extraction
  // ---------------------------------------------------------------------------

  /** The scanned text: `f"{experience} {feelings}".lower()`. */
  function Combined(experience: string, feelings: string): string {
    Lower(experience + " " + feelings)
  }

  /**
   * The source's nested loop: for each category in turn, its keywords that
   * occur in `text`. It is the flat keyword scan over all categories, and a
   * keyword is reported iff it belongs to a scanned category and occurs.
   */
  function Identified(cats: seq<Category>, text: string): (r: seq<string>)
    ensures r == Matching(KeywordsOf(cats), text)
    ensures forall k :: k in r <==> exists c :: c in cats && k in CategoryKeywords(c) && Contains(text, k)
    decreases |cats|
  {
    if |cats| == 0 then []
    else
      var rest := Identified(cats[1..], text);
      MatchingAppend(CategoryKeywords(cats[0]), KeywordsOf(cats[1..]), text);
      assert forall c :: c in cats <==> c == cats[0] || c in cats[1..];
      Matching(CategoryKeywords(cats[0]), text) + rest
  }

  /** `categories_affected`: the categories with at least one keyword match, in category order. */
  function Affected(text: string): (r: seq<Category>)
    ensures forall c :: c in r <==> AnyOccurs(CategoryKeywords(c), text)
    ensures IsSubsequence(r, Categories)
  {
    AllCategories();
    Select(Categories, c => AnyOccurs(CategoryKeywords(c), text))
  }

  /** The concerns whose triggers occur, in mapping order. */
  function ConcernsFound(text: string): (r: seq<Concern>)
    ensures forall c :: c in r <==> AnyOccurs(ConcernTriggers(c), text)
    ensures |r| <= |Concerns|
  {
    AllConcerns();
    Select(Concerns, c => AnyOccurs(ConcernTriggers(c), text))
  }

  /** Python's count of severity words counts distinct words. */
  lemma SeverityWordsDistinct()
    ensures Distinct(SeverityWords)
  {
  }

  /** The severity ladder on the number of severity words present. */
  function SeverityOf(text: string): (s: Severity)
    ensures s == Severe <==> |Hits(SeverityWords, text)| >= 3
    ensures s == Moderate <==> 1 <= |Hits(SeverityWords, text)| < 3
    ensures s == Mild <==> !AnyOccurs(SeverityWords, text)
  {
    SeverityWordsDistinct();
    HitsCount(SeverityWords, text);
    var n := CountOccurring(SeverityWords, text);
    if n >= 3 then Severe else if n >= 1 then Moderate else Mild
  }

  function CategoryNames(cs: seq<Category>): (r: seq<string>)
    ensures |r| == |cs| && forall i :: 0 <= i < |cs| ==> r[i] == CategoryName(cs[i])
  {
    seq(|cs|, i requires 0 <= i < |cs| => CategoryName(cs[i]))
  }

  function ConcernNames(cs: seq<Concern>): (r: seq<string>)
    ensures |r| == |cs| && forall i :: 0 <= i < |cs| ==> r[i] == ConcernName(cs[i])
  {
    seq(|cs|, i requires 0 <= i < |cs| => ConcernName(cs[i]))
  }

  /** The extraction record (the dictionary the service returns). */
  datatype Extraction = Extraction(
    symptomsIdentified: seq<string>,
    severityIndicators: seq<string>,
    categoriesAffected: seq<string>,
    keyConcerns: seq<string>,
    extractionMethod: string,
    totalSymptomsFound: nat)

  const SymptomLimit: nat := 10
  const ConcernLimit: nat := 5

  /** `extract_symptoms_rule_based`. */
  function ExtractRuleBased(experience: string, feelings: string): (r: Extraction)
    ensures var text := Combined(experience, feelings);
            var all := Matching(AllKeywords(), text);
            && r.symptomsIdentified == PrefixSlice(all, SymptomLimit)
            && r.totalSymptomsFound == |all|
            && (forall k :: k in all <==> k in AllKeywords() && Contains(text, k))
            && r.categoriesAffected == CategoryNames(Affected(text))
            && r.severityIndicators == [SeverityName(SeverityOf(text))]
            && r.keyConcerns == ConcernNames(ConcernsFound(text))
            && |r.keyConcerns| <= ConcernLimit
            && r.extractionMethod == "rule_based"
  {
    var text := Combined(experience, feelings);
    var identified := Identified(Categories, text);
    var concerns := ConcernNames(ConcernsFound(text));
    WholePrefix(concerns, ConcernLimit);
    Extraction(
      PrefixSlice(identified, SymptomLimit),
      [SeverityName(SeverityOf(text))],
      CategoryNames(Affected(text)),
      PrefixSlice(concerns, ConcernLimit),
      "rule_based",
      |identified|)
  }

  /** A slice at least as long as the list is the whole list. */
  lemma WholePrefix<T>(s: seq<T>, n: nat)
    requires |s| <= n
    ensures PrefixSlice(s, n) == s
  {
  }

  lemma SymptomCategory(text: string, k: string)
    requires k in Identified(Categories, text)
    ensures exists c :: c in Affected(text) && k in CategoryKeywords(c) && CategoryName(c) in CategoryNames(Affected(text))
  {
    var c :| c in Categories && k in CategoryKeywords(c) && Contains(text, k);
    var affected := Affected(text);
    assert c in affected;
    var i :| 0 <= i < |affected| && affected[i] == c;
    assert CategoryNames(affected)[i] == CategoryName(c);
  }

  /** Every keyword of a prefix of the identified list belongs to an affected category. */
  lemma PrefixInAffected(text: string, s: seq<string>)
    requires s <= Identified(Categories, text)
    ensures forall k :: k in s ==>
              exists c :: c in Affected(text) && k in CategoryKeywords(c) && CategoryName(c) in CategoryNames(Affected(text))
  {
    var all := Identified(Categories, text);
    forall k | k in s
      ensures exists c :: c in Affected(text) && k in CategoryKeywords(c) && CategoryName(c) in CategoryNames(Affected(text))
    {
      var j :| 0 <= j < |s| && s[j] == k;
      assert all[j] == k;
      SymptomCategory(text, k);
    }
  }

  /** Every reported symptom belongs to a category reported as affected. */
  lemma SymptomsInAffectedCategories(experience: string, feelings: string)
    ensures var text := Combined(experience, feelings);
            var r := ExtractRuleBased(experience, feelings);
            forall k :: k in r.symptomsIdentified ==>
              exists c :: c in Affected(text) && k in CategoryKeywords(c) && CategoryName(c) in r.categoriesAffected
  {
    var text := Combined(experience, feelings);
    var r := ExtractRuleBased(experience, feelings);
    PrefixInAffected(text, r.symptomsIdentified);
  }

  // ---------------------------------------------------------------------------
  // Insights
  // ---------------------------------------------------------------------------

  /** An extraction record as a dictionary: any key may be missing. */
  datatype SymptomData = SymptomData(
    symptomsIdentified: Option<seq<string>>,
    categoriesAffected: Option<seq<string>>,
    severityIndicators: Option<seq<string>>,
    keyConcerns: Option<seq<string>>)

  function AsData(e: Extraction): SymptomData {
    SymptomData(Some(e.symptomsIdentified), Some(e.categoriesAffected), Some(e.severityIndicators), Some(e.keyConcerns))
  }

  datatype Insights = Insights(riskLevel: string, recommendations: seq<string>, supportResources: seq<string>)

  const HighRecommendations: seq<string> :=
    ["Consider speaking with a healthcare provider",
     "Reach out to a mental health professional",
     "Contact postnatal support services"]

  const MediumRecommendations: seq<string> :=
    ["Consider additional support resources",
     "Talk to other parents in similar situations",
     "Practice self-care strategies"]

  const LowRecommendations: seq<string> :=
    ["Continue monitoring your wellbeing",
     "Connect with other parents",
     "Prioritize rest when possible"]

  const AnxietyResource: string := "Anxiety support groups"
  const SleepResource: string := "Sleep support resources"
  const BondingResource: string := "Parent-baby bonding support"

  /** `str()` of the `IndexError` that `severity_indicators[0]` raises on an empty list (the default `["mild"]` applies only to a missing key). */
  const IndexError: string := "list index out of range"

  /** Some key concern contains `topic` as a substring. */
  predicate Mentions(concerns: seq<string>, topic: string) {
    exists c :: c in concerns && Contains(c, topic)
  }

  function Resources(concerns: seq<string>): (r: seq<string>)
    ensures AnxietyResource in r <==> Mentions(concerns, "anxiety")
    ensures SleepResource in r <==> Mentions(concerns, "sleep")
    ensures BondingResource in r <==> Mentions(concerns, "bonding")
    ensures forall x :: x in r ==> x in [AnxietyResource, SleepResource, BondingResource]
    ensures IsSubsequence(r, [AnxietyResource, SleepResource, BondingResource])
  {
    var all := [AnxietyResource, SleepResource, BondingResource];
    var topics := [Mentions(concerns, "anxiety"), Mentions(concerns, "sleep"), Mentions(concerns, "bonding")];
    Select(all, x => (x == AnxietyResource && topics[0]) || (x == SleepResource && topics[1]) || (x == BondingResource && topics[2]))
  }

  /** `get_symptom_insights`. */
  function GetSymptomInsights(data: SymptomData): (r: Result<Insights, string>)
    ensures r.Failure? <==> data.severityIndicators == Some([])
    ensures r.Success? ==>
              var n := |data.symptomsIdentified.GetOr([])|;
              var m := |data.categoriesAffected.GetOr([])|;
              var severity := data.severityIndicators.GetOr(["mild"])[0];
              var high := n >= 8 || m >= 4 || severity == "severe";
              var medium := n >= 4 || m >= 2 || severity == "moderate";
              && (r.value.riskLevel == "high" <==> high)
              && (r.value.riskLevel == "medium" <==> !high && medium)
              && (r.value.riskLevel == "low" <==> !high && !medium)
              && |r.value.recommendations| == 3
              && (high ==> r.value.recommendations == HighRecommendations)
              && (!high && medium ==> r.value.recommendations == MediumRecommendations)
              && (!high && !medium ==> r.value.recommendations == LowRecommendations)
              && r.value.supportResources == Resources(data.keyConcerns.GetOr([]))
  {
    var indicators := data.severityIndicators.GetOr(["mild"]);
    if |indicators| == 0 then Failure(IndexError)
    else
      var n := |data.symptomsIdentified.GetOr([])|;
      var m := |data.categoriesAffected.GetOr([])|;
      var severity := indicators[0];
      var resources := Resources(data.keyConcerns.GetOr([]));
      if n >= 8 || m >= 4 || severity == "severe" then Success(Insights("high", HighRecommendations, resources))
      else if n >= 4 || m >= 2 || severity == "moderate" then Success(Insights("medium", MediumRecommendations, resources))
      else Success(Insights("low", LowRecommendations, resources))
  }

  /** Insights over a record with one severity entry never fail; a "severe" entry alone makes the risk high. */
  lemma InsightsOfSingleSeverity(e: Extraction)
    requires |e.severityIndicators| == 1
    ensures var r := GetSymptomInsights(AsData(e));
            r.Success? && (e.severityIndicators[0] == "severe" ==> r.value.riskLevel == "high")
  {
  }

  /** Insights over a rule-based extraction never fail, and severe wording alone makes the risk high. */
  lemma RuleBasedInsights(experience: string, feelings: string)
    ensures var e := ExtractRuleBased(experience, feelings);
            var r := GetSymptomInsights(AsData(e));
            && r.Success?
            && (SeverityOf(Combined(experience, feelings)) == Severe ==> r.value.riskLevel == "high")
  {
    var e := ExtractRuleBased(experience, feelings);
    InsightsOfSingleSeverity(e);
  }
}

=== FILE: templates.dfy ===
/**
 * Text templates: the fallback recovery story, the fallback supportive
 * message, and the prompts sent to the language models.
 */
module Templates {
  import opened Strings

  // ---------------------------------------------------------------------------
  // Excerpts
  // ---------------------------------------------------------------------------

  /** `f"{label}{text[:n]}{'...' if len(text) > n else ''}{suffix}"`. */
  function Section(head: string, text: string, n: nat, suffix: string): (r: string)
    ensures |text| <= n ==> r == head + text + suffix
    ensures |text| > n ==> r == head + text[..n] + "..." + suffix
    ensures |r| <= |head| + n + 3 + |suffix|
  {
    head + Cut(text, n) + suffix
  }

  /** Texts longer than `n` that agree on their first `n` characters give the same section. */
  lemma SectionIgnoresTail(head: string, t1: string, t2: string, n: nat, suffix: string)
    requires |t1| > n && |t2| > n && t1[..n] == t2[..n]
    ensures Section(head, t1, n, suffix) == Section(head, t2, n, suffix)
  {
  }

  /** `head + body + tail` starts with `head` and ends with `tail`. */
  function Frame(head: string, body: string, tail: string): (r: string)
    ensures |r| == |head| + |body| + |tail|
    ensures r[..|head|] == head
    ensures r[|r| - |tail|..] == tail
  {
    var r := head + body + tail;
    assert r[..|head|] == head;
    assert r[|r| - |tail|..] == tail;
    r
  }

  /** An occurrence inside the body of a frame, shifted past the head. */
  lemma OccursInFrame(head: string, body: string, tail: string, k: string, i: int)
    requires OccursAt(body, k, i)
    ensures OccursAt(Frame(head, body, tail), k, |head| + i)
  {
    OccursShift(head, body, k, i);
    OccursExtend(head + body, tail, k, |head| + i);
  }

  // ---------------------------------------------------------------------------
  // Fallback recovery story
  // ---------------------------------------------------------------------------

  const StoryExcerpt: nat := 150
  const AdviceExcerpt: nat := 100

  const Encouragement: string :=
    "Remember: Recovery is possible. Every small step forward matters, and you're not alone in this journey."

  function StoryHeader(challenge: string): string {
    "Recovery Story: Overcoming " + challenge + "\n\n"
  }

  function ExperienceSection(experience: string): string {
    Section("The challenge: ", experience, StoryExcerpt, "\n\n")
  }

  function SolutionSection(solution: string): string {
    Section("What helped: ", solution, StoryExcerpt, "\n\n")
  }

  /** The advice section, present only for a non-empty advice. */
  function AdviceSection(advice: string): string {
    if advice != "" then Section("Advice to others: ", advice, AdviceExcerpt, "\n\n") else ""
  }

  /** Characters a fallback story can hold besides the challenge itself. */
  const FallbackOverhead: nat := 29 + (15 + 153 + 2) + (13 + 153 + 2) + (18 + 103 + 2) + |Encouragement|

  /**
   * `create_fallback_recovery_story`: the header naming the challenge, the
   * experience and solution excerpts, the advice excerpt when there is advice,
   * and the closing encouragement. Only the challenge is unbounded.
   */
  function FallbackRecoveryStory(challenge: string, experience: string, solution: string, advice: string): (r: string)
    ensures |r| >= |StoryHeader(challenge)| && r[..|StoryHeader(challenge)|] == StoryHeader(challenge)
    ensures |r| >= |Encouragement| && r[|r| - |Encouragement|..] == Encouragement
    ensures |r| <= |challenge| + FallbackOverhead
  {
    Frame(StoryHeader(challenge), ExperienceSection(experience) + SolutionSection(solution) + AdviceSection(advice),
      Encouragement)
  }

  /** The fallback story's sections, in order; the advice section is empty iff the advice is. */
  lemma FallbackLayout(challenge: string, experience: string, solution: string, advice: string)
    ensures FallbackRecoveryStory(challenge, experience, solution, advice)
         == StoryHeader(challenge) + (ExperienceSection(experience) + SolutionSection(solution)
            + AdviceSection(advice)) + Encouragement
    ensures AdviceSection(advice) == "" <==> advice == ""
  {
  }

  /** Only the first 150 characters of the experience reach the fallback story. */
  lemma FallbackIgnoresExperienceTail(challenge: string, e1: string, e2: string, solution: string, advice: string)
    requires |e1| > StoryExcerpt && |e2| > StoryExcerpt && e1[..StoryExcerpt] == e2[..StoryExcerpt]
    ensures FallbackRecoveryStory(challenge, e1, solution, advice) == FallbackRecoveryStory(challenge, e2, solution, advice)
  {
    SectionIgnoresTail("The challenge: ", e1, e2, StoryExcerpt, "\n\n");
  }

  // ---------------------------------------------------------------------------
  // Fallback supportive message
  // ---------------------------------------------------------------------------

  const ExperienceSnippet: nat := 80
  const FeelingsSnippet: nat := 60

  const Validation: string := "What you're experiencing is completely valid and more common than you might think. "
  const Reassurance: string :=
    "You're not alone in this, and you're doing better than you think. These difficult moments don't define your worth as a parent. Be gentle with yourself - you're navigating one of life's biggest transitions, and it's okay to struggle while you find your way."

  /** Characters a fallback message can hold in all. */
  const MessageLimit: nat :=
    |Validation| + (|"The challenges you're facing - "| + 83 + |MessageMiddle|) + (|"Your feelings of "| + 63 + |MessageFeelingsEnd|) + |Reassurance|

  const MessageMiddle: string :=
    " - are part of the intense reality of early parenthood that many don't talk openly about. "
  const MessageFeelingsEnd: string := " make perfect sense given what you're going through. "

  /**
   * `create_fallback_supportive_message`: fixed sentences around an 80-character
   * excerpt of the experience and a 60-character excerpt of the feelings.
   */
  function FallbackSupportiveMessage(experience: string, feelings: string): (r: string)
    ensures |r| >= |Validation| && r[..|Validation|] == Validation
    ensures |r| >= |Reassurance| && r[|r| - |Reassurance|..] == Reassurance
    ensures |r| <= MessageLimit
  {
    Frame(Validation,
      Section("The challenges you're facing - ", experience, ExperienceSnippet, MessageMiddle)
      + Section("Your feelings of ", feelings, FeelingsSnippet, MessageFeelingsEnd),
      Reassurance)
  }

  /**
   * The message's parts in order: the opening sentence, the experience
   * excerpt, the feelings excerpt and the closing sentences; an input within
   * its excerpt length appears whole, a longer one as its first characters
   * followed by "...".
   */
  lemma MessageLayout(experience: string, feelings: string)
    ensures FallbackSupportiveMessage(experience, feelings)
         == Validation
            + Section("The challenges you're facing - ", experience, ExperienceSnippet, MessageMiddle)
            + Section("Your feelings of ", feelings, FeelingsSnippet, MessageFeelingsEnd)
            + Reassurance
    ensures |experience| <= ExperienceSnippet && |feelings| <= FeelingsSnippet ==>
              (FallbackSupportiveMessage(experience, feelings)
               == Validation + ("The challenges you're facing - " + experience + MessageMiddle)
                  + ("Your feelings of " + feelings + MessageFeelingsEnd) + Reassurance)
    ensures |experience| > ExperienceSnippet && |feelings| > FeelingsSnippet ==>
              (FallbackSupportiveMessage(experience, feelings)
               == Validation + ("The challenges you're facing - " + experience[..ExperienceSnippet] + "..." + MessageMiddle)
                  + ("Your feelings of " + feelings[..FeelingsSnippet] + "..." + MessageFeelingsEnd) + Reassurance)
  {
    var a := Section("The challenges you're facing - ", experience, ExperienceSnippet, MessageMiddle);
    var b := Section("Your feelings of ", feelings, FeelingsSnippet, MessageFeelingsEnd);
    assert FallbackSupportiveMessage(experience, feelings) == Validation + (a + b) + Reassurance;
    assert Validation + (a + b) == Validation + a + b;
  }

  /** Only the first 80 characters of the experience and 60 of the feelings reach the message. */
  lemma MessageIgnoresTails(e1: string, e2: string, f1: string, f2: string)
    requires e1 == e2 || (|e1| > ExperienceSnippet && |e2| > ExperienceSnippet && e1[..ExperienceSnippet] == e2[..ExperienceSnippet])
    requires f1 == f2 || (|f1| > FeelingsSnippet && |f2| > FeelingsSnippet && f1[..FeelingsSnippet] == f2[..FeelingsSnippet])
    ensures FallbackSupportiveMessage(e1, f1) == FallbackSupportiveMessage(e2, f2)
  {
    if e1 != e2 {
      SectionIgnoresTail("The challenges you're facing - ", e1, e2, ExperienceSnippet, MessageMiddle);
    }
    if f1 != f2 {
      SectionIgnoresTail("Your feelings of ", f1, f2, FeelingsSnippet, MessageFeelingsEnd);
    }
  }

  // ---------------------------------------------------------------------------
  // Prompts
  // ---------------------------------------------------------------------------

  /** The two copies of the prompt builder differ only in their length instructions. */
  datatype PromptVariant = Current | Legacy

  function PromptIntro(v: PromptVariant): string {
    match v
    case Current => "Write a concise, inspiring recovery story (~150 words NOT MORE) based on this person's experience:\n\n"
    case Legacy => "Write a concise, inspiring recovery story (150-200 words) based on this person's experience:\n\n"
  }

  /** The closing instructions; the copies differ only in "UNDER" against "under". */
  function PromptInstructions(v: PromptVariant): string {
    match v
    case Current =>
      "Create a short, compelling narrative that:\n- Tells their story in a warm, relatable way\n- Highlights the key turning points\n- Includes specific, actionable solutions\n- Ends with hope and encouragement\n- Keeps it concise but emotionally resonant\n\nWrite in third person, make it feel authentic, and focus on the most important parts of their journey. Keep it UNDER 200 words.\n\n"
    case Legacy =>
      "Create a short, compelling narrative that:\n- Tells their story in a warm, relatable way\n- Highlights the key turning points\n- Includes specific, actionable solutions\n- Ends with hope and encouragement\n- Keeps it concise but emotionally resonant\n\nWrite in third person, make it feel authentic, and focus on the most important parts of their journey. Keep it under 200 words.\n\n"
  }

  /** The four labelled input lines (the second line keeps its two trailing blanks). */
  function FieldLines(x1: string, x2: string, x3: string, x4: string): string {
    x1 + ("\n" + (x2 + ("  \n" + (x3 + ("\n" + (x4 + "\n\n"))))))
  }

  /** In `x + (sep + rest)`, `x` opens the text and every occurrence in `rest` moves right by `|x| + |sep|`. */
  lemma OccursAround(x: string, sep: string, rest: string, k: string, i: int)
    requires OccursAt(rest, k, i)
    ensures OccursAt(x + (sep + rest), x, 0)
    ensures OccursAt(x + (sep + rest), k, |x| + |sep| + i)
  {
    OccursAtStart(x, sep + rest);
    OccursShift(sep, rest, k, i);
    OccursShift(x, sep + rest, k, |sep| + i);
  }

  /** The four lines sit at fixed offsets of the block. */
  lemma FieldOffsets(x1: string, x2: string, x3: string, x4: string)
    ensures var f := FieldLines(x1, x2, x3, x4);
            && OccursAt(f, x1, 0)
            && OccursAt(f, x2, |x1| + 1)
            && OccursAt(f, x3, |x1| + |x2| + 4)
            && OccursAt(f, x4, |x1| + |x2| + |x3| + 5)
  {
    var f4 := x4 + "\n\n";
    var f3 := x3 + ("\n" + f4);
    var f2 := x2 + ("  \n" + f3);
    OccursAtStart(x4, "\n\n");
    OccursAround(x3, "\n", f4, x4, 0);
    OccursAround(x2, "  \n", f3, x3, 0);
    OccursAround(x2, "  \n", f3, x4, |x3| + 1);
    OccursAround(x1, "\n", f2, x2, 0);
    OccursAround(x1, "\n", f2, x3, |x2| + 3);
    OccursAround(x1, "\n", f2, x4, |x2| + |x3| + 4);
  }

  const StoryCue: string := "Story:"

  /**
   * `create_recovery_story_prompt`: the labelled lines Challenge, Experience,
   * Solution and Advice, each followed by its input, in that order; the
   * prompt ends with "Story:".
   */
  function RecoveryPrompt(v: PromptVariant, challenge: string, experience: string, solution: string, advice: string)
    : (r: string)
    ensures InOrder(r, "Challenge: " + challenge, "Experience: " + experience, "Solution: " + solution, "Advice: " + advice)
    ensures EndsWithCue(r)
  {
    FramedFields(PromptIntro(v), "Challenge: " + challenge, "Experience: " + experience,
                 "Solution: " + solution, "Advice: " + advice, PromptInstructions(v))
  }

  /** The field block between an introduction and closing instructions, ending with the story cue. */
  function FramedFields(intro: string, x1: string, x2: string, x3: string, x4: string, tail: string): (r: string)
    ensures InOrder(r, x1, x2, x3, x4)
    ensures EndsWithCue(r)
  {
    PromptOrder(intro, x1, x2, x3, x4, tail);
    Frame(intro, FieldLines(x1, x2, x3, x4) + tail, StoryCue)
  }

  /** The prompt's last line asks for the story. */
  predicate EndsWithCue(r: string) {
    |r| >= |StoryCue| && r[|r| - |StoryCue|..] == StoryCue
  }

  /** `x1` .. `x4` occur in `r` in this order. */
  ghost predicate InOrder(r: string, x1: string, x2: string, x3: string, x4: string) {
    exists i1, i2, i3, i4 :: i1 < i2 < i3 < i4
      && OccursAt(r, x1, i1) && OccursAt(r, x2, i2) && OccursAt(r, x3, i3) && OccursAt(r, x4, i4)
  }

  /** Lines framed by any introduction and instructions occur in order. */
  lemma PromptOrder(intro: string, x1: string, x2: string, x3: string, x4: string, tail: string)
    ensures InOrder(Frame(intro, FieldLines(x1, x2, x3, x4) + tail, StoryCue), x1, x2, x3, x4)
  {
    var fields := FieldLines(x1, x2, x3, x4);
    FieldOffsets(x1, x2, x3, x4);
    OccursExtend(fields, tail, x1, 0);
    OccursExtend(fields, tail, x2, |x1| + 1);
    OccursExtend(fields, tail, x3, |x1| + |x2| + 4);
    OccursExtend(fields, tail, x4, |x1| + |x2| + |x3| + 5);
    OccursInFrame(intro, fields + tail, StoryCue, x1, 0);
    OccursInFrame(intro, fields + tail, StoryCue, x2, |x1| + 1);
    OccursInFrame(intro, fields + tail, StoryCue, x3, |x1| + |x2| + 4);
    OccursInFrame(intro, fields + tail, StoryCue, x4, |x1| + |x2| + |x3| + 5);
  }

  const SupportPreamble: string :=
    "You are a compassionate peer support specialist helping parents. Take their experience and transform it into a supportive, validating message.\n\nYour response should:\n- Acknowledge and validate their feelings\n- Normalize their experience \n- Offer gentle perspective and encouragement\n- Be warm, understanding, and non-judgmental\n- Be 150-250 words\n- Focus on hope and reassurance while honoring their struggle\n\n"

  const SupportClosing: string :=
    "\n\nWrite a compassionate response that acknowledges their struggle, normalizes their experience, and offers gentle encouragement."

  /** `create_supportive_message_prompt`: the experience line, then the feelings line. */
  function SupportivePrompt(experience: string, feelings: string): (r: string)
    ensures exists i1, i2 :: i1 < i2
              && OccursAt(r, "Experience: " + experience, i1)
              && OccursAt(r, "Feelings: " + feelings, i2)
    ensures |r| >= |SupportPreamble| && r[..|SupportPreamble|] == SupportPreamble
  {
    FramedPair(SupportPreamble, "Experience: " + experience, "Feelings: " + feelings, SupportClosing)
  }

  /** Two lines separated by a blank line, between a preamble and a closing. */
  function FramedPair(head: string, x1: string, x2: string, tail: string): (r: string)
    ensures OccursAt(r, x1, |head|) && OccursAt(r, x2, |head| + |x1| + 2)
    ensures |r| >= |head| && r[..|head|] == head
  {
    var body := x1 + ("\n\n" + x2);
    OccursAtStart(x2, []);
    assert x2 + [] == x2;
    OccursAround(x1, "\n\n", x2, x2, 0);
    OccursInFrame(head, body, tail, x1, 0);
    OccursInFrame(head, body, tail, x2, |x1| + 2);
    Frame(head, body, tail)
  }
}

=== FILE: users.dfy ===
/**
 * User registration: accounts are keyed by their lower-cased e-mail address.
 * The users collection is a sequence of account records in insertion order.
 */
module Users {
  import opened Wrappers
  import opened Strings

  datatype User = User(
    email: string,
    passwordHash: string,
    displayName: string,
    role: string,
    isActive: bool,
    emailVerified: bool,
    storiesShared: nat)

  datatype CreateOutcome = Created | AlreadyExists | CreateFailed

  function OutcomeMessage(o: CreateOutcome): string {
    match o
    case Created => "User created successfully"
    case AlreadyExists => "User already exists"
    case CreateFailed => "Failed to create user"
  }

  const DefaultDisplayName: string := "Anonymous"

  /** `find_one({"email": email})` found a record. */
  predicate Registered(users: seq<User>, email: string) {
    exists i :: 0 <= i < |users| && users[i].email == email
  }

  /** Every stored address is lower-case and no two accounts share one. */
  predicate WellFormed(users: seq<User>) {
    && (forall i :: 0 <= i < |users| ==> Lower(users[i].email) == users[i].email)
    && (forall i, j :: 0 <= i < j < |users| ==> users[i].email != users[j].email)
  }

  /** The new account record, before insertion. */
  function NewUser(email: string, passwordHash: string, displayName: Option<string>): User {
    var name := displayName.GetOr("");
    User(Lower(email), passwordHash, if name == "" then DefaultDisplayName else name, "user", true, false, 0)
  }

  /**
   * `UserDatabase.create_user`. `lookupFault` stands for `find_one` raising,
   * `insertFault` for `insert_one` raising; either is caught and reported as
   * "Failed to create user", with nothing stored.
   */
  function CreateUser(
    users: seq<User>, email: string, passwordHash: string, displayName: Option<string>,
    lookupFault: bool, insertFault: bool)
    : (r: (CreateOutcome, seq<User>))
    ensures lookupFault ==> r.0 == CreateFailed
    ensures !lookupFault && Registered(users, Lower(email)) ==> r.0 == AlreadyExists
    ensures r.0 != Created ==> r.1 == users
    ensures r.0 == Created <==> !lookupFault && !insertFault && !Registered(users, Lower(email))
    ensures r.0 == Created ==>
              && |r.1| == |users| + 1 && r.1[..|users|] == users
              && var u := r.1[|users|];
              && u.email == Lower(email) && u.passwordHash == passwordHash
              && u.role == "user" && u.isActive && !u.emailVerified && u.storiesShared == 0
              && (displayName.None? || displayName == Some("") ==> u.displayName == DefaultDisplayName)
              && (displayName.Some? && displayName.value != "" ==> u.displayName == displayName.value)
  {
    if lookupFault then (CreateFailed, users)
    else if Registered(users, Lower(email)) then (AlreadyExists, users)
    else if insertFault then (CreateFailed, users)
    else
      var r := users + [NewUser(email, passwordHash, displayName)];
      assert r[..|users|] == users;
      (Created, r)
  }

  /** Registration keeps addresses lower-case and unique. */
  lemma CreatePreservesWellFormed(
    users: seq<User>, email: string, passwordHash: string, displayName: Option<string>,
    lookupFault: bool, insertFault: bool)
    requires WellFormed(users)
    ensures WellFormed(CreateUser(users, email, passwordHash, displayName, lookupFault, insertFault).1)
  {
    LowerIdempotent(email);
  }

  /** Addresses differing only in letter case name the same account: the second registration is refused. */
  lemma CaseInsensitiveEmails(users: seq<User>, email: string, other: string, passwordHash: string, displayName: Option<string>)
    requires Lower(email) == Lower(other)
    ensures var (o, after) := CreateUser(users, email, passwordHash, displayName, false, false);
            o == Created ==> CreateUser(after, other, passwordHash, displayName, false, false).0 == AlreadyExists
  {
    var (o, after) := CreateUser(users, email, passwordHash, displayName, false, false);
    if o == Created {
      assert after[|users|].email == Lower(other);
    }
  }
}

=== FILE: wrappers.dfy ===
/** Failure-compatible wrappers shared by every module of the model. */
module Wrappers {

  /** A value that may be missing: Python's `None` or an absent dictionary key. */
  datatype Option<+T> = None | Some(value: T) {

    /** The wrapped value, or `default` when missing (Python's `x or default`). */
    function GetOr(default: T): T {
      match this
      case Some(v) => v
      case None => default
    }
  }

  /** Either a value or an error; the model's stand-in for a raised exception. */
  datatype Result<+R, +E> = Success(value: R) | Failure(error: E) {

    predicate IsFailure() {
      Failure?
    }

    function PropagateFailure<U>(): Result<U, E>
      requires Failure?
    {
      Failure(error)
    }

    function Extract(): R
      requires Success?
    {
      value
    }
  }
}
